=== FILE: README.md ===
# CUDA container CI manager: a verified model of its resolution core

The manager drives the build pipelines of the CUDA container images. It
reads a YAML manifest keyed by CUDA release (`cuda_v<version>[_<pipeline>]`)
and the generated `.gitlab-ci.yml`. From them it works out which GitLab
pipelines a trigger command starts, and what form data the trigger POST
carries. It also builds the templating contexts that the Dockerfiles, the
GitLab pipeline file and the tag documents are rendered from, and it chooses
the registries an image is pushed to.

This project models the pure part of that work in Dafny and proves
properties of it. The model covers:

- `Manifest`: the manifest as a tree of values, and the tolerant `get_data` lookup.
- `ReleaseKeys`: the release-key formats (`cuda_v…`), their parsing, and `target_all`'s job names.
- `Regex` and `Gates`: the gate-line scanners `ci_pipelines` and `ci_pipeline_by_name`, over a small backtracking matcher.
- `Triggers`: the trigger-string parsers and `populate_triggers`.
- `Payload`: the payloads of `kickoff` and `kickoff_from_kitmaker`.
- `Push`: `setup_repos`.
- `Utils`: `auth_registries`, `supported_distro_list_by_cuda_version`, `supported_arch_list`, `latest_l4t_base_image` and `template_packages`.
- `Context`: `prepare_context`, `extract_keys` and `cudnn_versions`.
- `Naming`: the output file names of `write_template`.
- `Gitlab`: `generate_gitlab_pipelines`.
- `Tags`: `generate_tags`. Its release table is filed under `key.split("v")[1]`, as the code does it; the corrected table, filed under the whole suffix, is kept beside it.
- `Wrappers`, `Strings` and `StringOrder`: Python's `str.split`, `strip`, `lower`, `sorted` and `set`, written out.

Environment variables, the lines of `.gitlab-ci.yml` and registry replies
are parameters. Where the source would raise or exit, the model returns an
`Err`.

## Model

| member | source | states |
|---|---|---|
| Manifest.Put | manager.py:1111-1113 | After `d[k] = v` the key `k` reads `v` and every other key reads as before. An existing key keeps its place; a new one is appended. Distinct keys stay distinct. |
| Manifest.Items | manager.py:845 | `.items()` succeeds exactly on a mapping, and yields its entries in insertion order. |
| Manifest.In | manager.py:608 | Python's `in` is key membership on a mapping, element membership on a list and substring on a string. On anything else it raises. |
| Manifest.GetData | manager.py:97-108 | A missing path is logged only when `can_skip` is false, and then yields the empty mapping. |
| Manifest.DescendGetData | manager.py:97-108 | `get_data` returns exactly the value the glom path reaches. When the path is missing it returns `{}`, with a log entry iff `can_skip` is false. |
| Manifest.GetDataMissing | manager.py:103-107 | A path that does not exist yields `{}` in both modes, logged iff `can_skip` is false. |
| Manifest.GetDataFound | manager.py:102 | Along an existing chain of mappings, `get_data` yields the value at the end of the chain and logs nothing. |
| Manifest.GetDataAppend | manager.py:97-108 | Looking up `p + q` equals looking up `q` inside the result of `p`, once `p` exists. |
| Manifest.DescendChain | manager.py:102 | A successful descent is witnessed by a chain of mappings, one per path step. |
| Manifest.ChainDescend | manager.py:102 | Conversely, a chain of mappings along the path makes the descent reach its last value. |
| Strings.Split | manager.py:946-947 | `s.split(c)` has at least one part, and no part contains `c`. Joining the parts with `c` gives `s` back. There is one part iff `c` does not occur in `s`. |
| Strings.SplitJoin | manager.py:946-947 | Splitting the join of separator-free parts gives back exactly those parts. This is the inverse of `Split`. |
| Strings.Strip | manager.py:864-865 | `v.strip()` is a slice of `v` with only whitespace cut at either end, and its result neither starts nor ends with whitespace. |
| Strings.StripNoSpaceEnds | manager.py:864-865 | Stripping is the identity on text without surrounding whitespace, so it is idempotent. |
| StringOrder.SortedSet | utils.py:197-202 | `list(sorted(set(xs)))` is strictly increasing and holds exactly the elements of `xs`. |
| StringOrder.SortDescending | manager.py:1406 | `sorted(xs, reverse=True)` is non-increasing and a permutation of `xs`. |
| StringOrder.Greatest | utils.py:189 | The head of a list sorted in reverse is an element that no other element exceeds. |
| ReleaseKeys.ParseReleaseKey | manager.py:730 | A key accepted by `cuda_v([\d\.]+)(?:_(\w+))?$` is rebuilt by its version and optional pipeline name, up to a final newline that `$` lets through. |
| ReleaseKeys.ParseKeyText | manager.py:730 | Every well-formed key parses back to the version and pipeline it was built from. This is the round trip with `KeyText`. |
| ReleaseKeys.ParseKeyTextLine | manager.py:730 | `$` also matches before a final newline, so a key followed by a newline parses to the same release. |
| ReleaseKeys.ParseSuffixText | manager.py:730 | The optional `_<name>` group round-trips through its text. |
| ReleaseKeys.ReleaseKeyRoundTrip | manager.py:365-367 | The key `populate_triggers` builds from a version and a pipeline name parses back to that version and name. |
| ReleaseKeys.PushReposIsNotRelease | manager.py:702 | The `push_repos` key of the readme push is never taken for a release key. |
| ReleaseKeys.TriggerKey | manager.py:365-367 | The key is exactly `cuda_v<version>`, followed by `_<name>` when the pipeline name is not `default` (the empty name included). |
| ReleaseKeys.PushKey | manager.py:705-707 | The push key is exactly `cuda_v<version>`, followed by `_<name>` when a pipeline name is given, including the name `default`. It is longer than the bare key exactly then. |
| ReleaseKeys.PipelineKey | manager.py:1118-1120 | The key of a matched manifest entry drops the name exactly when it is empty or `default`. |
| ReleaseKeys.PipelineKeyRebuilds | manager.py:1118-1120 | For every release key without a `default` suffix, rebuilding the key from its parsed version and name gives the original key. |
| ReleaseKeys.PipelineKeyDropsDefault | manager.py:1106-1120 | A manifest key ending in `_default` parses, but the key rebuilt from it lacks the suffix, so it differs from the original. |
| ReleaseKeys.PushKeyKeepsDefault | manager.py:705-707 | The push key keeps `_default` where the generator's key drops it. |
| ReleaseKeys.TargetAllKey | manager.py:1460-1465 | With a pipeline name, the key parses back to the job's CUDA version and that name. Without one, the key is built from the release label if one is set, else from the CUDA version. |
| ReleaseKeys.TargetedKeyAsWritten | manager.py:1542-1547 | As written, a named pipeline's key is built from the release label's text, even when that label is empty. |
| ReleaseKeys.TargetedKeyLosesVersion | manager.py:1542-1547 | With no release label, a CUDA version and a pipeline name, the key reads `cuda_vNone_<name>`. That differs from the key `target_all` builds for the same request. |
| ReleaseKeys.TargetedKey | manager.py:1542-1547 | Corrected: a named pipeline's key uses the version that was actually chosen. Every other case behaves as written. |
| ReleaseKeys.TargetedKeyAgrees | manager.py:1460-1465 | Without a release label, the corrected `targeted` key equals `target_all`'s key. With a label, it equals the original. |
| ReleaseKeys.ParseJobName | manager.py:1444-1447 | A job name accepted by the `target_all` pattern is rebuilt from its distro, distro version, CUDA version and optional pipeline name. |
| ReleaseKeys.ParseJobNameText | manager.py:1444-1447 | Every well-formed job parses back from its name, with or without a final newline. |
| ReleaseKeys.TestStageJobSkipped | manager.py:1446 | The negative look-ahead keeps a `test…` stage suffix from being read as a pipeline name. |
| ReleaseKeys.TargetAll | manager.py:1448-1456 | The targets are exactly the jobs whose names match the pattern. No target is invented. |
| ReleaseKeys.TargetAllInOrder | manager.py:1448-1480 | Targets come in job order: the targets of `a + b` are those of `a` followed by those of `b`. |
| ReleaseKeys.TargetAllOne | manager.py:1448-1480 | A single job name gives its one target when it matches, and none otherwise. |
| ReleaseKeys.TargetAllJobs | manager.py:1448-1456 | Each target is a well-formed job taken from one of the names. It counts as a release label iff its CUDA version has at least two dots. Every matching name yields a target. |
| ReleaseKeys.SplitDistroKey | manager.py:1128-1139 | A distro key accepted by `([a-zA-Z]+)([\d\.]+)$` is its alphabetic name followed by its version. |
| ReleaseKeys.SplitDistroKeyJoin | manager.py:1128-1139 | Every name and version pair is recovered from its concatenation. |
| ReleaseKeys.YamlSafe | manager.py:1116 | `replace(".", "_")` keeps the length, turns every dot into `_` and leaves every other character in place. |
| ReleaseKeys.YamlSafeInjective | manager.py:1116 | On texts without `_`, distinct versions get distinct YAML-safe names. |
| ReleaseKeys.OutputPath | manager.py:1431-1434 | The output path is the base path and a slash, followed by a dot-free subsequence of the target as long as the target without its dots. |
| ReleaseKeys.OutputPathUnique | manager.py:1431-1434 | Any path with those three properties is the output path, so the directory is the target with every dot removed and every other character kept in order. |
| ReleaseKeys.OutputPathCollides | manager.py:1431-1434 | `11.4` and `114` under the same name share one output directory. |
| Regex.Run | manager.py:246 | A greedy run of a character class covers only class members and stops before the first non-member. |
| Regex.CatMember | manager.py:287 | Concatenation ends exactly where the second part ends after some end of the first. |
| Regex.RepeatMember | manager.py:277 | A bounded repetition ends exactly where a run of class characters within the bounds ends. |
| Regex.PatMatchesLiteral | manager.py:285-287 | Interpolated text without a dot matches only itself. |
| Regex.MatchGroup | manager.py:250-252 | A reported group span starts where the lead ends and ends where the group ends, and the tail succeeds after it. No match means that no such span exists. |
| Regex.MatchGroupAt | manager.py:250-252 | When the lead has one first end and exactly one group end lets the tail succeed, that span is the match. |
| Gates.Scan | manager.py:290-296 | The collected variables are exactly those of the lines that match, and there is at most one per line. |
| Gates.ScanLine | manager.py:290-296 | A single line contributes its own variable when it matches, and nothing otherwise. |
| Gates.ScanInOrder | manager.py:290-296 | The variables come in line order: scanning one block of lines followed by another gives the first block's variables followed by the second's. |
| Gates.GateIdSound | manager.py:293-295 | A reported variable is the text between the `- if: '$` lead and the `== "true"'` tail, and it fits the variable pattern. |
| Gates.CiPipelinesAnchored | manager.py:285-287 | With every argument given, a reported variable has the length of `<distro><version>_<cuda>`. It agrees with that text at every position where the text is not a dot. |
| Gates.CiPipelinesComplete | manager.py:285-295 | Every well-shaped gate line whose variable fits `<distro><version>_<cuda>` is reported with that variable. |
| Gates.LongerVersionNotSelected | manager.py:287 | A query for Ubuntu 20.04 and CUDA 11.2 never reports `ubuntu20_04_11_20`. The group must be followed by whitespace, so a longer variable does not fit. |
| Gates.CiPipelineByNameSound | manager.py:245-253 | A variable reported by name comes from a gate line, consists of word characters and dots, and contains the name. |
| Gates.CiPipelineByNameComplete | manager.py:245-253 | Every well-shaped gate line whose variable contains the name and consists of word characters and dots matches, with that variable as its group. |
| Gates.CiPipelineByNameReports | manager.py:245-253 | Such a line's variable is reported. |
| Triggers.CudaVersionFrom | manager.py:298-305 | The version consists of digits and dots. It is non-empty exactly when the trigger is one line (up to a final newline) and holds a `cuda` or `cuda-` mark followed by a version character. |
| Triggers.CudaVersionOf | manager.py:298-305 | In a trigger `<a>cuda<v><t>` with no later `cuda`, the version read is `v`, with or without a final newline. |
| Triggers.LastCuda | manager.py:299 | The greedy `.*` picks the last `cuda` mark. |
| Triggers.PipelineNameFrom | manager.py:307-311 | A non-empty name is the trailing word run of a one-line trigger that ends in `name:<name>`. |
| Triggers.PipelineNameOf | manager.py:307-311 | A trigger `<a>name:<w>` yields `w`, with or without a final newline. |
| Triggers.WordTail | manager.py:308 | The trailing run of word characters is maximal. |
| Triggers.Jobs | manager.py:350-355 | An override without a comma is one job. Otherwise the jobs are the comma-separated parts, each stripped, in order; none holds a comma. |
| Triggers.FirstIn | manager.py:373-388 | `next(...)` yields the first registry value the text contains, and `None` only when it contains none. |
| Triggers.AddNew | manager.py:397-400 | Appending the new variables keeps the old list as a prefix, adds exactly the missing ones and introduces no duplicate. |
| Triggers.AddNewIdempotent | manager.py:397-400 | Adding the same variables twice is the same as adding them once. |
| Triggers.AddNewPresent | manager.py:397-400 | Adding variables that are already present changes nothing. |
| Triggers.AddTimesOnce | manager.py:391-400 | The inner loop runs once per result of the outer query, which is the same as adding its variables once, or not at all when the outer query finds nothing. |
| Triggers.JobStep | manager.py:357-400 | One job updates the pipeline name only when the job carries no version, and builds the key from the version and that name. It adds exactly the by-name or outer-query variables, and only when the outer query finds something. |
| Triggers.JobLoop | manager.py:357-400 | The job loop keeps `trigger_explicit` as a prefix and adds no duplicate. A variable ends up in the list exactly when it was there or some job selects it: that job's outer query finds something, and the variable is among those of the pipeline name in force after the job. The pipeline name left behind is the one the jobs thread through. |
| Triggers.PopulateTriggers | manager.py:335-401 | An override containing `all` only sets `trigger_all`. Otherwise `trigger_all` is untouched, `trigger_explicit` only grows, without duplicates, and it gains exactly the variables the override's jobs select. |
| Triggers.PopulateTriggersSound | manager.py:335-401 | Every variable added is the variable of some gate line in `.gitlab-ci.yml`. |
| Triggers.JobKeyParses | manager.py:358-367 | The key built for a job that names a version parses back to that version and the current pipeline name. |
| Payload.Var | manager.py:420 | The form field `variables[<name>]` holds the name between its brackets. |
| Payload.VarsDiffer | manager.py:420 | Variables of different lengths or first letters have different fields. |
| Payload.RefOf | manager.py:414 | The ref is `CI_COMMIT_REF_NAME` when it is set and non-empty, else the branch switch. |
| Payload.Base | manager.py:415 | The initial payload holds the token, the ref and the marker variable set to `true`, and nothing else. |
| Payload.PutFlag | manager.py:421-428 | A set flag adds its variable as `true`. An unset flag changes nothing. |
| Payload.PutJobs | manager.py:418-420 | Every listed job's variable reads `true`, and every other field is unchanged. |
| Payload.JobVars | manager.py:419-420 | The job fields are exactly the variables of the listed jobs. |
| Payload.Kickoff | manager.py:403-430 | The payload has no repeated field, and carries the flavor when one is set. |
| Payload.KickoffFields | manager.py:414-417 | The payload has the token, the ref, `TRIGGER=true`, and `all=true` when triggering all. There is no `all` field otherwise, unless a job is named `all`. |
| Payload.KickoffJobs | manager.py:416-420 | When not triggering all, every explicit job is sent as `true`. A job name outside the fixed fields is not sent when it is not selected, whether or not all are triggered. |
| Payload.SelectionAbsent | manager.py:414-420 | Before the switches are applied, a name other than `TRIGGER` and `all` has a variable only as a selected job. |
| Payload.KickoffFlagsAbsent | manager.py:414-420 | Before the switches are applied, none of the four flags has a variable unless a selected job carries its name. |
| Payload.KickoffFlags | manager.py:407-428 | Each of `NO_SCAN`, `NO_TEST`, `NO_PUSH` and `REBUILD_BUILDER` is sent as `true` when its environment variable or switch is set. When neither is set, its variable is absent, unless a selected job carries its name. |
| Payload.SwitchedOther | manager.py:421-430 | The flag and flavor assignments touch only their own fields. |
| Payload.KickoffFromKitmaker | manager.py:483-508 | The kitmaker payload is built exactly when every candidate switch and the branch are given, and it has no repeated field. |
| Payload.KitmakerFields | manager.py:441-469 | The kitmaker payload has the token, the ref, `KITMAKER` and `TRIGGER`, and the release label, image tag suffix `-<number>`, candidate URL and webhook URL. `UBUNTU18_04_L4T` is present iff the flavor mentions `l4t`. It never has `all`. |
| Payload.KitmakerHeadL4t | manager.py:459-461 | The L4T variable is sent iff the flavor contains `l4t`. |
| Payload.CandidateFieldValues | manager.py:464-468 | The candidate assignments store the given values. |
| Payload.CandidateFieldsOther | manager.py:464-468 | The candidate assignments leave every other field as it was. |
| Push.RepoCreds | manager.py:623-631 | The credentials use the environment value of the user and pass names when set, else the names themselves. The registry is the entry's `image_name`. A missing field is an error. |
| Push.RepoStep | manager.py:607-631 | A repository is pushed to exactly when the `Pushed` conditions hold: it is targeted, it is not gitlab-master, its `only_if` is met and it is not excluded. Its credentials are then those of `RepoCreds`. |
| Push.SetupLoop | manager.py:607-631 | The repository list and the credential table's keys hold the same images, and no image has two credential entries. |
| Push.SetupRepos | manager.py:594-636 | On success the list of repositories is non-empty and matches the credential table. |
| Push.SetupReposSelects | manager.py:594-636 | An image name is selected iff some repository of `push_repos` passes every condition and names that image. |
| Push.SetupLoopSelects | manager.py:607-631 | The loop selects exactly the images of the qualifying repositories. |
| Push.PushReposTestIsDead | manager.py:617-619 | The check `repo not in self.push_repos` can never skip a repository taken from `push_repos` itself. |
| Push.GitlabNeverPushed | manager.py:610-613 | A repository whose name contains `gitlab-master` is never pushed to. |
| Utils.Credential | utils.py:33-38 | A credential is the environment value of the name when it is set and non-empty, else the name. |
| Utils.OnlyIfUnmet | utils.py:30 | An entry is skipped iff its `only_if` names an unset or empty variable. |
| Utils.RegistryEntry | utils.py:29-39 | A kept entry maps its registry to the resolved user and pass. A skipped entry yields nothing. |
| Utils.AuthRegistries | utils.py:27-43 | On success there is at least one registry, and no registry is listed twice. |
| Utils.AuthRegistriesLastWins | utils.py:39 | When several entries name one registry, the last kept entry's credentials win. |
| Utils.NamesIn | utils.py:196-201 | The collected names are exactly the full platform names contained in some key. |
| Utils.SupportedDistroList | utils.py:192-202 | The distros of a version are sorted, repeat none and are exactly the platforms whose full name occurs in a key of `cuda_v<version>`. A missing version is an error. |
| Utils.SupportedArchList | utils.py:205-215 | The architectures are the keys under `cuda_v<version>.<distro>` that name a known architecture, in manifest order. |
| Utils.SupportedArchListVector | test_manager/test_utils.py:24-33 | For an ubi8 / 11.6.2 entry holding `exclude_repos` and the three server architectures, the result is `arm64, ppc64le, x86_64`. |
| Utils.TagList | utils.py:177-181 | The tags are the list under the last reply key containing `Tags`, and empty when no key contains it. Every tag comes from such a key. |
| Utils.LatestL4tBaseImage | utils.py:182-189 | The image exists exactly when some tag matches `^r\d*\.`. Its tag is such a tag, and no other such tag sorts above it. |
| Utils.SortedFirstIsGreatest | utils.py:189 | The head of `sorted(…, reverse=True)` is an element that no other element exceeds. |
| Utils.TemplateDir | utils.py:114-116 | Templates come from `redhat` iff the distro mentions `centos` or `ubi`, else from `ubuntu`. |
| Utils.Slice | utils.py:138 | Python's slice `x[i:j]` is the substring when it is in range, and empty otherwise. |
| Utils.TemplatePackages | utils.py:137-141 | The packages are the names of the `NV_…_VERSION` lines without `CUDA_LIB`, one per kept line, in line order, all in lower case. |
| Utils.PackageNameOfWord | utils.py:138 | `NV_<name>_VERSION` yields `<name>` in lower case. |
| Context.Trim | manager.py:863-865 | Strings are stripped and other values are copied unchanged. |
| Context.CopyKeys | manager.py:845-869 | Copying changes nothing when no entry qualifies. |
| Context.CopyKeysCopies | manager.py:845-869 | Every entry that is not a version key, `exclude_repos`, `components`, an architecture or a distro is copied, stripped. Every other key reads as before. |
| Context.CopyKeysOthers | manager.py:845-869 | Keys that are not in the entries read as before. |
| Context.ExtractKeys | manager.py:843-869 | It requires a mapping. It fails when a copied key reaches the distro-list check and the manifest has no entry for the version. At the top level it copies the qualifying entries. Under an architecture it changes only that architecture's mapping. |
| Context.VersionFields | manager.py:945-950 | Major and minor are the first two dot-separated fields of the release label, or of the CUDA version when there is no label. A version without a dot is an error. |
| Context.VersionFieldsOf | manager.py:945-950 | For a version `<major>.<minor><rest>`, the fields are exactly `major` and `minor`. |
| Context.ImageTagSuffix | manager.py:953-961 | The suffix is the manifest's `image_tag_suffix` when it is present and truthy, else the empty string. |
| Context.Translate | manager.py:991-995 | A known architecture translates to its container name, and an unknown one under Tegra to Tegra's. Otherwise the previous translation is reused, or the call fails when there is none. |
| Context.SetNested | manager.py:998-1006 | Setting a nested field requires the outer entry to be a mapping, and touches only that entry. |
| Context.ArchPrepared | manager.py:998-1012 | The architecture's entry holds the components it read. |
| Context.ArchStepEntry | manager.py:998-1021 | After an architecture step, its entry holds the components and the copied keys. |
| Context.ArchStepOthers | manager.py:998-1021 | An architecture step leaves other entries alone and records `build_version` in the version block. |
| Context.Translations | manager.py:987-995 | There is one translation per requested architecture. Each is the translation of its architecture with the previous one's name to fall back on. The loop fails exactly when the first architecture is unknown, not tegra, and there is no earlier name. |
| Context.BaseContext | manager.py:953-981 | The base context has seven distinct keys: `supported_arches`, `flavor`, the version block, `arches` (the tegra container arch on a tegra build, otherwise the build's arch names in order), `os` with the distro and its version, `image_tag_suffix` (defaulting to `""` when absent or falsy) and `end_of_life`. |
| Context.ArchLoopOthers | manager.py:987-1021 | The arch loop changes no top-level key except `version` and the container arch names it chooses. |
| Context.PrepareContextBase | manager.py:943-1021 | The base entries other than `version` reach the finished context unchanged, unless the distro entry has a key of that name or an arch translates to it. |
| Context.PrepareContext | manager.py:943-1021 | The context fails when the version has no minor field. It succeeds only when every requested architecture translates. |
| Context.PrepareContextVersion | manager.py:943-1021 | In the finished context, the version block holds `release_label`, `major`, `minor` and `major_minor` as derived from the version. |
| Context.CudnnKeys | manager.py:830-835 | The cuDNN versions are the component keys starting with `cudnn` whose value is truthy, in manifest order. |
| Context.CudnnVersions | manager.py:830-835 | Available exactly when the architecture has a components mapping, and then equal to its cuDNN keys. |
| Context.CudnnEntry | manager.py:1095-1096 | A cuDNN component contributes its `version` alone, and fails without one. |
| Context.CudnnComponentsSelects | manager.py:1091-1097 | Exactly the truthy components whose key contains `cudnn` appear, each with its version. |
| Gitlab.ArchesOf | manager.py:1157-1159 | The architectures of a distro are its keys among `arm64`, `ppc64le` and `x86_64`, in manifest order. |
| Gitlab.Components | manager.py:1093 | The components are readable exactly when the manifest has a components mapping there. |
| Gitlab.CudnnByArch | manager.py:1182-1190 | Only listed architectures gain a cuDNN entry, and each entry is non-empty. |
| Gitlab.CudnnByArchFind | manager.py:1182-1190 | Each listed architecture with cuDNN components maps to exactly those components. Others are unchanged. |
| Gitlab.DistroEntry | manager.py:1133-1190 | A distro context carries the parsed name and version and the YAML-safe key, plus its pipeline architectures and image tag suffix. It has cuDNN and `no_os_suffix` entries exactly when it has an architecture. |
| Gitlab.DistroCudnn | manager.py:1189-1190 | Every architecture of the distro has its cuDNN components recorded when there are any. |
| Gitlab.DistroCtxOf | manager.py:1127-1139 | A key that is not `<letters><version>` is skipped. Any other key yields a context whose name and version come from the key. |
| Gitlab.AddDistro | manager.py:1127-1190 | Adding a distro keeps every recorded context faithful to the manifest. |
| Gitlab.DistroLoopCovers | manager.py:1127-1190 | Every distro key of a release ends up with its context. |
| Gitlab.DistroLoopAnyArch | manager.py:1157-1165 | The image name is read iff some distro has a pipeline architecture. |
| Gitlab.PipelineCtxOf | manager.py:1111-1190 | A pipeline context needs its manifest entry to be a mapping, and records the YAML-safe version and the requested pipeline name. |
| Gitlab.PipelineDistrosCover | manager.py:1127-1190 | Every distro key of the entry is present with its context. |
| Gitlab.PipelineImageName | manager.py:1163-1165 | `image_name` is set iff some distro has a pipeline architecture. |
| Gitlab.File | manager.py:1111-1113 | Filing a pipeline under its version stores its context there. Every other pipeline, of the same version or another, keeps its context, and no other pipeline appears. |
| Gitlab.Step | manager.py:1099-1190 | Keys that are not releases are skipped. A release key files its pipeline context under its version and name, and its failure fails the run. Every other pipeline keeps its context. |
| Gitlab.GitlabPipelines | manager.py:1082-1190 | It requires the manifest to be a mapping. Every version key of the result is a valid version, and each pipeline filed under it carries that version's YAML-safe name. |
| Gitlab.GitlabLoopKeepsValue | manager.py:1099-1120 | A pipeline already holding the context of its version and name keeps it to the end of the loop. A later key at the same place files the same context. |
| Gitlab.GitlabPipelinesCover | manager.py:1099-1120 | Every release key of the manifest has, under its version and name, exactly the pipeline context built for that version and name. |
| Gitlab.GitlabPipelinesFrom | manager.py:1099-1120 | Every pipeline in the result comes from some release key of the manifest. |
| Gitlab.DefaultSuffixFails | manager.py:1106-1127 | A manifest key ending in `_default` makes the run fail, because the rebuilt key lacks the suffix and is not in the manifest. |
| Naming.BaseFilename | manager.py:909-923 | A template whose name mentions `dockerfile` becomes `Dockerfile`. A `.jinja` template loses that extension. A `base-….j2` template loses both affixes. Any other name is kept. |
| Naming.OutputFilename | manager.py:924-925 | A given architecture is appended as `-<arch>`. |
| Naming.BaseTemplateRoundTrip | manager.py:919-925 | `base-<n>.j2` is written as `<n>`, or `<n>-<arch>`. |
| Naming.JinjaRoundTrip | manager.py:913-917 | `<n>.jinja` is written as `<n>`, or `<n>-<arch>`. |
| Naming.DockerfileNamed | manager.py:911-912 | Any Dockerfile template is written as `Dockerfile`, or `Dockerfile-<arch>`. |
| Tags.FieldDistros | manager.py:1353-1367 | An Ubuntu tag contributes all its fields that mention `ubuntu`. A RHEL-family tag contributes its last field. Other tags contribute nothing. |
| Tags.TagDistrosOfFields | manager.py:1353-1367 | The distros of a tag are those of its dash-separated fields. |
| Tags.AllDistros | manager.py:1353-1368 | The distro set holds exactly the distros some tag names, each once. |
| Tags.SupportedDistros | manager.py:1385-1387 | The supported distros are exactly the named distros that are not unsupported, in descending order. |
| Tags.ReleaseSuffix | manager.py:1375-1376 | Corrected: a release key's suffix is what follows `cuda_v`. |
| Tags.ReleaseSuffixOf | manager.py:1375-1376 | A key's suffix is its version and pipeline text, and two release keys with the same suffix are the same key. |
| Tags.ReleaseSuffixAsWritten | manager.py:1375-1376 | As written, `key.split("v")[1]` contains no `v`. |
| Tags.ReleaseSuffixAsWrittenCutsName | manager.py:1375-1376 | For `cuda_v11.4.1_nvidia` the code keeps `11.4.1_n`, while the suffix is `11.4.1_nvidia`. |
| Tags.ReleaseSuffixAgrees | manager.py:1375-1376 | For pipeline names without a `v`, the code as written and the corrected suffix agree. |
| Tags.ParsedKeySplits | manager.py:1373-1376 | Every key the release regex accepts has a `v` to split at, so `key.split("v")[1]` never raises in the loop. |
| Tags.FiledUnder | manager.py:1373-1376 | A key is filed exactly when it is a release key. As written it is filed under `key.split("v")[1]`; corrected, under the whole text after `cuda_v`. |
| Tags.FiledUnderAgrees | manager.py:1375-1376 | A release key whose pipeline name has no `v` is filed under the same name by both readings. |
| Tags.SuffixReadingsAgree | manager.py:1375-1376 | For a release key, or one with a final newline, whose pipeline name has no `v`, `key.split("v")[1]` is the whole text after `cuda_v`. |
| Tags.File | manager.py:1372-1378 | A release key files its label under the name its reading gives it. Other keys change nothing. |
| Tags.ReleasesFind | manager.py:1372-1378 | The last release key filed under a name wins: a release key that no later key collides with has its label under its name. This holds for the code as written. |
| Tags.ReleasesFrom | manager.py:1372-1378 | Every name in the table is the name of some release key. |
| Tags.ReleasesFindDistinct | manager.py:1372-1378 | Corrected: with distinct keys, every release key has its label under its full suffix, so no release is lost. |
| Tags.ReleasesAgree | manager.py:1372-1378 | When no release key has a `v` in its pipeline name, the table as written is the corrected table. |
| Tags.UnsupportedOf | manager.py:1379-1383 | The unsupported distros and labels are read from `unsupported` when it is present, and are empty otherwise. |
| Tags.ValueIn | manager.py:1390 | `value not in labels` follows Python's `in` for each container shape. |
| Tags.SupportedReleases | manager.py:1389-1391 | The supported releases are exactly those whose label is not unsupported, in order. |
| Tags.SupportedReleasesFind | manager.py:1389-1391 | A release is looked up in the supported table iff its label is supported. |
| Tags.Decimal | manager.py:1394-1395 | `str(n)` is a non-empty digit string with no leading zero whose decimal value is `n`. |
| Tags.DecimalUnique | manager.py:1394-1395 | Any digit string with no leading zero and value `n` is `str(n)`. |
| Tags.LabelKey | manager.py:1395-1402 | A plain version label is its own key, and a non-negative number's key is `str(n)`. Exactly strings and non-negative numbers get a key; any other label raises. |
| Tags.LabelKeyExamples | manager.py:1397-1402 | `11.0 RC` files as `11.0` and `11.0 Update 1` as `11.0.1`. |
| Tags.LabelKeyTwoWords | manager.py:1399-1400 | A two-word label files under its first word. |
| Tags.LabelKeyManyWords | manager.py:1401-1402 | A longer label files under its first and last words joined by a dot. |
| Tags.LabelKeys | manager.py:1394-1402 | There is one key per label, each the label's own key. |
| Tags.PutAllLast | manager.py:1394-1402 | When several labels share a key, the last one wins. |
| Tags.PutAllKeep | manager.py:1394-1402 | Keys no label uses are unchanged. |
| Tags.AddLabels | manager.py:1394-1402 | Filing the unsupported labels fails exactly on a label that has no key, and keeps keys distinct. |
| Tags.AddLabelsFind | manager.py:1394-1402 | Each key reads the last label filed under it, or its earlier release when no label uses it. |
| Tags.SortedNames | manager.py:1413 | The unsupported distros are sorted in descending order, as a permutation of the list of names, of the mapping's keys, or of a string's characters. |
| Tags.NamesDescending | manager.py:1413 | A list of names sorted in descending order is a permutation of the names. |
| Tags.GenerateTags | manager.py:1320-1416 | The tags are the published ones. The supported distros are exactly those named by some tag and not listed as unsupported, in strictly descending order. The unsupported distros are the `unsupported` entry sorted in descending order, a permutation of it for a list. The release tables are those of the manifest, filed as the code does it, under `key.split("v")[1]`. The call succeeds exactly when the manifest is a mapping, the tables and the sort succeed, and the unsupported entry is a container whenever a distro is named. |
| Tags.DistroLists | manager.py:1385-1412 | The supported distros are exactly those named by some tag and not unsupported, in strictly descending order. The unsupported ones are the `unsupported` entry sorted in descending order. It fails exactly when that sort fails, or when a distro is named and the entry is not a container. |
| Tags.GenerateTagsReleases | manager.py:1372-1391 | A release key that no later key collides with under `key.split("v")[1]` appears among the supported releases iff its label is not unsupported. |
| Tags.TablesSupported | manager.py:1389-1391 | The supported table is the release table filtered by the unsupported labels. |

## Left out

- Registries and the network: the `skopeo` tag listings are given as a parsed reply. `docker login`, pushes and the GitLab POST are not modelled, nor are its URL, project id and dry-run switch.
- The environment is a map parameter. `os.getenv` is `None` when a name is absent.
- Files: `.gitlab-ci.yml` is given as its list of lines. The manifest is given as a parsed value tree. Template rendering (Jinja), directory creation and writing are not modelled.
- Regular expressions: `\w`, `\d` and `\s` are their ASCII classes, and `lower()` and `strip()` are ASCII too (`\s` and `strip()` take the ASCII whitespace and the separators `\x1c`-`\x1f`, not the Unicode spaces above them). `$` matches at the end or before a final newline. Only the pattern forms the core builds are supported.
- `check_explicit_trigger` (manager.py:322-333): it is never called; its only call site is commented out.
- `get_distro_version_from_trigger` (manager.py:313-320): it is never called.
- `generate_gitlab_pipelines`' top-level `supported_distro_matrix`, `moby_buildkit_version` and `manifest_path` entries are left out. These are constants and the manifest's path, and nothing reads them back in the core.
- `extract_keys` under a ShipIt manifest (`self.shipitdata`) is left out. The ShipIt client is not part of this model.
- Logging, the command-line layer and the platform registry's CSV loading are left out. The platform registry is a parameter.
- Tags.SortedNames: sorting a list holding non-strings is an error in the model. Python would compare numbers, or raise on mixed types.
- Triggers.PopulateTriggers: the override is a string. When `trigger_override` is unset, Python raises a TypeError at `"all" in None` (manager.py:344-345); the model has no such input.
- Utils.Field: a `registry`, user or password field that is not a string is an error in the model. Python accepts any hashable `registry` value as a key of the auth mapping.
- Utils.SupportedArchList: a distro entry that is not a mapping is an error in the model. Python would iterate a list's items or a string's characters.
- Tags.ValueIn: Python treats `1 == True` and `1 == 1.0` as equal when it tests membership. The model compares values structurally.
- Floating-point manifest values are not modelled: a number in the manifest is an integer.
- Context.PrepareContext: its contract states one failure condition, a version without a minor field, and that success needs every arch to translate. It does not state the other failures: a distro entry that is not a mapping, a missing supported distro list, or a failing arch step. The version block, the base entries and the copied keys are stated separately by `PrepareContextVersion`, `PrepareContextBase`, `ArchStepEntry` and `ArchStepOthers`.
- Gitlab.GitlabPipelines: its contract states only the shape of the context. What each pipeline holds is stated by `GitlabPipelinesCover`, its completeness by `GitlabPipelinesFrom`, and the distros inside by `PipelineDistrosCover`.
- Manifest.GetData: glom also indexes a list by a digit path segment. The model treats every step into a non-mapping as missing. No path the core looks up has a digit segment.

## Findings

| source | as written | input that shows it | evidently intended | confidence | as-written member | corrected member |
|---|---|---|---|---|---|---|
| manager.py:1375-1376 | `key.split("v")[1]` takes the text up to the next `v` as the release's suffix | the manifest key `cuda_v11.4.1_nvidia` gives `11.4.1_n` | the whole text after `cuda_v`, `11.4.1_nvidia` | medium, not executed | Tags.ReleaseSuffixAsWrittenCutsName | Tags.ReleasesFindDistinct |
| manager.py:1542-1547 | a named pipeline's key is built from `self.release_label` even when that is unset | no release label, CUDA version `11.4.1`, pipeline `nvidia` gives `cuda_vNone_nvidia` | the version chosen two lines above, `cuda_v11.4.1_nvidia`, as `target_all` builds it | medium, not executed | ReleaseKeys.TargetedKeyLosesVersion | ReleaseKeys.TargetedKeyAgrees |

=== FILE: context.dfy ===
/** The templating context of `Manager.prepare_context`: the version
    fields, the tolerant defaults read from the manifest, the pass-through
    copy of arbitrary manifest keys (`extract_keys`), and the per-arch
    component maps. The platform registry is a parameter: a map from arch
    names to container arch names, and the container arch of tegra. */
module Context {
  import opened Wrappers
  import opened Strings
  import opened Manifest
  import ReleaseKeys

  const ComponentsKey := "components"
  const VersionKey := "version"
  const BuildVersionKey := "build_version"
  const EndOfLifeKey := "end_of_life"
  const ImageTagSuffixKey := "image_tag_suffix"
  const MajorKey := "major"
  const MinorKey := "minor"
  const MajorMinorKey := "major_minor"
  const SupportedArchesKey := "supported_arches"
  const FlavorKey := "flavor"
  const ArchesKey := "arches"
  const OsKey := "os"
  const DistroKey := "distro"

  /** `re.match(r"^v\d+\.\d", k)`: a version key such as `v11.2`. The digit
      run is greedy and cannot absorb the dot, so there is one way to match. */
  predicate VersionLikeKey(k: string) {
    && |k| > 0 && k[0] == 'v'
    && var n := DigitRun(k[1..]);
    && n > 0 && 2 + n < |k| && k[1 + n] == '.' && IsDigit(k[2 + n])
  }

  lemma VersionLikeKeyOf(digits: string, d: char, rest: string)
    requires |digits| > 0 && forall i :: 0 <= i < |digits| ==> IsDigit(digits[i])
    requires IsDigit(d)
    ensures VersionLikeKey("v" + digits + "." + [d] + rest)
  {
    var k := "v" + digits + "." + [d] + rest;
    var t := k[1..];
    assert t == digits + ("." + [d] + rest);
    assert t[|digits|] == '.' && t[..|digits|] == digits;
    assert DigitRun(t) == |digits|;
  }

  /** Whether `extract_keys` copies key `k`: not a version key, not
      `exclude_repos` or `components`, not a current arch and not a
      supported distro of the cuda version. */
  predicate Copies(k: string, arches: seq<string>, distros: seq<string>) {
    && k != ExcludeReposKey && k != ComponentsKey
    && !VersionLikeKey(k)
    && k !in arches && k !in distros
  }

  /** A string value is copied trimmed; any other value as it is. */
  function Trim(v: Value): (r: Value)
    ensures v.Str? ==> r == Str(Strip(v.s))
    ensures !v.Str? ==> r == v
  {
    if v.Str? then Str(Strip(v.s)) else v
  }

  /** `after` is `before` with every copied key of `entries` written (trimmed)
      and every other key as it was. */
  ghost predicate CopiedInto(before: seq<(string, Value)>, after: seq<(string, Value)>,
                       entries: seq<(string, Value)>, arches: seq<string>, distros: seq<string>) {
    forall j {:trigger Find(after, j)} ::
      Find(after, j) == if j in Keys(entries) && Copies(j, arches, distros) then Some(Trim(Find(entries, j).value))
                        else Find(before, j)
  }

  /** The body of the `extract_keys` loop, writing into one mapping. */
  function CopyKeys(m: seq<(string, Value)>, entries: seq<(string, Value)>, arches: seq<string>, distros: seq<string>): (r: seq<(string, Value)>)
    ensures (forall i :: 0 <= i < |entries| ==> !Copies(entries[i].0, arches, distros)) ==> r == m
    decreases |entries|
  {
    if |entries| == 0 then m
    else
      var k := entries[0].0;
      var m' := if Copies(k, arches, distros) then Put(m, k, Trim(entries[0].1)) else m;
      assert forall i :: 1 <= i < |entries| ==> entries[i] == entries[1..][i - 1];
      CopyKeys(m', entries[1..], arches, distros)
  }

  /** Every copied key is written with its trimmed value, and every other
      key keeps its value. */
  lemma {:induction false} CopyKeysCopies(m: seq<(string, Value)>, entries: seq<(string, Value)>, arches: seq<string>, distros: seq<string>)
    requires UniqueKeys(entries)
    ensures CopiedInto(m, CopyKeys(m, entries, arches, distros), entries, arches, distros)
    decreases |entries|
  {
    if |entries| > 0 {
      var k := entries[0].0;
      var m' := if Copies(k, arches, distros) then Put(m, k, Trim(entries[0].1)) else m;
      UniqueKeysTail(entries);
      CopyKeysCopies(m', entries[1..], arches, distros);
    }
  }

  /** Keys absent from `entries` keep their value. */
  lemma {:induction false} CopyKeysOthers(m: seq<(string, Value)>, entries: seq<(string, Value)>, arches: seq<string>,
                                          distros: seq<string>, j: string)
    requires j !in Keys(entries)
    ensures Find(CopyKeys(m, entries, arches, distros), j) == Find(m, j)
    decreases |entries|
  {
    if |entries| > 0 {
      var k := entries[0].0;
      var m' := if Copies(k, arches, distros) then Put(m, k, Trim(entries[0].1)) else m;
      assert Keys(entries) == [k] + Keys(entries[1..]);
      CopyKeysOthers(m', entries[1..], arches, distros, j);
    }
  }

  /** Some key of `entries` is not a version key, so the distro list of the
      exclusion list is computed. */
  predicate ReachesExclusion(entries: seq<(string, Value)>) {
    exists i :: 0 <= i < |entries| && !VersionLikeKey(entries[i].0)
  }

  /** `extract_keys(val, arch)` (manager.py:843-869) on the context `cuda`.
      `arch` is `""` for no arch. `distros` is the supported distro list of
      the current cuda version, which raises when the release is missing. */
  function ExtractKeys(cuda: seq<(string, Value)>, val: Value, arch: string, arches: seq<string>,
                       distros: Result<seq<string>>): (r: Result<seq<(string, Value)>>)
    ensures r.Ok? ==> val.Map?
    ensures val.Map? && distros.Err? && ReachesExclusion(val.entries) ==> r.Err?
    ensures val.Map? && distros.Ok? && (arch == "" || (Find(cuda, arch).Some? && Find(cuda, arch).value.Map?)) ==> r.Ok?
    ensures r.Ok? && arch == "" && UniqueKeys(val.entries) && distros.Ok? ==>
              CopiedInto(cuda, r.value, val.entries, arches, distros.value)
    ensures r.Ok? && arch == "" ==> forall j :: j !in Keys(val.entries) ==> Find(r.value, j) == Find(cuda, j)
    ensures r.Ok? && arch != "" ==> forall j :: j != arch ==> Find(r.value, j) == Find(cuda, j)
    ensures r.Ok? && arch != "" && distros.Ok? && Find(cuda, arch).Some? && Find(cuda, arch).value.Map? ==>
              Find(r.value, arch) == Some(Map(CopyKeys(Find(cuda, arch).value.entries, val.entries, arches, distros.value)))
    ensures r.Ok? && arch != "" && !(Find(cuda, arch).Some? && Find(cuda, arch).value.Map?) ==>
              r.value == cuda && (distros.Ok? ==> !CopiesSome(val.entries, arches, distros.value))
  {
    if !val.Map? then Err("object has no attribute 'items'")
    else
      var e := val.entries;
      if distros.Err? && ReachesExclusion(e) then Err(distros.msg)
      else
        var ds := if distros.Ok? then distros.value else [];
        if arch == "" then
          CopyKeysFacts(cuda, e, arches, ds);
          Ok(CopyKeys(cuda, e, arches, ds))
        else
          var target: Option<Value> := Find(cuda, arch);
          match target
          case Some(Map(inner)) => Ok(Put(cuda, arch, Map(CopyKeys(inner, e, arches, ds))))
          case _ =>
            if !CopiesSome(e, arches, ds) then Ok(cuda)
            else if target.Some? then Err("TypeError: item assignment")
            else Err("KeyError: " + arch)
  }

  lemma CopyKeysFacts(m: seq<(string, Value)>, entries: seq<(string, Value)>, arches: seq<string>, distros: seq<string>)
    ensures UniqueKeys(entries) ==> CopiedInto(m, CopyKeys(m, entries, arches, distros), entries, arches, distros)
    ensures forall j :: j !in Keys(entries) ==> Find(CopyKeys(m, entries, arches, distros), j) == Find(m, j)
  {
    if UniqueKeys(entries) {
      CopyKeysCopies(m, entries, arches, distros);
    }
    forall j | j !in Keys(entries) ensures Find(CopyKeys(m, entries, arches, distros), j) == Find(m, j) {
      CopyKeysOthers(m, entries, arches, distros, j);
    }
  }

  /** Some key of `entries` is copied. */
  predicate CopiesSome(entries: seq<(string, Value)>, arches: seq<string>, distros: seq<string>) {
    exists i :: 0 <= i < |entries| && Copies(entries[i].0, arches, distros)
  }

  // ---------------------------------------------------------------------
  // Version fields

  /** The dotted version the major and minor numbers are read from: the
      release label when it is set, the cuda version otherwise. */
  function VersionSource(releaseLabel: string, cudaVersion: string): string {
    if releaseLabel != "" then releaseLabel else cudaVersion
  }

  /** `major, minor = source.split(".")[0], source.split(".")[1]`
      (manager.py:945-951): fewer than two parts is an index error. */
  function VersionFields(releaseLabel: string, cudaVersion: string): (r: Result<(string, string)>)
    ensures r.Ok? <==> '.' in VersionSource(releaseLabel, cudaVersion)
    ensures r.Ok? ==>
              var src := VersionSource(releaseLabel, cudaVersion);
              && '.' !in r.value.0 && '.' !in r.value.1
              && (src == r.value.0 + ['.'] + r.value.1 || StartsWith(src, r.value.0 + ['.'] + r.value.1 + ['.']))
  {
    var src := VersionSource(releaseLabel, cudaVersion);
    var parts := Split(src, '.');
    if |parts| < 2 then Err("IndexError: list index out of range")
    else
      FirstTwoParts(parts);
      Ok((parts[0], parts[1]))
  }

  lemma FirstTwoParts(parts: seq<string>)
    requires |parts| >= 2
    ensures Join(parts, '.') == parts[0] + ['.'] + parts[1]
            || StartsWith(Join(parts, '.'), parts[0] + ['.'] + parts[1] + ['.'])
  {
    if |parts| == 2 {
      assert Join(parts[1..], '.') == parts[1];
    } else {
      FirstTwoPartsMore(parts);
    }
  }

  lemma FirstTwoPartsMore(parts: seq<string>)
    requires |parts| > 2
    ensures StartsWith(Join(parts, '.'), parts[0] + ['.'] + parts[1] + ['.'])
  {
    var tail := parts[1..];
    var more := Join(tail[1..], '.');
    assert Join(parts, '.') == parts[0] + ['.'] + Join(tail, '.');
    assert Join(tail, '.') == parts[1] + ['.'] + more;
    var p := parts[0] + ['.'] + parts[1] + ['.'];
    assert Join(parts, '.') == p + more;
    assert (p + more)[..|p|] == p;
  }

  /** The first two parts of `major.minor<rest>` when neither holds a dot. */
  lemma SplitMajorMinor(major: string, minor: string, rest: string)
    requires '.' !in major && '.' !in minor
    requires |rest| == 0 || rest[0] == '.'
    ensures var parts := Split(major + ['.'] + (minor + rest), '.');
            |parts| >= 2 && parts[0] == major && parts[1] == minor
  {
    if |rest| == 0 {
      assert minor + rest == minor;
      SplitFirst(major, '.', minor);
    } else {
      var more := rest[1..];
      assert minor + rest == minor + ['.'] + more;
      SplitFirst(minor, '.', more);
      SplitFirst(major, '.', minor + rest);
    }
  }

  /** Conversely, the first two dot-free parts of a version are its major and
      minor numbers, whatever follows a further dot. */
  lemma VersionFieldsOf(releaseLabel: string, cudaVersion: string, major: string, minor: string, rest: string)
    requires '.' !in major && '.' !in minor
    requires VersionSource(releaseLabel, cudaVersion) == major + ['.'] + (minor + rest)
    requires |rest| == 0 || rest[0] == '.'
    ensures VersionFields(releaseLabel, cudaVersion) == Ok((major, minor))
  {
    SplitMajorMinor(major, minor, rest);
  }

  /** The `version` entry of the context: `release_label` holds the cuda
      version, and `major_minor` joins the two numbers with a dot. */
  function VersionEntry(cudaVersion: string, major: string, minor: string): Value {
    Map([(ReleaseLabelKey, Str(cudaVersion)), (MajorKey, Str(major)), (MinorKey, Str(minor)),
         (MajorMinorKey, Str(major + ['.'] + minor))])
  }

  /** `image_tag_suffix` of the distro entry, `""` when it is absent or
      falsy (manager.py:954-963). */
  function ImageTagSuffix(conf: Value, key: string, distroKey: string): (r: Value)
    ensures var d := Descend(conf, [key, distroKey, ImageTagSuffixKey]);
            r == if d.Some? && Truthy(d.value) then d.value else Str("")
  {
    var v := GetData(conf, [key, distroKey, ImageTagSuffixKey], true).data;
    DescendGetData(conf, [key, distroKey, ImageTagSuffixKey], true);
    if Truthy(v) then v else Str("")
  }

  /** The context before any key is copied (manager.py:953-981): the
      supported arches, the flavor, the version block, the arch list (the
      tegra container arch on a tegra build), the distro and its version,
      the image tag suffix (`""` by default) and the end of life entry. */
  function BaseContext(conf: Value, key: string, distro: string, distroVersion: string, cudaVersion: string,
                       major: string, minor: string, flavor: Value, arches: seq<string>, tegra: bool,
                       tegraArch: string, supportedArches: Value): (r: seq<(string, Value)>)
    ensures UniqueKeys(r)
    ensures Find(r, SupportedArchesKey) == Some(supportedArches)
    ensures Find(r, FlavorKey) == Some(flavor)
    ensures Find(r, VersionKey) == Some(VersionEntry(cudaVersion, major, minor))
    ensures tegra ==> Find(r, ArchesKey) == Some(Str(tegraArch))
    ensures !tegra ==> var a := Find(r, ArchesKey);
                       a.Some? && a.value.List? && |a.value.items| == |arches|
                       && forall i :: 0 <= i < |arches| ==> a.value.items[i] == Str(arches[i])
    ensures Find(r, OsKey) == Some(Map([(DistroKey, Str(distro)), (VersionKey, Str(distroVersion))]))
    ensures var d := Descend(conf, [key, distro + distroVersion, ImageTagSuffixKey]);
            Find(r, ImageTagSuffixKey) == Some(if d.Some? && Truthy(d.value) then d.value else Str(""))
    ensures Find(r, EndOfLifeKey) == Some(GetData(conf, [key, EndOfLifeKey], true).data)
  {
    var larch := if tegra then Str(tegraArch) else List(ArchNames(arches));
    var r := [(SupportedArchesKey, supportedArches),
              (FlavorKey, flavor),
              (VersionKey, VersionEntry(cudaVersion, major, minor)),
              (ArchesKey, larch),
              (OsKey, Map([(DistroKey, Str(distro)), (VersionKey, Str(distroVersion))])),
              (ImageTagSuffixKey, ImageTagSuffix(conf, key, distro + distroVersion)),
              (EndOfLifeKey, GetData(conf, [key, EndOfLifeKey], true).data)];
    BaseKeysUnique(r);
    assert r[0].0 == SupportedArchesKey && r[1].0 == FlavorKey && r[2].0 == VersionKey && r[3].0 == ArchesKey;
    assert r[4].0 == OsKey && r[5].0 == ImageTagSuffixKey && r[6].0 == EndOfLifeKey;
    r
  }

  /** The arch names of the build as a list of strings. */
  function ArchNames(arches: seq<string>): (vs: seq<Value>)
    ensures |vs| == |arches| && forall i :: 0 <= i < |arches| ==> vs[i] == Str(arches[i])
  {
    seq(|arches|, i requires 0 <= i < |arches| => Str(arches[i]))
  }

  /** The seven keys of the base context are distinct (their first letters
      are). */
  lemma BaseKeysUnique(r: seq<(string, Value)>)
    requires |r| == 7
    requires r[0].0 == SupportedArchesKey && r[1].0 == FlavorKey && r[2].0 == VersionKey && r[3].0 == ArchesKey
    requires r[4].0 == OsKey && r[5].0 == ImageTagSuffixKey && r[6].0 == EndOfLifeKey
    ensures UniqueKeys(r)
  {
    var firsts := "sfvaoie";
    assert forall i :: 0 <= i < 7 ==> r[i].0[0] == firsts[i];
  }

  // ---------------------------------------------------------------------
  // Per-arch entries

  /** The container arch name of `arch`: the registry's name for a known
      arch, tegra's for an unknown arch on a tegra build, and otherwise the
      name chosen for the previous arch; the first arch has none to fall
      back on (manager.py:988-991). */
  function Translate(arch: string, containerArch: map<string, string>, tegra: bool, tegraArch: string,
                     prev: Option<string>): (r: Result<string>)
    ensures arch in containerArch ==> r == Ok(containerArch[arch])
    ensures arch !in containerArch && tegra ==> r == Ok(tegraArch)
    ensures arch !in containerArch && !tegra ==> (r.Ok? <==> prev.Some?) && (prev.Some? ==> r == Ok(prev.value))
  {
    if arch in containerArch then Ok(containerArch[arch])
    else if tegra then Ok(tegraArch)
    else if prev.Some? then Ok(prev.value)
    else Err("UnboundLocalError: translated_arch")
  }

  /** `cuda[outer][inner] = v` on the context. */
  function SetNested(cuda: seq<(string, Value)>, outer: string, inner: string, v: Value): (r: Result<seq<(string, Value)>>)
    ensures r.Ok? <==> Find(cuda, outer).Some? && Find(cuda, outer).value.Map?
    ensures r.Ok? ==> Find(r.value, outer) == Some(Map(Put(Find(cuda, outer).value.entries, inner, v)))
    ensures r.Ok? ==> forall j :: j != outer ==> Find(r.value, j) == Find(cuda, j)
  {
    var o: Option<Value> := Find(cuda, outer);
    match o
    case Some(Map(e)) => Ok(Put(cuda, outer, Map(Put(e, inner, v))))
    case Some(_) => Err("TypeError: item assignment")
    case None => Err("KeyError: " + outer)
  }

  /** One iteration of the arch loop of `prepare_context`
      (manager.py:987-1021), for an arch already translated to `t`. */
  function ArchStep(cuda: seq<(string, Value)>, conf: Value, key: string, distroKey: string, arch: string, t: string,
                    arches: seq<string>, distros: Result<seq<string>>): (r: Result<seq<(string, Value)>>)
  {
    var c :- ArchPrepared(cuda, conf, key, distroKey, arch, t);
    ExtractKeys(c, GetData(conf, [key, distroKey, arch], false).data, t, arches, distros)
  }

  /** The arch step up to the copy of the arch's keys: a fresh entry for the
      container arch, the build version, and the arch's components. */
  function ArchPrepared(cuda: seq<(string, Value)>, conf: Value, key: string, distroKey: string, arch: string,
                        t: string): (r: Result<seq<(string, Value)>>)
    ensures t != VersionKey && r.Ok? ==> Find(r.value, t) == Some(Map([(ComponentsKey, ArchComponents(conf, key, distroKey, arch))]))
  {
    var c1 := Put(cuda, t, Empty);
    var buildVersion := GetData(conf, [key, BuildVersionKey], true).data;
    var c2 :- SetNested(c1, VersionKey, BuildVersionKey, buildVersion);
    assert t != VersionKey ==> Find(c2, t) == Some(Empty);
    SetNested(c2, t, ComponentsKey, ArchComponents(conf, key, distroKey, arch))
  }

  /** `get_data(conf, key, distro, arch, "components")`: an empty mapping when absent. */
  function ArchComponents(conf: Value, key: string, distroKey: string, arch: string): Value {
    GetData(conf, [key, distroKey, arch, ComponentsKey], false).data
  }

  /** After an arch step the entry of its container arch holds exactly the
      arch's components and the copied keys of the arch's manifest entry. */
  lemma ArchStepEntry(cuda: seq<(string, Value)>, conf: Value, key: string, distroKey: string, arch: string, t: string,
                      arches: seq<string>, distros: seq<string>)
    requires t != "" && t != VersionKey
    requires ArchStep(cuda, conf, key, distroKey, arch, t, arches, Ok(distros)).Ok?
    requires var v := GetData(conf, [key, distroKey, arch], false).data; v.Map? && UniqueKeys(v.entries)
    ensures var r := ArchStep(cuda, conf, key, distroKey, arch, t, arches, Ok(distros)).value;
            exists inner :: Find(r, t) == Some(Map(inner))
              && Find(inner, ComponentsKey) == Some(ArchComponents(conf, key, distroKey, arch))
              && CopiedInto([(ComponentsKey, ArchComponents(conf, key, distroKey, arch))], inner,
                            GetData(conf, [key, distroKey, arch], false).data.entries, arches, distros)
  {
    var comps := ArchComponents(conf, key, distroKey, arch);
    var v := GetData(conf, [key, distroKey, arch], false).data;
    var c3 := ArchPrepared(cuda, conf, key, distroKey, arch, t).value;
    var start := [(ComponentsKey, comps)];
    var r := ExtractKeys(c3, v, t, arches, Ok(distros)).value;
    var inner := CopyKeys(start, v.entries, arches, distros);
    assert Find(r, t) == Some(Map(inner));
    CopyKeysCopies(start, v.entries, arches, distros);
    assert !Copies(ComponentsKey, arches, distros);
    assert Find(inner, ComponentsKey) == Find(start, ComponentsKey);
  }

  /** An arch step records the build version in the `version` entry and
      changes no other top-level key than its container arch's. */
  lemma ArchStepOthers(cuda: seq<(string, Value)>, conf: Value, key: string, distroKey: string, arch: string, t: string,
                       arches: seq<string>, distros: Result<seq<string>>)
    requires t != "" && t != VersionKey
    requires ArchStep(cuda, conf, key, distroKey, arch, t, arches, distros).Ok?
    ensures var r := ArchStep(cuda, conf, key, distroKey, arch, t, arches, distros).value;
            && (forall j :: j != t && j != VersionKey ==> Find(r, j) == Find(cuda, j))
            && (exists ver :: Find(r, VersionKey) == Some(Map(ver))
                 && Find(ver, BuildVersionKey) == Some(GetData(conf, [key, BuildVersionKey], true).data))
  {
    var c1 := Put(cuda, t, Empty);
    var buildVersion := GetData(conf, [key, BuildVersionKey], true).data;
    var c2 := SetNested(c1, VersionKey, BuildVersionKey, buildVersion).value;
    var c3 := SetNested(c2, t, ComponentsKey, ArchComponents(conf, key, distroKey, arch)).value;
    var r := ExtractKeys(c3, GetData(conf, [key, distroKey, arch], false).data, t, arches, distros).value;
    assert Find(r, VersionKey) == Find(c2, VersionKey);
  }

  /** The container arch names chosen for `todo`, in order: each arch is
      translated with the name chosen for the arch before it to fall back
      on. Only the first arch can fail, as only it has no name before it. */
  function Translations(todo: seq<string>, containerArch: map<string, string>, tegra: bool, tegraArch: string,
                        prev: Option<string>): (r: Result<seq<string>>)
    ensures r.Ok? ==> |r.value| == |todo|
    ensures r.Ok? ==> forall i :: 0 <= i < |todo| ==>
              Translate(todo[i], containerArch, tegra, tegraArch, if i == 0 then prev else Some(r.value[i - 1])) == Ok(r.value[i])
    ensures r.Err? <==> |todo| > 0 && todo[0] !in containerArch && !tegra && prev.None?
    decreases |todo|
  {
    if |todo| == 0 then Ok([])
    else
      var t :- Translate(todo[0], containerArch, tegra, tegraArch, prev);
      var ts := Translations(todo[1..], containerArch, tegra, tegraArch, Some(t));
      Ok([t] + ts.value)
  }

  /** The arch loop of `prepare_context`. */
  function ArchLoop(cuda: seq<(string, Value)>, conf: Value, key: string, distroKey: string, todo: seq<string>,
                    arches: seq<string>, prev: Option<string>, containerArch: map<string, string>, tegra: bool,
                    tegraArch: string, distros: Result<seq<string>>): (r: Result<seq<(string, Value)>>)
    ensures r.Ok? ==> Translations(todo, containerArch, tegra, tegraArch, prev).Ok?
    decreases |todo|
  {
    if |todo| == 0 then Ok(cuda)
    else
      var t :- Translate(todo[0], containerArch, tegra, tegraArch, prev);
      var c :- ArchStep(cuda, conf, key, distroKey, todo[0], t, arches, distros);
      ArchLoop(c, conf, key, distroKey, todo[1..], arches, Some(t), containerArch, tegra, tegraArch, distros)
  }

  /** `prepare_context()` (manager.py:943-1021): the version fields, the
      base context, the keys copied from the distro entry, then one step per
      arch. `arches` are the arch names of the build, `distros` the
      supported distro list of the cuda version. */
  function PrepareContext(conf: Value, key: string, distro: string, distroVersion: string, releaseLabel: string,
                          cudaVersion: string, flavor: Value, arches: seq<string>, tegra: bool,
                          containerArch: map<string, string>, tegraArch: string, supportedArches: Value,
                          distros: Result<seq<string>>): (r: Result<seq<(string, Value)>>)
    ensures VersionFields(releaseLabel, cudaVersion).Err? ==> r.Err?
    ensures r.Ok? ==> Translations(arches, containerArch, tegra, tegraArch, None).Ok?
  {
    var f :- VersionFields(releaseLabel, cudaVersion);
    var base := BaseContext(conf, key, distro, distroVersion, cudaVersion, f.0, f.1, flavor, arches, tegra,
                            tegraArch, supportedArches);
    var c :- ExtractKeys(base, GetData(conf, [key, distro + distroVersion], false).data, "", arches, distros);
    ArchLoop(c, conf, key, distro + distroVersion, arches, arches, None, containerArch, tegra, tegraArch, distros)
  }

  /** The fields of a `version` entry hold the version numbers. */
  predicate VersionFieldsHeld(ver: seq<(string, Value)>, cudaVersion: string, major: string, minor: string) {
    && Find(ver, ReleaseLabelKey) == Some(Str(cudaVersion))
    && Find(ver, MajorKey) == Some(Str(major))
    && Find(ver, MinorKey) == Some(Str(minor))
    && Find(ver, MajorMinorKey) == Some(Str(major + ['.'] + minor))
  }

  /** The `version` entry of the context holds the version numbers. */
  predicate VersionHolds(cuda: seq<(string, Value)>, cudaVersion: string, major: string, minor: string) {
    var v: Option<Value> := Find(cuda, VersionKey);
    match v
    case Some(Map(ver)) => VersionFieldsHeld(ver, cudaVersion, major, minor)
    case _ => false
  }

  /** Recording the build version keeps the version numbers. */
  lemma BuildVersionKeepsFields(ver: seq<(string, Value)>, buildVersion: Value, cudaVersion: string, major: string, minor: string)
    requires VersionFieldsHeld(ver, cudaVersion, major, minor)
    ensures VersionFieldsHeld(Put(ver, BuildVersionKey, buildVersion), cudaVersion, major, minor)
  {
    var ver' := Put(ver, BuildVersionKey, buildVersion);
    assert Find(ver', ReleaseLabelKey) == Find(ver, ReleaseLabelKey);
    assert Find(ver', MajorKey) == Find(ver, MajorKey);
    assert Find(ver', MinorKey) == Find(ver, MinorKey);
    assert Find(ver', MajorMinorKey) == Find(ver, MajorMinorKey);
  }

  /** No container arch name of the loop is empty or `version`. */
  predicate PlainTranslations(ts: Result<seq<string>>) {
    ts.Ok? && forall i :: 0 <= i < |ts.value| ==> ts.value[i] != "" && ts.value[i] != VersionKey
  }

  lemma {:induction false} ArchLoopKeepsVersion(cuda: seq<(string, Value)>, conf: Value, key: string, distroKey: string,
                                                todo: seq<string>, arches: seq<string>, prev: Option<string>,
                                                containerArch: map<string, string>, tegra: bool, tegraArch: string,
                                                distros: Result<seq<string>>, cudaVersion: string, major: string, minor: string)
    requires VersionHolds(cuda, cudaVersion, major, minor)
    requires PlainTranslations(Translations(todo, containerArch, tegra, tegraArch, prev))
    requires ArchLoop(cuda, conf, key, distroKey, todo, arches, prev, containerArch, tegra, tegraArch, distros).Ok?
    ensures VersionHolds(ArchLoop(cuda, conf, key, distroKey, todo, arches, prev, containerArch, tegra, tegraArch, distros).value,
                         cudaVersion, major, minor)
    decreases |todo|
  {
    if |todo| > 0 {
      var t := Translate(todo[0], containerArch, tegra, tegraArch, prev).value;
      PlainTranslationsTail(todo, containerArch, tegra, tegraArch, prev);
      var c := ArchStep(cuda, conf, key, distroKey, todo[0], t, arches, distros).value;
      ArchStepKeepsVersion(cuda, conf, key, distroKey, todo[0], t, arches, distros, cudaVersion, major, minor);
      ArchLoopKeepsVersion(c, conf, key, distroKey, todo[1..], arches, Some(t), containerArch, tegra, tegraArch,
                           distros, cudaVersion, major, minor);
    }
  }

  lemma PlainTranslationsTail(todo: seq<string>, containerArch: map<string, string>, tegra: bool, tegraArch: string,
                              prev: Option<string>)
    requires |todo| > 0 && PlainTranslations(Translations(todo, containerArch, tegra, tegraArch, prev))
    ensures var t := Translate(todo[0], containerArch, tegra, tegraArch, prev);
            && t.Ok? && t.value != "" && t.value != VersionKey
            && PlainTranslations(Translations(todo[1..], containerArch, tegra, tegraArch, Some(t.value)))
  {
    var ts := Translations(todo, containerArch, tegra, tegraArch, prev).value;
    var t := Translate(todo[0], containerArch, tegra, tegraArch, prev).value;
    var rest := Translations(todo[1..], containerArch, tegra, tegraArch, Some(t)).value;
    assert ts == [t] + rest;
    assert ts[0] == t;
    assert forall i :: 0 <= i < |rest| ==> rest[i] == ts[i + 1];
  }

  lemma ArchStepKeepsVersion(cuda: seq<(string, Value)>, conf: Value, key: string, distroKey: string, arch: string,
                             t: string, arches: seq<string>, distros: Result<seq<string>>,
                             cudaVersion: string, major: string, minor: string)
    requires t != "" && t != VersionKey
    requires VersionHolds(cuda, cudaVersion, major, minor)
    requires ArchStep(cuda, conf, key, distroKey, arch, t, arches, distros).Ok?
    ensures VersionHolds(ArchStep(cuda, conf, key, distroKey, arch, t, arches, distros).value, cudaVersion, major, minor)
  {
    var ver := Find(cuda, VersionKey).value.entries;
    var c1 := Put(cuda, t, Empty);
    assert Find(c1, VersionKey) == Find(cuda, VersionKey);
    var buildVersion := GetData(conf, [key, BuildVersionKey], true).data;
    var ver' := Put(ver, BuildVersionKey, buildVersion);
    BuildVersionKeepsFields(ver, buildVersion, cudaVersion, major, minor);
    var c2 := SetNested(c1, VersionKey, BuildVersionKey, buildVersion).value;
    assert Find(c2, VersionKey) == Some(Map(ver'));
    var c3 := SetNested(c2, t, ComponentsKey, ArchComponents(conf, key, distroKey, arch)).value;
    assert Find(c3, VersionKey) == Some(Map(ver'));
    var r := ExtractKeys(c3, GetData(conf, [key, distroKey, arch], false).data, t, arches, distros).value;
    assert Find(r, VersionKey) == Some(Map(ver'));
  }

  lemma BaseContextVersion(conf: Value, key: string, distro: string, distroVersion: string, cudaVersion: string,
                           major: string, minor: string, flavor: Value, arches: seq<string>, tegra: bool,
                           tegraArch: string, supportedArches: Value)
    ensures VersionHolds(BaseContext(conf, key, distro, distroVersion, cudaVersion, major, minor, flavor, arches, tegra,
                                     tegraArch, supportedArches), cudaVersion, major, minor)
  {
    VersionEntryHolds(cudaVersion, major, minor);
  }

  lemma VersionEntryHolds(cudaVersion: string, major: string, minor: string)
    ensures VersionFieldsHeld(VersionEntry(cudaVersion, major, minor).entries, cudaVersion, major, minor)
  {
    VersionEntryNumbers(cudaVersion, major, minor);
    VersionEntryJoined(cudaVersion, major, minor);
  }

  lemma VersionEntryNumbers(cudaVersion: string, major: string, minor: string)
    ensures var ver := VersionEntry(cudaVersion, major, minor).entries;
            && Find(ver, ReleaseLabelKey) == Some(Str(cudaVersion))
            && Find(ver, MajorKey) == Some(Str(major))
  {
    var ver := VersionEntry(cudaVersion, major, minor).entries;
    assert ver[0].0 == ReleaseLabelKey && ver[1].0 == MajorKey;
    assert ReleaseLabelKey[0] != MajorKey[0];
    FindAt(ver, 0);
    FindAt(ver, 1);
  }

  lemma VersionEntryJoined(cudaVersion: string, major: string, minor: string)
    ensures var ver := VersionEntry(cudaVersion, major, minor).entries;
            && Find(ver, MinorKey) == Some(Str(minor))
            && Find(ver, MajorMinorKey) == Some(Str(major + ['.'] + minor))
  {
    VersionEntryMinor(cudaVersion, major, minor);
    VersionEntryMajorMinor(cudaVersion, major, minor);
  }

  lemma VersionEntryMinor(cudaVersion: string, major: string, minor: string)
    ensures Find(VersionEntry(cudaVersion, major, minor).entries, MinorKey) == Some(Str(minor))
  {
    var ver := VersionEntry(cudaVersion, major, minor).entries;
    assert ver[0].0 == ReleaseLabelKey && ver[1].0 == MajorKey && ver[2] == (MinorKey, Str(minor));
    VersionKeysDistinct();
    FindAt(ver, 2);
  }

  lemma VersionEntryMajorMinor(cudaVersion: string, major: string, minor: string)
    ensures Find(VersionEntry(cudaVersion, major, minor).entries, MajorMinorKey) == Some(Str(major + ['.'] + minor))
  {
    var ver := VersionEntry(cudaVersion, major, minor).entries;
    assert ver[0].0 == ReleaseLabelKey && ver[1].0 == MajorKey && ver[2].0 == MinorKey;
    assert ver[3] == (MajorMinorKey, Str(major + ['.'] + minor));
    VersionKeysDistinct();
    assert forall j :: 0 <= j < 3 ==> ver[j].0 != ver[3].0;
    FindAt(ver, 3);
  }

  /** The four keys of the version entry are distinct. */
  lemma VersionKeysDistinct()
    ensures ReleaseLabelKey != MinorKey && MajorKey != MinorKey
    ensures ReleaseLabelKey != MajorMinorKey && MajorKey != MajorMinorKey && MinorKey != MajorMinorKey
  {
    assert ReleaseLabelKey[0] == 'r' && MajorKey[1] == 'a' && MinorKey[1] == 'i';
    assert MajorMinorKey[0] == 'm' && |MajorKey| == 5 && |MinorKey| == 5 && |MajorMinorKey| == 11;
  }

  /** Whatever the manifest holds, the context's version entry carries the
      major and minor numbers of the release label (or the cuda version),
      their dotted join and the cuda version, as long as the distro entry
      does not supply a `version` key of its own and no arch translates to
      the name `version`. */
  lemma PrepareContextVersion(conf: Value, key: string, distro: string, distroVersion: string, releaseLabel: string,
                              cudaVersion: string, flavor: Value, arches: seq<string>, tegra: bool,
                              containerArch: map<string, string>, tegraArch: string, supportedArches: Value,
                              distros: Result<seq<string>>)
    requires PrepareContext(conf, key, distro, distroVersion, releaseLabel, cudaVersion, flavor, arches, tegra,
                            containerArch, tegraArch, supportedArches, distros).Ok?
    requires var d := GetData(conf, [key, distro + distroVersion], false).data; d.Map? && VersionKey !in Keys(d.entries)
    requires PlainTranslations(Translations(arches, containerArch, tegra, tegraArch, None))
    ensures var f := VersionFields(releaseLabel, cudaVersion).value;
            VersionHolds(PrepareContext(conf, key, distro, distroVersion, releaseLabel, cudaVersion, flavor, arches,
                                        tegra, containerArch, tegraArch, supportedArches, distros).value,
                         cudaVersion, f.0, f.1)
  {
    var f := VersionFields(releaseLabel, cudaVersion).value;
    var base := BaseContext(conf, key, distro, distroVersion, cudaVersion, f.0, f.1, flavor, arches, tegra,
                            tegraArch, supportedArches);
    BaseContextVersion(conf, key, distro, distroVersion, cudaVersion, f.0, f.1, flavor, arches, tegra,
                       tegraArch, supportedArches);
    var d := GetData(conf, [key, distro + distroVersion], false).data;
    var c := ExtractKeys(base, d, "", arches, distros).value;
    PrepareContextSteps(conf, key, distro, distroVersion, releaseLabel, cudaVersion, flavor, arches, tegra,
                        containerArch, tegraArch, supportedArches, distros, VersionKey);
    ArchLoopKeepsVersion(c, conf, key, distro + distroVersion, arches, arches, None, containerArch, tegra, tegraArch,
                         distros, cudaVersion, f.0, f.1);
  }

  /** The arch loop changes no top-level key other than `version` and the
      container arch names it chooses. */
  lemma {:induction false} ArchLoopOthers(cuda: seq<(string, Value)>, conf: Value, key: string, distroKey: string,
                                          todo: seq<string>, arches: seq<string>, prev: Option<string>,
                                          containerArch: map<string, string>, tegra: bool, tegraArch: string,
                                          distros: Result<seq<string>>, k: string)
    requires k != VersionKey
    requires PlainTranslations(Translations(todo, containerArch, tegra, tegraArch, prev))
    requires k !in Translations(todo, containerArch, tegra, tegraArch, prev).value
    requires ArchLoop(cuda, conf, key, distroKey, todo, arches, prev, containerArch, tegra, tegraArch, distros).Ok?
    ensures Find(ArchLoop(cuda, conf, key, distroKey, todo, arches, prev, containerArch, tegra, tegraArch, distros).value, k)
            == Find(cuda, k)
    decreases |todo|
  {
    if |todo| > 0 {
      var t := Translate(todo[0], containerArch, tegra, tegraArch, prev).value;
      PlainTranslationsTail(todo, containerArch, tegra, tegraArch, prev);
      var rest := Translations(todo[1..], containerArch, tegra, tegraArch, Some(t)).value;
      assert Translations(todo, containerArch, tegra, tegraArch, prev).value == [t] + rest;
      var c := ArchStep(cuda, conf, key, distroKey, todo[0], t, arches, distros).value;
      ArchStepOthers(cuda, conf, key, distroKey, todo[0], t, arches, distros);
      ArchLoopOthers(c, conf, key, distroKey, todo[1..], arches, Some(t), containerArch, tegra, tegraArch, distros, k);
    }
  }

  /** The base entries of the context (the supported arches, the flavor,
      the arch list, the distro, the image tag suffix and the end of life)
      reach the finished context unchanged, unless the distro entry supplies
      a key of the same name or an arch translates to that name. */
  lemma PrepareContextBase(conf: Value, key: string, distro: string, distroVersion: string, releaseLabel: string,
                           cudaVersion: string, flavor: Value, arches: seq<string>, tegra: bool,
                           containerArch: map<string, string>, tegraArch: string, supportedArches: Value,
                           distros: Result<seq<string>>, k: string)
    requires PrepareContext(conf, key, distro, distroVersion, releaseLabel, cudaVersion, flavor, arches, tegra,
                            containerArch, tegraArch, supportedArches, distros).Ok?
    requires k in [SupportedArchesKey, FlavorKey, ArchesKey, OsKey, ImageTagSuffixKey, EndOfLifeKey]
    requires var d := GetData(conf, [key, distro + distroVersion], false).data; d.Map? && k !in Keys(d.entries)
    requires PlainTranslations(Translations(arches, containerArch, tegra, tegraArch, None))
    requires k !in Translations(arches, containerArch, tegra, tegraArch, None).value
    ensures var f := VersionFields(releaseLabel, cudaVersion).value;
            Find(PrepareContext(conf, key, distro, distroVersion, releaseLabel, cudaVersion, flavor, arches,
                                tegra, containerArch, tegraArch, supportedArches, distros).value, k)
            == Find(BaseContext(conf, key, distro, distroVersion, cudaVersion, f.0, f.1, flavor, arches, tegra,
                                tegraArch, supportedArches), k)
  {
    var f := VersionFields(releaseLabel, cudaVersion).value;
    var base := BaseContext(conf, key, distro, distroVersion, cudaVersion, f.0, f.1, flavor, arches, tegra,
                            tegraArch, supportedArches);
    var d := GetData(conf, [key, distro + distroVersion], false).data;
    var c := ExtractKeys(base, d, "", arches, distros).value;
    PrepareContextSteps(conf, key, distro, distroVersion, releaseLabel, cudaVersion, flavor, arches, tegra,
                        containerArch, tegraArch, supportedArches, distros, k);
    BaseEntryKeyNotVersion(k);
    ArchLoopOthers(c, conf, key, distro + distroVersion, arches, arches, None, containerArch, tegra, tegraArch,
                   distros, k);
  }

  /** `prepare_context` is the top-level copy from the distro entry followed
      by the arch loop, and the copy keeps every key the entry lacks. */
  lemma PrepareContextSteps(conf: Value, key: string, distro: string, distroVersion: string, releaseLabel: string,
                            cudaVersion: string, flavor: Value, arches: seq<string>, tegra: bool,
                            containerArch: map<string, string>, tegraArch: string, supportedArches: Value,
                            distros: Result<seq<string>>, k: string)
    requires PrepareContext(conf, key, distro, distroVersion, releaseLabel, cudaVersion, flavor, arches, tegra,
                            containerArch, tegraArch, supportedArches, distros).Ok?
    requires var d := GetData(conf, [key, distro + distroVersion], false).data; d.Map? && k !in Keys(d.entries)
    ensures var f := VersionFields(releaseLabel, cudaVersion).value;
            var base := BaseContext(conf, key, distro, distroVersion, cudaVersion, f.0, f.1, flavor, arches, tegra,
                                    tegraArch, supportedArches);
            var c := ExtractKeys(base, GetData(conf, [key, distro + distroVersion], false).data, "", arches, distros);
            && c.Ok? && Find(c.value, k) == Find(base, k)
            && PrepareContext(conf, key, distro, distroVersion, releaseLabel, cudaVersion, flavor, arches, tegra,
                              containerArch, tegraArch, supportedArches, distros)
               == ArchLoop(c.value, conf, key, distro + distroVersion, arches, arches, None, containerArch, tegra,
                           tegraArch, distros)
  {
  }

  lemma BaseEntryKeyNotVersion(k: string)
    requires k in [SupportedArchesKey, FlavorKey, ArchesKey, OsKey, ImageTagSuffixKey, EndOfLifeKey]
    ensures k != VersionKey
  {
    assert k[0] != VersionKey[0];
  }

  // ---------------------------------------------------------------------
  // cudnn components

  /** The keys of a components mapping that name a cudnn component with a
      truthy value, in order. */
  function CudnnKeys(comps: seq<(string, Value)>): (ks: seq<string>)
    ensures forall k :: k in ks <==> exists i :: 0 <= i < |comps| && comps[i].0 == k && StartsWith(k, ReleaseKeys.CudnnWord) && Truthy(comps[i].1)
    ensures IsSubsequence(ks, Keys(comps))
    decreases |comps|
  {
    if |comps| == 0 then []
    else
      var rest := CudnnKeys(comps[1..]);
      assert Keys(comps) == [comps[0].0] + Keys(comps[1..]);
      assert forall i :: 1 <= i < |comps| ==> comps[i] == comps[1..][i - 1];
      assert forall k :: (exists i :: 1 <= i < |comps| && comps[i].0 == k && StartsWith(k, ReleaseKeys.CudnnWord) && Truthy(comps[i].1))
                         ==> exists i :: 0 <= i < |comps[1..]| && comps[1..][i].0 == k && StartsWith(k, ReleaseKeys.CudnnWord) && Truthy(comps[1..][i].1);
      if StartsWith(comps[0].0, ReleaseKeys.CudnnWord) && Truthy(comps[0].1) then
        assert ([comps[0].0] + rest)[1..] == rest;
        [comps[0].0] + rest
      else
        SubsequenceSkip(rest, Keys(comps));
        rest
  }

  /** `cudnn_versions(arch)` (manager.py:830-835): the cudnn component keys
      of `cuda[arch]["components"]`; a missing entry raises. */
  function CudnnVersions(cuda: seq<(string, Value)>, arch: string): (r: Result<seq<string>>)
    ensures r.Ok? <==> Descend(Map(cuda), [arch, ComponentsKey]).Some? && Descend(Map(cuda), [arch, ComponentsKey]).value.Map?
    ensures r.Ok? ==> r.value == CudnnKeys(Descend(Map(cuda), [arch, ComponentsKey]).value.entries)
  {
    match Descend(Map(cuda), [arch, ComponentsKey])
    case Some(Map(comps)) => Ok(CudnnKeys(comps))
    case Some(_) => Err("object has no attribute 'items'")
    case None => Err("KeyError")
  }

  /** `{"version": val["version"]}` for one cudnn component. */
  function CudnnEntry(val: Value): (r: Result<Value>)
    ensures r.Ok? <==> val.Map? && Find(val.entries, VersionKey).Some?
    ensures r.Ok? ==> r.value == Map([(VersionKey, Find(val.entries, VersionKey).value)])
  {
    if !val.Map? then Err("TypeError: not subscriptable")
    else
      var v: Option<Value> := Find(val.entries, VersionKey);
      match v
      case Some(x) => Ok(Map([(VersionKey, x)]))
      case None => Err("KeyError: version")
  }

  /** The loop of `get_cudnn_components` over a components mapping. */
  function CudnnLoop(acc: seq<(string, Value)>, comps: seq<(string, Value)>): (r: Result<seq<(string, Value)>>)
    decreases |comps|
  {
    if |comps| == 0 then Ok(acc)
    else
      var (comp, val) := comps[0];
      if CudnnSelected(comp, val) then
        var e :- CudnnEntry(val);
        CudnnLoop(Put(acc, comp, e), comps[1..])
      else CudnnLoop(acc, comps[1..])
  }

  /** A component is selected when its name contains `cudnn` and its value
      is truthy. */
  predicate CudnnSelected(comp: string, val: Value) {
    Contains(comp, ReleaseKeys.CudnnWord) && Truthy(val)
  }

  /** `get_cudnn_components(key, distro, arch)` (manager.py:1091-1097) on the
      components mapping of the arch: the version of every cudnn component,
      keyed by component. */
  function CudnnComponents(comps: seq<(string, Value)>): (r: Result<seq<(string, Value)>>)
  {
    CudnnLoop([], comps)
  }

  /** With unique component names, the result holds exactly the selected
      components, each with the version recorded for it. */
  lemma {:induction false} CudnnLoopSelects(acc: seq<(string, Value)>, comps: seq<(string, Value)>, c: string)
    requires UniqueKeys(comps)
    requires CudnnLoop(acc, comps).Ok?
    ensures c in Keys(comps) && CudnnSelected(c, Find(comps, c).value) ==>
              && CudnnEntry(Find(comps, c).value).Ok?
              && Find(CudnnLoop(acc, comps).value, c) == Some(CudnnEntry(Find(comps, c).value).value)
    ensures !(c in Keys(comps) && CudnnSelected(c, Find(comps, c).value)) ==>
              Find(CudnnLoop(acc, comps).value, c) == Find(acc, c)
    decreases |comps|
  {
    if |comps| > 0 {
      UniqueKeysTail(comps);
      var (comp, val) := comps[0];
      if CudnnSelected(comp, val) {
        var e := CudnnEntry(val).value;
        CudnnLoopSelects(Put(acc, comp, e), comps[1..], c);
      } else {
        CudnnLoopSelects(acc, comps[1..], c);
      }
    }
  }

  lemma CudnnComponentsSelects(comps: seq<(string, Value)>, c: string)
    requires UniqueKeys(comps)
    requires CudnnComponents(comps).Ok?
    ensures c in Keys(comps) && CudnnSelected(c, Find(comps, c).value) ==>
              && CudnnEntry(Find(comps, c).value).Ok?
              && Find(CudnnComponents(comps).value, c) == Some(CudnnEntry(Find(comps, c).value).value)
    ensures !(c in Keys(comps) && CudnnSelected(c, Find(comps, c).value)) ==> Find(CudnnComponents(comps).value, c).None?
  {
    CudnnLoopSelects([], comps, c);
  }
}

=== FILE: gates.dfy ===
/** The gate-line scanners of `ManagerTrigger`: `ci_pipelines` and
    `ci_pipeline_by_name` read the generated `.gitlab-ci.yml` line by line and
    collect the variable of every line shaped `- if: '$<var> == "true"'`
    whose variable fits a pattern built from the request. The file's lines
    are a parameter; each pattern is built the way the source builds its
    regular-expression text, interpolated strings included (a `.` in an
    interpolated version matches any character but a newline). */
module Gates {
  import opened Wrappers
  import opened Strings
  import opened Regex

  /** The literal texts of the gate-line pattern. */
  const LeadText := "- if: '$"
  const EqText := "=="
  const TrueText := ".true.'"
  const UbuntuText := "ubuntu"
  const Sep := "_"

  /** What the pipeline template writes after the variable's whitespace. */
  const GateEnd := "== \"true\"'"

  /** `^\s+- if: '\$` */
  const Lead: Re := Cat(Repeat(Space, 1, None), Pat(LeadText))

  /** `\s+==\s.true.'` */
  const Tail: Re := Cat(Repeat(Space, 1, None), TailRest)

  const TailRest: Re := Cat(Pat(EqText), Cat(One(Space), Pat(TrueText)))

  /** `(ubuntu\d{2}_\d{2})` */
  function UbuntuRe(): Re {
    Cat(Pat(UbuntuText), Cat(Repeat(Digit, 2, Some(2)), Cat(One(Lit('_')), Repeat(Digit, 2, Some(2)))))
  }

  /** The distro part of the variable pattern. With no distro it is
      `(ubuntu\d{2}_\d{2})?(?(2)|([a-z]*\d))`: the Ubuntu form is tried first,
      and only when it is skipped may `[a-z]*\d` match instead. */
  function DistroRe(distro: string, distroVersion: string): Re {
    if distro == "" then Alt(UbuntuRe(), Cat(Repeat(LowerAz, 0, None), One(Digit)))
    else if distroVersion == "" then
      (if Contains(distro, UbuntuText) then UbuntuRe() else Cat(Pat(distro), One(Digit)))
    else Pat(distro + distroVersion)
  }

  /** The version part: the version text itself, or `(\d{1,2}_\d{1,2}_?\d?)`. */
  function VersionRe(cudaVersion: string): Re {
    if cudaVersion == "" then
      Cat(Repeat(Digit, 1, Some(2)),
        Cat(One(Lit('_')),
          Cat(Repeat(Digit, 1, Some(2)),
            Cat(Repeat(Lit('_'), 0, Some(1)), Repeat(Digit, 0, Some(1))))))
    else Pat(cudaVersion)
  }

  /** `({distro}_{cuda_version})` of `ci_pipelines`; an empty argument stands
      for a missing one (`None` and `""` behave alike there). */
  function PipelineRe(cudaVersion: string, distro: string, distroVersion: string): Re {
    Cat(DistroRe(distro, distroVersion), Cat(Pat(Sep), VersionRe(cudaVersion)))
  }

  /** `([\w\._]*{name}[\w\._]*)` of `ci_pipeline_by_name` */
  function ByNameRe(name: string): Re {
    Cat(Repeat(WordOrDot, 0, None), Cat(Pat(name), Repeat(WordOrDot, 0, None)))
  }

  /** The variable a gate line sets, when the line fits `idRe`. */
  function GateId(idRe: Re, line: string): (r: Option<string>)
  {
    GroupOf(Lead, idRe, Tail, line)
  }

  /** The text of group `grp` in `re.match("pre(grp)post$", line)`. */
  function GroupOf(pre: Re, grp: Re, post: Re, line: string): (r: Option<string>)
  {
    match MatchGroup(pre, grp, post, line)
    case Some(pq) => Some(line[pq.0..pq.1])
    case None => None
  }

  lemma GroupText(pre: Re, grp: Re, post: Re, line: string, p: nat, q: nat)
    requires MatchGroup(pre, grp, post, line) == Some((p, q))
    ensures GroupOf(pre, grp, post, line) == Some(line[p..q])
  {
  }

  /** The variable of one line, as a list of at most one. */
  function LineIds(idRe: Re, line: string): (ids: seq<string>)
    ensures |ids| <= 1
    ensures forall x :: x in ids <==> GateId(idRe, line) == Some(x)
  {
    match GateId(idRe, line)
    case Some(x) => [x]
    case None => []
  }

  /** The variables of all fitting lines, in line order. */
  function Scan(lines: seq<string>, idRe: Re): (ids: seq<string>)
    ensures |ids| <= |lines|
    ensures forall x :: x in ids <==> exists i :: 0 <= i < |lines| && GateId(idRe, lines[i]) == Some(x)
    decreases |lines|
  {
    if |lines| == 0 then []
    else
      assert forall i :: 1 <= i < |lines| ==> lines[i] == lines[1..][i - 1];
      assert forall i :: 0 <= i < |lines[1..]| ==> lines[1..][i] == lines[i + 1];
      LineIds(idRe, lines[0]) + Scan(lines[1..], idRe)
  }

  /** A single line gives its own variable, if it has one. */
  lemma ScanLine(line: string, idRe: Re)
    ensures Scan([line], idRe) == LineIds(idRe, line)
  {
    assert [line][1..] == [];
  }

  /** The scan keeps line order: the variables of a block of lines followed
      by another are those of the first block, then those of the second. */
  lemma {:induction false} ScanInOrder(a: seq<string>, b: seq<string>, idRe: Re)
    ensures Scan(a + b, idRe) == Scan(a, idRe) + Scan(b, idRe)
    decreases |a|
  {
    if |a| == 0 {
      assert a + b == b;
    } else {
      var ab := a + b;
      calc {
        Scan(ab, idRe);
      == { assert ab[0] == a[0] && ab[1..] == a[1..] + b; }
        LineIds(idRe, a[0]) + Scan(a[1..] + b, idRe);
      == { ScanInOrder(a[1..], b, idRe); }
        LineIds(idRe, a[0]) + (Scan(a[1..], idRe) + Scan(b, idRe));
      }
    }
  }

  /** `ci_pipelines(cuda_version, distro, distro_version)` */
  function CiPipelines(lines: seq<string>, cudaVersion: string, distro: string, distroVersion: string): seq<string>
  {
    Scan(lines, PipelineRe(cudaVersion, distro, distroVersion))
  }

  /** `ci_pipeline_by_name(name)` */
  function CiPipelineByName(lines: seq<string>, name: string): seq<string>
  {
    Scan(lines, ByNameRe(name))
  }

  // ---------------------------------------------------------------------
  // The shape of a gate line

  /** After the variable and its whitespace: `==`, one whitespace character,
      any character, `true`, any character, `'` — ending at `k + 10`. */
  predicate TailRestAt(s: string, k: nat) {
    && k + 10 <= |s|
    && s[k..k + 2] == EqText
    && IsSpace(s[k + 2])
    && PatMatches(TrueText, s[k + 3..k + 10])
  }

  /** From `q`, a non-empty whitespace run up to `k`, then the rest of the tail. */
  predicate TailShape(s: string, q: nat, k: nat) {
    && q < k
    && TailRestAt(s, k)
    && (forall j :: q <= j < k ==> IsSpace(s[j]))
  }

  /** The tail shape, followed by the end of the line (or its final newline). */
  predicate TailAfter(s: string, q: nat, k: nat) {
    TailShape(s, q, k) && AtEnd(s, k + 10)
  }

  /** `line[..p]` is `\s+- if: '$`, and `line[q..]` is `\s+==\s.true.'` up to
      the end of the line or its final newline. */
  ghost predicate GateLine(line: string, p: nat, q: nat) {
    && 9 <= p <= q <= |line|
    && (forall j :: 0 <= j < p - 8 ==> IsSpace(line[j]))
    && line[p - 8..p] == LeadText
    && exists k :: TailAfter(line, q, k)
  }

  lemma LitEnd(t: string, s: string, i: nat, e: nat)
    requires '.' !in t && i <= |s| && e in Ends(Pat(t), s, i)
    ensures e == i + |t| <= |s| && s[i..e] == t
  {
    PatEnd(t, s, i, e);
    PatMatchesLiteral(t, s[i..e]);
  }

  lemma LitHit(t: string, s: string, i: nat)
    requires '.' !in t && i + |t| <= |s| && s[i..i + |t|] == t
    ensures Ends(Pat(t), s, i) == [i + |t|]
  {
    PatMatchesLiteral(t, s[i..i + |t|]);
    PatHit(t, s, i);
  }

  /** A literal, one whitespace character, then a text pattern. */
  lemma LitSpacePatEnd(a: string, t: string, s: string, k: nat, e: nat)
    requires '.' !in a && k <= |s| && e in Ends(Cat(Pat(a), Cat(One(Space), Pat(t))), s, k)
    ensures e == k + |a| + 1 + |t| <= |s|
    ensures s[k..k + |a|] == a && IsSpace(s[k + |a|]) && PatMatches(t, s[k + |a| + 1..e])
  {
    var m := CatSplit(Pat(a), Cat(One(Space), Pat(t)), s, k, e);
    LitEnd(a, s, k, m);
    var m2 := CatSplit(One(Space), Pat(t), s, m, e);
    assert m2 == m + 1 && IsSpace(s[m]);
    PatEnd(t, s, m2, e);
  }

  lemma LitSpacePatHit(a: string, t: string, s: string, k: nat)
    requires '.' !in a && k + |a| + 1 + |t| <= |s|
    requires s[k..k + |a|] == a && IsSpace(s[k + |a|]) && PatMatches(t, s[k + |a| + 1..k + |a| + 1 + |t|])
    ensures k + |a| + 1 + |t| in Ends(Cat(Pat(a), Cat(One(Space), Pat(t))), s, k)
  {
    var m := k + |a|;
    var e := m + 1 + |t|;
    LitHit(a, s, k);
    PatHit(t, s, m + 1);
    assert m + 1 in Ends(One(Space), s, m);
    CatJoin(One(Space), Pat(t), s, m, m + 1, e);
    CatJoin(Pat(a), Cat(One(Space), Pat(t)), s, k, m, e);
  }

  lemma TailRestEnd(s: string, k: nat, e: nat)
    requires k <= |s| && e in Ends(TailRest, s, k)
    ensures TailRestAt(s, k) && e == k + 10
  {
    LitSpacePatEnd(EqText, TrueText, s, k, e);
  }

  lemma TailRestHit(s: string, k: nat)
    requires TailRestAt(s, k)
    ensures k + 10 in Ends(TailRest, s, k)
  {
    LitSpacePatHit(EqText, TrueText, s, k);
  }

  lemma TailEnd(s: string, q: nat, e: nat) returns (k: nat)
    requires q <= |s| && e in Ends(Tail, s, q)
    ensures TailShape(s, q, k) && e == k + 10
  {
    k := CatSplit(Repeat(Space, 1, None), TailRest, s, q, e);
    RepeatEnd(Space, 1, None, s, q, k);
    TailRestEnd(s, k, e);
  }

  lemma TailHit(s: string, q: nat, k: nat)
    requires TailShape(s, q, k)
    ensures k + 10 in Ends(Tail, s, q)
  {
    RepeatHit(Space, 1, None, s, q, k);
    TailRestHit(s, k);
    CatJoin(Repeat(Space, 1, None), TailRest, s, q, k, k + 10);
  }

  lemma TailSucceedsAt(s: string, q: nat, k: nat)
    requires q <= |s| && TailAfter(s, q, k)
    ensures TailSucceeds(Tail, s, q)
  {
    TailHit(s, q, k);
  }

  lemma TailSucceedsEnd(s: string, q: nat) returns (k: nat)
    requires q <= |s| && TailSucceeds(Tail, s, q)
    ensures TailAfter(s, q, k)
  {
    var e :| e in Ends(Tail, s, q) && AtEnd(s, e);
    k := TailEnd(s, q, e);
  }

  /** The tail succeeds from `q` exactly when the line goes on with
      `\s+==\s.true.'` and ends. */
  lemma TailSucceedsShape(s: string, q: nat)
    requires q <= |s|
    ensures TailSucceeds(Tail, s, q) <==> exists k :: TailAfter(s, q, k)
  {
    if TailSucceeds(Tail, s, q) {
      var k := TailSucceedsEnd(s, q);
    }
    if k :| TailAfter(s, q, k) {
      TailSucceedsAt(s, q, k);
    }
  }

  /** `\s+` then a literal. */
  lemma WsLitEnd(t: string, s: string, p: nat)
    requires '.' !in t && p in Ends(Cat(Repeat(Space, 1, None), Pat(t)), s, 0)
    ensures |t| + 1 <= p <= |s|
    ensures forall j :: 0 <= j < p - |t| ==> IsSpace(s[j])
    ensures s[p - |t|..p] == t
  {
    var m := CatSplit(Repeat(Space, 1, None), Pat(t), s, 0, p);
    RepeatEnd(Space, 1, None, s, 0, m);
    LitEnd(t, s, m, p);
  }

  lemma WsLitFirst(t: string, s: string, w: nat)
    requires '.' !in t && |t| > 0 && !IsSpace(t[0])
    requires 1 <= w && w + |t| <= |s|
    requires forall j :: 0 <= j < w ==> IsSpace(s[j])
    requires s[w..w + |t|] == t
    ensures |Ends(Cat(Repeat(Space, 1, None), Pat(t)), s, 0)| > 0
    ensures Ends(Cat(Repeat(Space, 1, None), Pat(t)), s, 0)[0] == w + |t|
  {
    assert s[w] == s[w..w + |t|][0];
    RepeatFirst(Space, 1, s, 0, w);
    CatFirst(Repeat(Space, 1, None), Pat(t), s, 0);
    LitHit(t, s, w);
  }

  lemma LeadEnd(s: string, p: nat)
    requires p in Ends(Lead, s, 0)
    ensures 9 <= p <= |s|
    ensures forall j :: 0 <= j < p - 8 ==> IsSpace(s[j])
    ensures s[p - 8..p] == LeadText
  {
    LeadTextShape();
    WsLitEnd(LeadText, s, p);
  }

  lemma LeadTextShape()
    ensures |LeadText| == 8 && '.' !in LeadText
  {
    assert LeadText == ['-', ' ', 'i', 'f', ':', ' ', '\'', '$'];
  }

  /** The matcher's first try after `\s+- if: '\$` is right after the whole indentation. */
  lemma LeadFirst(s: string, w: nat)
    requires 1 <= w && w + 8 <= |s|
    requires forall j :: 0 <= j < w ==> IsSpace(s[j])
    requires s[w..w + 8] == LeadText
    ensures |Ends(Lead, s, 0)| > 0 && Ends(Lead, s, 0)[0] == w + 8
  {
    WsLitFirst(LeadText, s, w);
  }

  /** Every variable a scanner reports comes from a line of the gate shape,
      and fits the pattern right after the `$`. */
  lemma GateIdSound(idRe: Re, line: string, id: string)
    requires GateId(idRe, line) == Some(id)
    ensures exists p: nat, q: nat :: GateLine(line, p, q) && id == line[p..q] && q in Ends(idRe, line, p)
  {
    var pq := MatchGroup(Lead, idRe, Tail, line).value;
    LeadEnd(line, pq.0);
    var k := TailSucceedsEnd(line, pq.1);
    assert GateLine(line, pq.0, pq.1);
  }

  /** A line whose matcher starts the variable at `p` reports it up to `q`
      when the tail follows `q`, and only `q` among the variable pattern's
      ends is followed by whitespace. */
  lemma GateIdAt(idRe: Re, line: string, p: nat, q: nat, k: nat, id: string)
    requires |Ends(Lead, line, 0)| > 0 && Ends(Lead, line, 0)[0] == p
    requires p <= q <= |line| && line[p..q] == id && q in Ends(idRe, line, p)
    requires TailAfter(line, q, k)
    requires forall q' :: q' in Ends(idRe, line, p) && q' < |line| && IsSpace(line[q']) ==> q' == q
    ensures GateId(idRe, line) == Some(id)
  {
    TailSucceedsAt(line, q, k);
    TailOnlyAfterSpace(idRe, line, p, q);
    GateIdFrom(idRe, line, p, q);
  }

  lemma TailOnlyAfterSpace(idRe: Re, line: string, p: nat, q: nat)
    requires p <= |line|
    requires forall q' :: q' in Ends(idRe, line, p) && q' < |line| && IsSpace(line[q']) ==> q' == q
    ensures forall q' :: q' in Ends(idRe, line, p) && q' <= |line| && TailSucceeds(Tail, line, q') ==> q' == q
  {
    forall q' | q' in Ends(idRe, line, p) && q' <= |line| && TailSucceeds(Tail, line, q')
      ensures q' == q
    {
      var k := TailSucceedsEnd(line, q');
      assert q' < |line| && IsSpace(line[q']);
    }
  }

  lemma GateIdFrom(idRe: Re, line: string, p: nat, q: nat)
    requires |Ends(Lead, line, 0)| > 0 && Ends(Lead, line, 0)[0] == p
    requires q in Ends(idRe, line, p) && q <= |line| && TailSucceeds(Tail, line, q)
    requires forall q' :: q' in Ends(idRe, line, p) && q' <= |line| && TailSucceeds(Tail, line, q') ==> q' == q
    ensures GateId(idRe, line) == Some(line[p..q])
  {
    MatchGroupAt(Lead, idRe, Tail, line, p, q);
    GroupText(Lead, idRe, Tail, line, p, q);
  }

  /** The gate line the pipeline template writes: indentation, the condition
      on variable `id`, whitespace, `== "true"'`, and the newline that reading
      the file line by line keeps (absent on a last line). */
  function GateLineText(indent: string, id: string, gap: string, nl: string): string {
    indent + LeadText + id + gap + GateEnd + nl
  }

  predicate AllSpace(s: string) { forall i :: 0 <= i < |s| ==> IsSpace(s[i]) }

  predicate WellShaped(indent: string, gap: string, nl: string) {
    |indent| > 0 && AllSpace(indent) && |gap| > 0 && AllSpace(gap) && (nl == "" || nl == "\n")
  }

  /** The slices of a written gate line. */
  lemma GateLineTextParts(indent: string, id: string, gap: string, nl: string)
    requires WellShaped(indent, gap, nl)
    ensures var line := GateLineText(indent, id, gap, nl);
            var p := |indent| + 8;
            var q := p + |id|;
            && |line| == q + |gap| + 10 + |nl|
            && (forall j :: 0 <= j < |indent| ==> IsSpace(line[j]))
            && line[|indent|..p] == LeadText
            && line[p..q] == id
            && TailAfter(line, q, q + |gap|)
  {
    var line := GateLineText(indent, id, gap, nl);
    var p := |indent| + 8;
    var q := p + |id|;
    var k := q + |gap|;
    assert |LeadText| == 8 && |GateEnd| == 10;
    forall j | 0 <= j < |indent| ensures line[j] == indent[j] { }
    assert line[|indent|..p] == LeadText;
    assert line[p..q] == id;
    forall j | q <= j < k ensures line[j] == gap[j - q] { }
    assert line[k..k + 10] == GateEnd;
    GateEndShape(line, k);
    if nl == "\n" { assert line[k + 10] == '\n'; }
  }

  lemma GateEndShape(s: string, k: nat)
    requires k + 10 <= |s| && s[k..k + 10] == GateEnd
    ensures TailRestAt(s, k)
  {
    var u := s[k..k + 10];
    assert s[k..k + 2] == u[..2] && s[k + 2] == u[2] && s[k + 3..k + 10] == u[3..];
  }

  // ---------------------------------------------------------------------
  // ci_pipelines with every argument given

  /** The query text `ci_pipelines` builds when every argument is given. */
  function QueryText(cudaVersion: string, distro: string, distroVersion: string): string {
    distro + distroVersion + Sep + cudaVersion
  }

  /** With every argument given the variable pattern is the query text. */
  lemma AllGivenEnd(v: string, d: string, dv: string, s: string, p: nat, q: nat)
    requires v != "" && d != "" && dv != "" && p <= |s|
    requires q in Ends(PipelineRe(v, d, dv), s, p)
    ensures q == p + |QueryText(v, d, dv)| <= |s| && PatMatches(QueryText(v, d, dv), s[p..q])
  {
    var m1 := CatSplit(Pat(d + dv), Cat(Pat(Sep), Pat(v)), s, p, q);
    PatEnd(d + dv, s, p, m1);
    var m2 := CatSplit(Pat(Sep), Pat(v), s, m1, q);
    PatEnd(Sep, s, m1, m2);
    PatEnd(v, s, m2, q);
    var u := s[p..q];
    assert u[..|d + dv|] == s[p..m1] && u[|d + dv|..] == s[m1..q];
    assert s[m1..q][..1] == s[m1..m2] && s[m1..q][1..] == s[m2..q];
    PatMatchesConcat(Sep, v, s[m1..q]);
    PatMatchesConcat(d + dv, Sep + v, u);
    assert QueryText(v, d, dv) == (d + dv) + (Sep + v);
  }

  lemma AllGivenHit(v: string, d: string, dv: string, s: string, p: nat)
    requires v != "" && d != "" && dv != ""
    requires p + |QueryText(v, d, dv)| <= |s| && PatMatches(QueryText(v, d, dv), s[p..p + |QueryText(v, d, dv)|])
    ensures p + |QueryText(v, d, dv)| in Ends(PipelineRe(v, d, dv), s, p)
  {
    var m1 := p + |d + dv|;
    var m2 := m1 + 1;
    var q := p + |QueryText(v, d, dv)|;
    AllGivenPieces(v, d, dv, s, p);
    PatHit(d + dv, s, p);
    PatHit(Sep, s, m1);
    PatHit(v, s, m2);
    CatJoin(Pat(Sep), Pat(v), s, m1, m2, q);
    CatJoin(Pat(d + dv), Cat(Pat(Sep), Pat(v)), s, p, m1, q);
  }

  /** A text fitting the query text fits its three pieces in turn. */
  lemma AllGivenPieces(v: string, d: string, dv: string, s: string, p: nat)
    requires v != "" && d != "" && dv != ""
    requires p + |QueryText(v, d, dv)| <= |s| && PatMatches(QueryText(v, d, dv), s[p..p + |QueryText(v, d, dv)|])
    ensures var m1 := p + |d + dv|;
            var q := p + |QueryText(v, d, dv)|;
            && q == m1 + 1 + |v|
            && PatMatches(d + dv, s[p..m1]) && PatMatches(Sep, s[m1..m1 + 1]) && PatMatches(v, s[m1 + 1..q])
  {
    var m1 := p + |d + dv|;
    var m2 := m1 + 1;
    var q := p + |QueryText(v, d, dv)|;
    assert QueryText(v, d, dv) == (d + dv) + (Sep + v);
    PatMatchesSplit(d + dv, Sep + v, s, p, m1, q);
    PatMatchesSplit(Sep, v, s, m1, m2, q);
  }

  /** Anchoring: with version, distro and distro version all given, every
      variable `ci_pipelines` returns has exactly the length of the query text
      and agrees with it wherever the query has no `.` — so the query for
      `11.2` never selects a `…_11_20` variable. */
  lemma CiPipelinesAnchored(lines: seq<string>, v: string, d: string, dv: string, id: string)
    requires v != "" && d != "" && dv != ""
    requires id in CiPipelines(lines, v, d, dv)
    ensures |id| == |QueryText(v, d, dv)|
    ensures PatMatches(QueryText(v, d, dv), id)
    ensures forall k :: 0 <= k < |id| && QueryText(v, d, dv)[k] != '.' ==> id[k] == QueryText(v, d, dv)[k]
  {
    var i :| 0 <= i < |lines| && GateId(PipelineRe(v, d, dv), lines[i]) == Some(id);
    GateIdSound(PipelineRe(v, d, dv), lines[i], id);
    var p: nat, q: nat :| GateLine(lines[i], p, q) && id == lines[i][p..q] && q in Ends(PipelineRe(v, d, dv), lines[i], p);
    AllGivenEnd(v, d, dv, lines[i], p, q);
  }

  /** The other direction: a written gate line whose variable fits the query
      text is reported, with that variable. */
  lemma CiPipelinesComplete(indent: string, id: string, gap: string, nl: string, v: string, d: string, dv: string)
    requires WellShaped(indent, gap, nl)
    requires v != "" && d != "" && dv != ""
    requires PatMatches(QueryText(v, d, dv), id)
    ensures GateId(PipelineRe(v, d, dv), GateLineText(indent, id, gap, nl)) == Some(id)
    ensures id in CiPipelines([GateLineText(indent, id, gap, nl)], v, d, dv)
  {
    var line := GateLineText(indent, id, gap, nl);
    var re := PipelineRe(v, d, dv);
    var p := |indent| + 8;
    GateLineTextParts(indent, id, gap, nl);
    AllGivenHit(v, d, dv, line, p);
    forall q | q in Ends(re, line, p) && q < |line| && IsSpace(line[q])
      ensures q == p + |id|
    {
      AllGivenEnd(v, d, dv, line, p, q);
    }
    LeadFirst(line, |indent|);
    GateIdAt(re, line, p, p + |id|, p + |id| + |gap|, id);
    assert GateId(re, line) == Some(id);
    assert [line][0] == line;
  }

  /** The example of the anchoring rule: the query for Ubuntu 20.04 and
      version 11.2 never reports the variable of version 11.20. */
  lemma LongerVersionNotSelected(lines: seq<string>)
    ensures "ubuntu20_04_11_20" !in CiPipelines(lines, "11.2", "ubuntu", "20.04")
  {
    if "ubuntu20_04_11_20" in CiPipelines(lines, "11.2", "ubuntu", "20.04") {
      CiPipelinesAnchored(lines, "11.2", "ubuntu", "20.04", "ubuntu20_04_11_20");
    }
  }

  // ---------------------------------------------------------------------
  // ci_pipeline_by_name

  /** `[\w\._]` */
  predicate IsIdChar(c: char) { IsWordChar(c) || c == '.' }

  lemma ByNameEnd(name: string, s: string, p: nat, q: nat) returns (o: nat)
    requires p <= |s| && q in Ends(ByNameRe(name), s, p)
    ensures p <= o && o + |name| <= q <= |s|
    ensures PatMatches(name, s[o..o + |name|])
    ensures forall j :: p <= j < o ==> IsIdChar(s[j])
    ensures forall j :: o + |name| <= j < q ==> IsIdChar(s[j])
  {
    var any := Repeat(WordOrDot, 0, None);
    o := CatSplit(any, Cat(Pat(name), any), s, p, q);
    IdRunEnd(s, p, o);
    NameThenIdRun(name, s, o, q);
  }

  /** An end of `[\w.]*` closes a run of `[\w.]` characters. */
  lemma IdRunEnd(s: string, i: nat, e: nat)
    requires i <= |s| && e in Ends(Repeat(WordOrDot, 0, None), s, i)
    ensures i <= e <= |s| && forall j :: i <= j < e ==> IsIdChar(s[j])
  {
    RepeatEnd(WordOrDot, 0, None, s, i, e);
  }

  /** An end of `<name>[\w.]*` follows a match of the name and a run of
      `[\w.]` characters. */
  lemma NameThenIdRun(name: string, s: string, o: nat, q: nat)
    requires o <= |s| && q in Ends(Cat(Pat(name), Repeat(WordOrDot, 0, None)), s, o)
    ensures o + |name| <= q <= |s| && PatMatches(name, s[o..o + |name|])
    ensures forall j :: o + |name| <= j < q ==> IsIdChar(s[j])
  {
    var m := CatSplit(Pat(name), Repeat(WordOrDot, 0, None), s, o, q);
    PatEnd(name, s, o, m);
    IdRunEnd(s, m, q);
  }

  lemma ByNameHit(name: string, s: string, p: nat, o: nat, q: nat)
    requires p <= o && o + |name| <= q <= |s|
    requires PatMatches(name, s[o..o + |name|])
    requires forall j :: p <= j < o ==> IsIdChar(s[j])
    requires forall j :: o + |name| <= j < q ==> IsIdChar(s[j])
    ensures q in Ends(ByNameRe(name), s, p)
  {
    var any := Repeat(WordOrDot, 0, None);
    var m := o + |name|;
    RepeatHit(WordOrDot, 0, None, s, p, o);
    PatHit(name, s, o);
    RepeatHit(WordOrDot, 0, None, s, m, q);
    CatJoin(Pat(name), any, s, o, m, q);
    CatJoin(any, Cat(Pat(name), any), s, p, o, q);
  }

  /** `id` is a run of `[\w.]` characters with a match of `name` at offset `o`. */
  predicate NameRunAt(name: string, id: string, o: nat) {
    && o + |name| <= |id|
    && PatMatches(name, id[o..o + |name|])
    && forall j :: 0 <= j < |id| && !(o <= j < o + |name|) ==> IsIdChar(id[j])
  }

  lemma WordNoDot(name: string)
    requires AllWordChars(name)
    ensures '.' !in name
  {
    forall k | 0 <= k < |name| ensures name[k] != '.' {
      assert IsWordChar(name[k]);
    }
  }

  lemma ByNameSlice(name: string, s: string, p: nat, q: nat) returns (o: nat)
    requires p <= q <= |s| && q in Ends(ByNameRe(name), s, p)
    ensures NameRunAt(name, s[p..q], o)
  {
    var at := ByNameEnd(name, s, p, q);
    o := at - p;
    var id := s[p..q];
    InnerSlice(s, p, q, o, o + |name|);
    forall j | 0 <= j < |id| && !(o <= j < o + |name|) ensures IsIdChar(id[j]) {
      assert id[j] == s[p + j];
    }
  }

  /** A slice of a slice is a slice of the whole. */
  lemma InnerSlice(s: string, p: nat, q: nat, a: nat, b: nat)
    requires p <= q <= |s| && a <= b <= q - p
    ensures s[p..q][a..b] == s[p + a..p + b]
  {
    assert forall k :: 0 <= k < b - a ==> s[p..q][a..b][k] == s[p + a + k];
  }

  /** For a name of word characters, a run of `[\w.]` holding a match of it
      is a run of `[\w.]` that contains it. */
  lemma NameRunContains(name: string, id: string, o: nat)
    requires AllWordChars(name) && NameRunAt(name, id, o)
    ensures OccursAt(id, name, o) && Contains(id, name)
    ensures forall j :: 0 <= j < |id| ==> IsIdChar(id[j])
  {
    WordNoDot(name);
    PatMatchesLiteral(name, id[o..o + |name|]);
    assert OccursAt(id, name, o) && o <= |id| - |name|;
    forall j | 0 <= j < |id| ensures IsIdChar(id[j]) {
      if o <= j < o + |name| {
        assert id[j] == name[j - o];
      }
    }
  }

  /** Every variable `ci_pipeline_by_name` reports comes from a gate line,
      followed there by whitespace, and is a run of `[\w.]` characters
      holding a match of the name. */
  lemma CiPipelineByNameSound(lines: seq<string>, name: string, id: string)
    requires id in CiPipelineByName(lines, name)
    ensures exists i: nat, p: nat, q: nat :: i < |lines| && GateLine(lines[i], p, q) && id == lines[i][p..q]
    ensures exists o: nat :: NameRunAt(name, id, o)
    ensures AllWordChars(name) ==> Contains(id, name) && forall j :: 0 <= j < |id| ==> IsIdChar(id[j])
  {
    var i :| 0 <= i < |lines| && GateId(ByNameRe(name), lines[i]) == Some(id);
    var line := lines[i];
    GateIdSound(ByNameRe(name), line, id);
    var p: nat, q: nat :| GateLine(line, p, q) && id == line[p..q] && q in Ends(ByNameRe(name), line, p);
    var o := ByNameSlice(name, line, p, q);
    if AllWordChars(name) {
      NameRunContains(name, id, o);
    }
  }

  lemma SpaceNotId(c: char)
    ensures IsSpace(c) ==> !IsIdChar(c)
  {
  }

  /** With a name of word characters, the name pattern can end only inside a
      run of `[\w.]`: the first whitespace after the start bounds every end. */
  lemma ByNameOnlyEnd(name: string, s: string, p: nat, q: nat)
    requires AllWordChars(name)
    requires p <= q < |s| && IsSpace(s[q])
    requires forall j :: p <= j < q ==> IsIdChar(s[j])
    ensures forall e :: e in Ends(ByNameRe(name), s, p) && e < |s| && IsSpace(s[e]) ==> e == q
  {
    forall e | e in Ends(ByNameRe(name), s, p) && e < |s| && IsSpace(s[e])
      ensures e == q
    {
      var o := ByNameSlice(name, s, p, e);
      NameRunContains(name, s[p..e], o);
      forall j | p <= j < e ensures IsIdChar(s[j]) {
        assert s[j] == s[p..e][j - p];
      }
      SpaceNotId(s[e]);
      SpaceNotId(s[q]);
      assert e >= q;
      assert q >= e;
    }
  }

  lemma ByNameOnlyText(name: string, s: string, p: nat, id: string)
    requires AllWordChars(name)
    requires forall j :: 0 <= j < |id| ==> IsIdChar(id[j])
    requires p + |id| < |s| && s[p..p + |id|] == id && IsSpace(s[p + |id|])
    ensures forall e :: e in Ends(ByNameRe(name), s, p) && e < |s| && IsSpace(s[e]) ==> e == p + |id|
  {
    forall j | p <= j < p + |id| ensures IsIdChar(s[j]) {
      assert s[j] == s[p..p + |id|][j - p];
    }
    ByNameOnlyEnd(name, s, p, p + |id|);
  }

  /** A line made of indentation, the lead, a variable of `[\w.]` holding
      the name, and a well-formed tail yields that variable. */
  lemma ByNameOnLine(name: string, line: string, w: nat, id: string, k: nat)
    requires AllWordChars(name) && Contains(id, name)
    requires forall j :: 0 <= j < |id| ==> IsIdChar(id[j])
    requires 1 <= w && w + 8 + |id| <= |line|
    requires forall j :: 0 <= j < w ==> IsSpace(line[j])
    requires line[w..w + 8] == LeadText
    requires line[w + 8..w + 8 + |id|] == id
    requires TailAfter(line, w + 8 + |id|, k)
    ensures GateId(ByNameRe(name), line) == Some(id)
  {
    var p := w + 8;
    var q := p + |id|;
    var re := ByNameRe(name);
    assert |Ends(Lead, line, 0)| > 0 && Ends(Lead, line, 0)[0] == p by { LeadFirst(line, w); }
    assert q in Ends(re, line, p) by { ByNameHitText(name, line, p, id); }
    assert q < |line| && IsSpace(line[q]);
    assert forall q' :: q' in Ends(re, line, p) && q' < |line| && IsSpace(line[q']) ==> q' == q by {
      ByNameOnlyText(name, line, p, id);
    }
    GateIdAt(re, line, p, q, k, id);
  }

  /** The other direction: a written gate line whose variable is a run of
      `[\w.]` characters containing the name is reported, with that variable. */
  lemma CiPipelineByNameComplete(indent: string, id: string, gap: string, nl: string, name: string)
    requires WellShaped(indent, gap, nl)
    requires AllWordChars(name) && Contains(id, name)
    requires forall j :: 0 <= j < |id| ==> IsIdChar(id[j])
    ensures GateId(ByNameRe(name), GateLineText(indent, id, gap, nl)) == Some(id)
  {
    GateLineTextParts(indent, id, gap, nl);
    ByNameOnLine(name, GateLineText(indent, id, gap, nl), |indent|, id, |indent| + 8 + |id| + |gap|);
  }

  /** ... and so `ci_pipeline_by_name` over that one line reports it. */
  lemma CiPipelineByNameReports(indent: string, id: string, gap: string, nl: string, name: string)
    requires WellShaped(indent, gap, nl)
    requires AllWordChars(name) && Contains(id, name)
    requires forall j :: 0 <= j < |id| ==> IsIdChar(id[j])
    ensures id in CiPipelineByName([GateLineText(indent, id, gap, nl)], name)
  {
    var line := GateLineText(indent, id, gap, nl);
    CiPipelineByNameComplete(indent, id, gap, nl, name);
    assert [line][0] == line;
  }

  lemma ByNameHitText(name: string, s: string, p: nat, id: string)
    requires AllWordChars(name) && Contains(id, name)
    requires forall j :: 0 <= j < |id| ==> IsIdChar(id[j])
    requires p + |id| <= |s| && s[p..p + |id|] == id
    ensures p + |id| in Ends(ByNameRe(name), s, p)
  {
    var c :| 0 <= c <= |id| - |name| && OccursAt(id, name, c);
    forall k | 0 <= k < |name| ensures s[p + c..p + c + |name|][k] == name[k] {
      assert s[p + c + k] == s[p..p + |id|][c + k] == id[c + k];
    }
    assert s[p + c..p + c + |name|] == name;
    WordNoDot(name);
    PatMatchesLiteral(name, s[p + c..p + c + |name|]);
    forall j | p <= j < p + |id| ensures IsIdChar(s[j]) {
      assert s[j] == id[j - p];
    }
    ByNameHit(name, s, p, p + c, p + |id|);
  }
}

=== FILE: gitlab.dfy ===
/** The context `generate_gitlab_pipelines` renders the CI configuration
    from: per release version and pipeline, the `yaml_safe` version, the
    distros of the release with their architectures and cudnn components.
    The fixed entries of the context (the platform matrix, the BuildKit
    version, the manifest path) and the rendering are not modelled. */
module Gitlab {
  import opened Wrappers
  import opened Strings
  import opened Manifest
  import opened ReleaseKeys
  import Context

  /** The architectures a CI pipeline is generated for. */
  const PipelineArches: seq<string> := ["arm64", "ppc64le", "x86_64"]
  const DistBasePathKey := "dist_base_path"
  const ImageNameKey := "image_name"
  const NoOsSuffixKey := "no_os_suffix"

  /** The context of one distro. `noOsSuffix` and `cudnn` are present only
      once the distro has an architecture. */
  datatype DistroCtx = DistroCtx(
    name: string,
    version: string,
    yamlSafe: string,
    imageTagSuffix: Value,
    arches: seq<string>,
    noOsSuffix: Option<bool>,
    cudnn: Option<seq<(string, seq<(string, Value)>)>>)

  /** The context of one pipeline of a release. `distros` is present once a
      distro key matched; `imageName` once some distro has an
      architecture. */
  datatype PipelineCtx = PipelineCtx(
    yamlSafe: string,
    distBasePath: Value,
    pipelineName: string,
    distros: Option<seq<(string, DistroCtx)>>,
    imageName: Option<Value>)

  /** Release version, then pipeline name, then the pipeline's context. */
  type Ctx = seq<(string, seq<(string, PipelineCtx)>)>

  /** The keys of a distro entry that are pipeline architectures, in
      manifest order. */
  function ArchesOf(keys: seq<string>): (arches: seq<string>)
    ensures IsSubsequence(arches, keys)
    ensures forall a :: a in arches <==> a in keys && a in PipelineArches
  {
    Filter(keys, (a: string) => a in PipelineArches)
  }

  /** `manifest[key][distro][arch]["components"].items()`: strict lookup. */
  function Components(manifest: Value, key: string, distro: string, arch: string): (r: Result<seq<(string, Value)>>)
    ensures r.Ok? <==> Descend(manifest, [key, distro, arch, Context.ComponentsKey]).Some? &&
                       Descend(manifest, [key, distro, arch, Context.ComponentsKey]).value.Map?
  {
    match Descend(manifest, [key, distro, arch, Context.ComponentsKey])
    case Some(Map(e)) => Ok(e)
    case Some(_) => Err("object has no attribute 'items'")
    case None => Err("KeyError")
  }

  /** Every architecture filed has some cudnn component. */
  predicate NonEmptyValues(m: seq<(string, seq<(string, Value)>)>) {
    forall i :: 0 <= i < |m| ==> |m[i].1| > 0
  }

  /** The cudnn components of one architecture of a distro. */
  function ArchCudnn(manifest: Value, key: string, distro: string, arch: string): (r: Result<seq<(string, Value)>>)
    ensures r.Ok? ==> Components(manifest, key, distro, arch).Ok? &&
                      r == Context.CudnnComponents(Components(manifest, key, distro, arch).value)
  {
    var comps :- Components(manifest, key, distro, arch);
    Context.CudnnComponents(comps)
  }

  /** The cudnn components of each architecture that has any, keyed by
      architecture in the order of `arches`. */
  function CudnnByArch(manifest: Value, key: string, distro: string, arches: seq<string>, acc: seq<(string, seq<(string, Value)>)>)
    : (r: Result<seq<(string, seq<(string, Value)>)>>)
    ensures r.Ok? ==> forall a :: a in Keys(r.value) ==> a in Keys(acc) || a in arches
    ensures r.Ok? && NonEmptyValues(acc) ==> NonEmptyValues(r.value)
    ensures r.Ok? && UniqueKeys(acc) ==> UniqueKeys(r.value)
    decreases |arches|
  {
    if |arches| == 0 then Ok(acc)
    else
      var cudnn :- ArchCudnn(manifest, key, distro, arches[0]);
      var acc' := if |cudnn| > 0 then Put(acc, arches[0], cudnn) else acc;
      CudnnStep(acc, arches[0], cudnn);
      CudnnByArch(manifest, key, distro, arches[1..], acc')
  }

  /** One pass of the cudnn loop adds at most its own architecture, with
      components that are not empty. */
  lemma CudnnStep(acc: seq<(string, seq<(string, Value)>)>, a: string, cudnn: seq<(string, Value)>)
    ensures var acc' := if |cudnn| > 0 then Put(acc, a, cudnn) else acc;
            && (forall b :: b in Keys(acc') ==> b in Keys(acc) || b == a)
            && (NonEmptyValues(acc) ==> NonEmptyValues(acc'))
            && (UniqueKeys(acc) ==> UniqueKeys(acc'))
  {
    if |cudnn| > 0 {
      var acc' := Put(acc, a, cudnn);
      if NonEmptyValues(acc) {
        forall i | 0 <= i < |acc'| ensures |acc'[i].1| > 0 {
          PutEntry(acc, a, cudnn, i);
        }
      }
    }
  }

  /** Each architecture of the loop is filed with its cudnn components when
      it has any, and left as it was otherwise. */
  lemma {:induction false} CudnnByArchFind(manifest: Value, key: string, distro: string, arches: seq<string>,
                                           acc: seq<(string, seq<(string, Value)>)>, a: string)
    requires CudnnByArch(manifest, key, distro, arches, acc).Ok?
    ensures a in arches ==> ArchCudnn(manifest, key, distro, a).Ok?
    ensures var r := CudnnByArch(manifest, key, distro, arches, acc).value;
            Find(r, a) == if a in arches && |ArchCudnn(manifest, key, distro, a).value| > 0
                          then Some(ArchCudnn(manifest, key, distro, a).value)
                          else Find(acc, a)
    decreases |arches|
  {
    if |arches| > 0 {
      var cudnn := ArchCudnn(manifest, key, distro, arches[0]).value;
      var acc' := if |cudnn| > 0 then Put(acc, arches[0], cudnn) else acc;
      assert CudnnByArch(manifest, key, distro, arches, acc) == CudnnByArch(manifest, key, distro, arches[1..], acc');
      CudnnByArchFind(manifest, key, distro, arches[1..], acc', a);
      assert a in arches <==> a == arches[0] || a in arches[1..];
    }
  }

  /** The context of the distro `distro` of `manifest[key]`, which reads as
      the distro `name` at version `version`. */
  function DistroEntry(manifest: Value, key: string, distro: string, name: string, version: string): (r: Result<DistroCtx>)
    ensures r.Ok? ==> r.value.name == name && r.value.version == version && r.value.yamlSafe == YamlSafe(distro)
    ensures r.Ok? ==> Descend(manifest, [key, distro]).Some? && Descend(manifest, [key, distro]).value.Map? &&
                      r.value.arches == ArchesOf(Keys(Descend(manifest, [key, distro]).value.entries))
    ensures r.Ok? ==> (|r.value.arches| > 0 <==> r.value.cudnn.Some?) && (r.value.cudnn.Some? <==> r.value.noOsSuffix.Some?)
    ensures r.Ok? ==> r.value.imageTagSuffix == Context.ImageTagSuffix(manifest, key, distro)
  {
    var d: Option<Value> := Descend(manifest, [key, distro]);
    match d
    case None => Err("KeyError")
    case Some(entry) =>
      var entries :- Items(entry);
      var arches := ArchesOf(Keys(entries));
      var cudnn :- CudnnByArch(manifest, key, distro, arches, []);
      var noOs := Truthy(GetData(manifest, [key, distro, NoOsSuffixKey], true).data);
      Ok(DistroCtx(name, version, YamlSafe(distro), Context.ImageTagSuffix(manifest, key, distro), arches,
                   if |arches| > 0 then Some(noOs) else None,
                   if |arches| > 0 then Some(cudnn) else None))
  }

  /** The cudnn table of a distro holds, for each of its architectures,
      the cudnn components of that architecture when it has any. */
  lemma DistroCudnn(manifest: Value, key: string, distro: string, name: string, version: string, a: string)
    requires DistroEntry(manifest, key, distro, name, version).Ok?
    requires a in DistroEntry(manifest, key, distro, name, version).value.arches
    ensures ArchCudnn(manifest, key, distro, a).Ok?
    ensures var c := ArchCudnn(manifest, key, distro, a).value;
            Find(DistroEntry(manifest, key, distro, name, version).value.cudnn.value, a) == if |c| > 0 then Some(c) else None
  {
    var d := DistroEntry(manifest, key, distro, name, version).value;
    CudnnByArchFind(manifest, key, distro, d.arches, [], a);
  }

  /** Every entry of `Put(m, k, d)` is the new one or an entry of `m`. */
  lemma {:induction false} PutEntry<V>(m: seq<(string, V)>, k: string, v: V, i: nat)
    requires i < |Put(m, k, v)|
    ensures Put(m, k, v)[i] == (k, v) || Put(m, k, v)[i] in m
    decreases |m|
  {
    if |m| > 0 && m[0].0 != k && i > 0 {
      PutEntry(m[1..], k, v, i - 1);
      assert Put(m, k, v)[i] == Put(m[1..], k, v)[i - 1];
    }
  }

  /** The context of the distro key `k` of `manifest[key]`; `None` for a
      key that does not read as a distro. */
  function DistroCtxOf(manifest: Value, key: string, k: string): (r: Result<Option<DistroCtx>>)
    ensures SplitDistroKey(k).None? ==> r == Ok(None)
    ensures r.Ok? && SplitDistroKey(k).Some? ==>
              && r.value.Some?
              && (r.value.value.name, r.value.value.version) == SplitDistroKey(k).value
              && r.value.value.yamlSafe == YamlSafe(k)
              && (forall a :: a in r.value.value.arches ==> a in PipelineArches)
              && (|r.value.value.arches| > 0 <==> r.value.value.cudnn.Some?)
  {
    match SplitDistroKey(k)
    case None => Ok(None)
    case Some(nv) =>
      var d :- DistroEntry(manifest, key, k, nv.0, nv.1);
      Ok(Some(d))
  }

  /** Every distro filed is the context of its key. */
  predicate DistrosFit(manifest: Value, key: string, ds: Option<seq<(string, DistroCtx)>>) {
    ds.Some? ==> forall i :: 0 <= i < |ds.value| ==> DistroCtxOf(manifest, key, ds.value[i].0) == Ok(Some(ds.value[i].1))
  }

  /** Filing a fitting distro context keeps every entry fitting. */
  lemma PutFits(manifest: Value, key: string, m: seq<(string, DistroCtx)>, k: string, d: DistroCtx)
    ensures DistrosFit(manifest, key, Some(m)) && DistroCtxOf(manifest, key, k) == Ok(Some(d)) ==>
              DistrosFit(manifest, key, Some(Put(m, k, d)))
  {
    if DistrosFit(manifest, key, Some(m)) && DistroCtxOf(manifest, key, k) == Ok(Some(d)) {
      var r := Put(m, k, d);
      forall i | 0 <= i < |r| ensures DistroCtxOf(manifest, key, r[i].0) == Ok(Some(r[i].1)) {
        PutEntry(m, k, d, i);
      }
    }
  }

  /** One pass of the loop over `manifest[key].items()`: a key that reads
      as a distro gets its context; the flag records whether some distro had
      an architecture. */
  function AddDistro(manifest: Value, key: string, distro: string, acc: Option<seq<(string, DistroCtx)>>, anyArch: bool)
    : (r: Result<(Option<seq<(string, DistroCtx)>>, bool)>)
    ensures r.Ok? && DistrosFit(manifest, key, acc) ==> DistrosFit(manifest, key, r.value.0)
    ensures r.Ok? && acc.Some? ==> r.value.0.Some?
    ensures r.Ok? && anyArch ==> r.value.1
  {
    var d :- DistroCtxOf(manifest, key, distro);
    if d.None? then Ok((acc, anyArch))
    else
      var m := if acc.Some? then acc.value else [];
      PutFits(manifest, key, m, distro, d.value);
      Ok((Some(Put(m, distro, d.value)), anyArch || |d.value.arches| > 0))
  }

  /** A pass files the distro's context and leaves every other distro as it
      was. */
  lemma AddDistroFind(manifest: Value, key: string, distro: string, acc: Option<seq<(string, DistroCtx)>>, anyArch: bool, k: string)
    requires AddDistro(manifest, key, distro, acc, anyArch).Ok?
    ensures var r := AddDistro(manifest, key, distro, acc, anyArch).value;
            DistroCtxOf(manifest, key, distro).Ok? &&
            var d := DistroCtxOf(manifest, key, distro).value;
            && (d.None? ==> r == (acc, anyArch))
            && (d.Some? ==> r.0.Some? && Find(r.0.value, k) == if k == distro then d else if acc.Some? then Find(acc.value, k) else None)
  {
  }

  /** The loop over `manifest[key].items()` (manager.py:1126-1190). */
  function DistroLoop(manifest: Value, key: string, items: seq<(string, Value)>,
                      acc: Option<seq<(string, DistroCtx)>>, anyArch: bool)
    : (r: Result<(Option<seq<(string, DistroCtx)>>, bool)>)
    ensures r.Ok? && DistrosFit(manifest, key, acc) ==> DistrosFit(manifest, key, r.value.0)
    ensures r.Ok? && acc.Some? ==> r.value.0.Some?
    ensures r.Ok? && anyArch ==> r.value.1
    decreases |items|
  {
    if |items| == 0 then Ok((acc, anyArch))
    else
      var next :- AddDistro(manifest, key, items[0].0, acc, anyArch);
      DistroLoop(manifest, key, items[1..], next.0, next.1)
  }

  lemma DistroLoopUnfold(manifest: Value, key: string, items: seq<(string, Value)>,
                         acc: Option<seq<(string, DistroCtx)>>, anyArch: bool)
    requires |items| > 0 && DistroLoop(manifest, key, items, acc, anyArch).Ok?
    ensures AddDistro(manifest, key, items[0].0, acc, anyArch).Ok?
    ensures var next := AddDistro(manifest, key, items[0].0, acc, anyArch).value;
            DistroLoop(manifest, key, items, acc, anyArch) == DistroLoop(manifest, key, items[1..], next.0, next.1)
  {
  }

  /** A distro filed with its context keeps it. */
  lemma {:induction false} DistroLoopKeeps(manifest: Value, key: string, items: seq<(string, Value)>,
                                           acc: Option<seq<(string, DistroCtx)>>, anyArch: bool, k: string)
    requires DistroLoop(manifest, key, items, acc, anyArch).Ok?
    requires acc.Some? && DistroCtxOf(manifest, key, k).Ok? && Find(acc.value, k) == DistroCtxOf(manifest, key, k).value
    ensures DistroLoop(manifest, key, items, acc, anyArch).value.0.Some? &&
            Find(DistroLoop(manifest, key, items, acc, anyArch).value.0.value, k) == Find(acc.value, k)
    decreases |items|
  {
    if |items| > 0 {
      DistroLoopUnfold(manifest, key, items, acc, anyArch);
      var next := AddDistro(manifest, key, items[0].0, acc, anyArch).value;
      AddDistroFind(manifest, key, items[0].0, acc, anyArch, k);
      DistroLoopKeeps(manifest, key, items[1..], next.0, next.1, k);
    }
  }

  /** Every key of `manifest[key]` that reads as a distro ends up with its
      context. */
  lemma {:induction false} DistroLoopCovers(manifest: Value, key: string, items: seq<(string, Value)>,
                                            acc: Option<seq<(string, DistroCtx)>>, anyArch: bool, k: string)
    requires DistroLoop(manifest, key, items, acc, anyArch).Ok?
    requires k in Keys(items) && SplitDistroKey(k).Some?
    ensures var r := DistroLoop(manifest, key, items, acc, anyArch).value.0;
            && DistroCtxOf(manifest, key, k).Ok?
            && r.Some? && Find(r.value, k) == DistroCtxOf(manifest, key, k).value
    decreases |items|
  {
    DistroLoopUnfold(manifest, key, items, acc, anyArch);
    var next := AddDistro(manifest, key, items[0].0, acc, anyArch).value;
    AddDistroFind(manifest, key, items[0].0, acc, anyArch, k);
    if items[0].0 == k {
      DistroLoopKeeps(manifest, key, items[1..], next.0, next.1, k);
    } else {
      assert Keys(items) == [items[0].0] + Keys(items[1..]);
      DistroLoopCovers(manifest, key, items[1..], next.0, next.1, k);
    }
  }

  /** Some key of `items` reads as a distro with an architecture. */
  predicate SomeArch(manifest: Value, key: string, items: seq<(string, Value)>)
    decreases |items|
  {
    && |items| > 0
    && (|| (DistroCtxOf(manifest, key, items[0].0).Ok? && DistroCtxOf(manifest, key, items[0].0).value.Some? &&
            |DistroCtxOf(manifest, key, items[0].0).value.value.arches| > 0)
        || SomeArch(manifest, key, items[1..]))
  }

  /** The loop's flag is set exactly when some distro has an architecture,
      which is when the pipeline gets an `image_name`. */
  lemma {:induction false} DistroLoopAnyArch(manifest: Value, key: string, items: seq<(string, Value)>,
                                             acc: Option<seq<(string, DistroCtx)>>, anyArch: bool)
    requires DistroLoop(manifest, key, items, acc, anyArch).Ok?
    ensures DistroLoop(manifest, key, items, acc, anyArch).value.1 <==> anyArch || SomeArch(manifest, key, items)
    decreases |items|
  {
    if |items| > 0 {
      DistroLoopUnfold(manifest, key, items, acc, anyArch);
      var next := AddDistro(manifest, key, items[0].0, acc, anyArch).value;
      DistroLoopAnyArch(manifest, key, items[1..], next.0, next.1);
    }
  }

  /** The pipeline context of version `v`, pipeline `p` (manager.py:1112-1190).
      The manifest entry is looked up under the rebuilt key, which raises
      when it is absent. */
  function PipelineCtxOf(manifest: Value, v: string, p: string, pipelineName: string): (r: Result<PipelineCtx>)
    ensures r.Ok? ==> r.value.yamlSafe == YamlSafe(v) && r.value.pipelineName == pipelineName
    ensures r.Ok? ==> manifest.Map? && Find(manifest.entries, PipelineKey(v, p)).Some? &&
                      Find(manifest.entries, PipelineKey(v, p)).value.Map?
    ensures r.Ok? ==> DistrosFit(manifest, PipelineKey(v, p), r.value.distros)
  {
    var key := PipelineKey(v, p);
    var base := GetData(manifest, [key, DistBasePathKey], false).data;
    var release :- if manifest.Map? && Find(manifest.entries, key).Some? then Ok(Find(manifest.entries, key).value) else Err("KeyError");
    var items :- Items(release);
    var distros :- DistroLoop(manifest, key, items, None, false);
    var image := if distros.1 then Some(GetData(manifest, [key, ImageNameKey], false).data) else None;
    Ok(PipelineCtx(YamlSafe(v), base, pipelineName, distros.0, image))
  }

  /** Every key of the release entry that reads as a distro has its context
      in the pipeline context. */
  lemma PipelineDistrosCover(manifest: Value, v: string, p: string, pipelineName: string, j: nat)
    requires PipelineCtxOf(manifest, v, p, pipelineName).Ok?
    requires var e := Find(manifest.entries, PipelineKey(v, p)).value.entries;
             j < |e| && SplitDistroKey(e[j].0).Some?
    ensures var key := PipelineKey(v, p);
            var d := Find(manifest.entries, key).value.entries[j].0;
            var ds := PipelineCtxOf(manifest, v, p, pipelineName).value.distros;
            && DistroCtxOf(manifest, key, d).Ok?
            && ds.Some? && Find(ds.value, d) == DistroCtxOf(manifest, key, d).value
  {
    var key := PipelineKey(v, p);
    DistroLoopCovers(manifest, key, Find(manifest.entries, key).value.entries, None, false, Find(manifest.entries, key).value.entries[j].0);
  }

  /** A pipeline gets an `image_name` exactly when one of its distros has
      an architecture. */
  lemma PipelineImageName(manifest: Value, v: string, p: string, pipelineName: string)
    requires PipelineCtxOf(manifest, v, p, pipelineName).Ok?
    ensures var key := PipelineKey(v, p);
            PipelineCtxOf(manifest, v, p, pipelineName).value.imageName.Some? <==>
              SomeArch(manifest, key, Find(manifest.entries, key).value.entries)
  {
    var key := PipelineKey(v, p);
    DistroLoopAnyArch(manifest, key, Find(manifest.entries, key).value.entries, None, false);
  }

  /** The pipeline contexts of each version fit that version. */
  predicate InnerFits(v: string, m: seq<(string, PipelineCtx)>) {
    ValidVersion(v) && forall j :: 0 <= j < |m| ==> m[j].1.yamlSafe == YamlSafe(v)
  }

  predicate CtxFits(ctx: Ctx) {
    forall i :: 0 <= i < |ctx| ==> InnerFits(ctx[i].0, ctx[i].1)
  }

  /** The context holds pipeline `p` of version `v`. */
  predicate Has(ctx: Ctx, v: string, p: string) {
    Find(ctx, v).Some? && Find(Find(ctx, v).value, p).Some?
  }

  /** `ctx[v][p]`, when both levels are there. */
  function Filed(ctx: Ctx, v: string, p: string): (r: Option<PipelineCtx>)
    ensures r.Some? <==> Has(ctx, v, p)
  {
    var inner: Option<seq<(string, PipelineCtx)>> := Find(ctx, v);
    if inner.Some? then Find(inner.value, p) else None
  }

  /** The pipelines of version `v` with `pc` filed as pipeline `p`. */
  function Inner(ctx: Ctx, v: string, p: string, pc: PipelineCtx): seq<(string, PipelineCtx)> {
    var prev: Option<seq<(string, PipelineCtx)>> := Find(ctx, v);
    Put(if prev.Some? then prev.value else [], p, pc)
  }

  lemma InnerFitsPut(v: string, m: seq<(string, PipelineCtx)>, p: string, pc: PipelineCtx)
    requires InnerFits(v, m) && pc.yamlSafe == YamlSafe(v)
    ensures InnerFits(v, Put(m, p, pc))
  {
    var r := Put(m, p, pc);
    forall j | 0 <= j < |r| ensures r[j].1.yamlSafe == YamlSafe(v) {
      PutEntry(m, p, pc, j);
    }
  }

  lemma CtxFitsPut(ctx: Ctx, v: string, inner: seq<(string, PipelineCtx)>)
    requires CtxFits(ctx) && InnerFits(v, inner)
    ensures CtxFits(Put(ctx, v, inner))
  {
    var r := Put(ctx, v, inner);
    forall i | 0 <= i < |r| ensures InnerFits(r[i].0, r[i].1) {
      PutEntry(ctx, v, inner, i);
    }
  }

  /** Filing the context of pipeline `p` of version `v`
      (`ctx[v][p] = pc`): every other pipeline, of this version or another,
      keeps its context, and no other pipeline appears. */
  function File(ctx: Ctx, v: string, p: string, pc: PipelineCtx): (r: Ctx)
    requires CtxFits(ctx) && ValidVersion(v) && pc.yamlSafe == YamlSafe(v)
    ensures CtxFits(r)
    ensures Find(r, v).Some? && Find(Find(r, v).value, p) == Some(pc)
    ensures forall w, q {:trigger Filed(r, w, q)} :: (w != v || q != p) ==> Filed(r, w, q) == Filed(ctx, w, q)
  {
    FileFits(ctx, v, p, pc);
    FileKeeps(ctx, v, p, pc);
    Put(ctx, v, Inner(ctx, v, p, pc))
  }

  lemma FileKeeps(ctx: Ctx, v: string, p: string, pc: PipelineCtx)
    ensures forall w, q {:trigger Filed(Put(ctx, v, Inner(ctx, v, p, pc)), w, q)} ::
              (w != v || q != p) ==> Filed(Put(ctx, v, Inner(ctx, v, p, pc)), w, q) == Filed(ctx, w, q)
  {
    forall w, q | w != v || q != p ensures Filed(Put(ctx, v, Inner(ctx, v, p, pc)), w, q) == Filed(ctx, w, q) {
      FileKeepsOne(ctx, v, p, pc, w, q);
    }
  }

  lemma FileKeepsOne(ctx: Ctx, v: string, p: string, pc: PipelineCtx, w: string, q: string)
    requires w != v || q != p
    ensures Filed(Put(ctx, v, Inner(ctx, v, p, pc)), w, q) == Filed(ctx, w, q)
  {
    var r := Put(ctx, v, Inner(ctx, v, p, pc));
    if w == v {
      assert Find(r, v) == Some(Inner(ctx, v, p, pc));
      var prev: Option<seq<(string, PipelineCtx)>> := Find(ctx, v);
      assert Find(Inner(ctx, v, p, pc), q) == Find(if prev.Some? then prev.value else [], q);
    } else {
      assert Find(r, w) == Find(ctx, w);
    }
  }

  lemma FileFits(ctx: Ctx, v: string, p: string, pc: PipelineCtx)
    requires CtxFits(ctx) && ValidVersion(v) && pc.yamlSafe == YamlSafe(v)
    ensures CtxFits(Put(ctx, v, Inner(ctx, v, p, pc)))
  {
    var prev: Option<seq<(string, PipelineCtx)>> := Find(ctx, v);
    if prev.Some? {
      var n :| 0 <= n < |ctx| && ctx[n] == (v, prev.value);
      assert InnerFits(ctx[n].0, ctx[n].1);
    }
    InnerFitsPut(v, if prev.Some? then prev.value else [], p, pc);
    CtxFitsPut(ctx, v, Inner(ctx, v, p, pc));
  }

  /** One pass of the loop over the manifest's keys (manager.py:1099-1190):
      a release key files the context of its version and pipeline. */
  function Step(manifest: Value, k: string, pipelineName: string, ctx: Ctx): (r: Result<Ctx>)
    requires CtxFits(ctx)
    ensures r.Ok? ==> CtxFits(r.value)
    ensures r.Ok? && ParseReleaseKey(k).Some? ==>
              forall w, q {:trigger Filed(r.value, w, q)} ::
                (w != ParseReleaseKey(k).value.version || q != PipelineOf(ParseReleaseKey(k).value)) ==>
                  Filed(r.value, w, q) == Filed(ctx, w, q)
    ensures ParseReleaseKey(k).None? ==> r == Ok(ctx)
    ensures r.Ok? && ParseReleaseKey(k).Some? ==>
              var rk := ParseReleaseKey(k).value;
              && PipelineCtxOf(manifest, rk.version, PipelineOf(rk), pipelineName).Ok?
              && Find(r.value, rk.version).Some?
              && Find(Find(r.value, rk.version).value, PipelineOf(rk)) == Some(PipelineCtxOf(manifest, rk.version, PipelineOf(rk), pipelineName).value)
    ensures ParseReleaseKey(k).Some? ==>
              (PipelineCtxOf(manifest, ParseReleaseKey(k).value.version, PipelineOf(ParseReleaseKey(k).value), pipelineName).Err? ==> r.Err?)
  {
    match ParseReleaseKey(k)
    case None => Ok(ctx)
    case Some(rk) =>
      var pc :- PipelineCtxOf(manifest, rk.version, PipelineOf(rk), pipelineName);
      Ok(File(ctx, rk.version, PipelineOf(rk), pc))
  }

  /** The loop over the manifest's keys. */
  function GitlabLoop(manifest: Value, items: seq<(string, Value)>, pipelineName: string, ctx: Ctx): (r: Result<Ctx>)
    requires CtxFits(ctx)
    ensures r.Ok? ==> CtxFits(r.value)
    decreases |items|
  {
    if |items| == 0 then Ok(ctx)
    else
      var next :- Step(manifest, items[0].0, pipelineName, ctx);
      GitlabLoop(manifest, items[1..], pipelineName, next)
  }

  /** `generate_gitlab_pipelines` (manager.py:1082-1190): the pipeline
      contexts of every release key of the manifest. */
  function GitlabPipelines(manifest: Value, pipelineName: string): (r: Result<Ctx>)
    ensures r.Ok? ==> manifest.Map? && CtxFits(r.value)
  {
    var items :- Items(manifest);
    GitlabLoop(manifest, items, pipelineName, [])
  }

  /** The manifest key `k` is a release key of version `v` and pipeline `p`. */
  predicate FilesAt(k: string, v: string, p: string) {
    ParseReleaseKey(k).Some? && ParseReleaseKey(k).value.version == v && PipelineOf(ParseReleaseKey(k).value) == p
  }

  /** A pipeline that already holds the context of its version and name
      keeps it: a later key filed at the same place files the same context,
      as that context depends only on the version and the name. */
  lemma {:induction false} GitlabLoopKeepsValue(manifest: Value, items: seq<(string, Value)>, pipelineName: string,
                                                ctx: Ctx, v: string, p: string)
    requires CtxFits(ctx) && GitlabLoop(manifest, items, pipelineName, ctx).Ok?
    requires PipelineCtxOf(manifest, v, p, pipelineName).Ok?
    requires Filed(ctx, v, p) == Some(PipelineCtxOf(manifest, v, p, pipelineName).value)
    ensures Filed(GitlabLoop(manifest, items, pipelineName, ctx).value, v, p) == Some(PipelineCtxOf(manifest, v, p, pipelineName).value)
    decreases |items|
  {
    if |items| > 0 {
      var next := Step(manifest, items[0].0, pipelineName, ctx).value;
      assert GitlabLoop(manifest, items, pipelineName, ctx) == GitlabLoop(manifest, items[1..], pipelineName, next);
      assert Filed(next, v, p) == Filed(ctx, v, p);
      GitlabLoopKeepsValue(manifest, items[1..], pipelineName, next, v, p);
    }
  }

  /** Every release key of the manifest yields the pipeline context of its
      version and pipeline name. */
  lemma {:induction false} GitlabLoopCovers(manifest: Value, items: seq<(string, Value)>, pipelineName: string, ctx: Ctx, j: nat)
    requires CtxFits(ctx) && GitlabLoop(manifest, items, pipelineName, ctx).Ok?
    requires j < |items| && ParseReleaseKey(items[j].0).Some?
    ensures var rk := ParseReleaseKey(items[j].0).value;
            var pc := PipelineCtxOf(manifest, rk.version, PipelineOf(rk), pipelineName);
            pc.Ok? && Filed(GitlabLoop(manifest, items, pipelineName, ctx).value, rk.version, PipelineOf(rk)) == Some(pc.value)
    decreases |items|, 1
  {
    if j == 0 {
      GitlabLoopCoversFirst(manifest, items, pipelineName, ctx);
    } else {
      GitlabLoopCoversLater(manifest, items, pipelineName, ctx, j);
    }
  }

  /** The first key, when it is a release key, is filed by the first pass
      and kept by the rest of the loop. */
  lemma GitlabLoopCoversFirst(manifest: Value, items: seq<(string, Value)>, pipelineName: string, ctx: Ctx)
    requires CtxFits(ctx) && GitlabLoop(manifest, items, pipelineName, ctx).Ok?
    requires 0 < |items| && ParseReleaseKey(items[0].0).Some?
    ensures var rk := ParseReleaseKey(items[0].0).value;
            var pc := PipelineCtxOf(manifest, rk.version, PipelineOf(rk), pipelineName);
            pc.Ok? && Filed(GitlabLoop(manifest, items, pipelineName, ctx).value, rk.version, PipelineOf(rk)) == Some(pc.value)
  {
    var next := Step(manifest, items[0].0, pipelineName, ctx).value;
    assert GitlabLoop(manifest, items, pipelineName, ctx) == GitlabLoop(manifest, items[1..], pipelineName, next);
    var rk := ParseReleaseKey(items[0].0).value;
    GitlabLoopKeepsValue(manifest, items[1..], pipelineName, next, rk.version, PipelineOf(rk));
  }

  /** The inductive step of `GitlabLoopCovers`: a later release key is
      filed by the rest of the loop. */
  lemma {:induction false} GitlabLoopCoversLater(manifest: Value, items: seq<(string, Value)>, pipelineName: string, ctx: Ctx, j: nat)
    requires CtxFits(ctx) && GitlabLoop(manifest, items, pipelineName, ctx).Ok?
    requires 0 < j < |items| && ParseReleaseKey(items[j].0).Some?
    ensures var rk := ParseReleaseKey(items[j].0).value;
            var pc := PipelineCtxOf(manifest, rk.version, PipelineOf(rk), pipelineName);
            pc.Ok? && Filed(GitlabLoop(manifest, items, pipelineName, ctx).value, rk.version, PipelineOf(rk)) == Some(pc.value)
    decreases |items|, 0
  {
    var next := Step(manifest, items[0].0, pipelineName, ctx).value;
    assert GitlabLoop(manifest, items, pipelineName, ctx) == GitlabLoop(manifest, items[1..], pipelineName, next);
    assert items[1..][j - 1] == items[j];
    GitlabLoopCovers(manifest, items[1..], pipelineName, next, j - 1);
  }

  /** Every pipeline the loop leaves was there before or comes from a
      release key of the items. */
  lemma {:induction false} GitlabLoopFrom(manifest: Value, items: seq<(string, Value)>, pipelineName: string, ctx: Ctx,
                                          v: string, p: string)
    requires CtxFits(ctx) && GitlabLoop(manifest, items, pipelineName, ctx).Ok?
    requires Has(GitlabLoop(manifest, items, pipelineName, ctx).value, v, p)
    ensures Has(ctx, v, p) || exists j :: 0 <= j < |items| && FilesAt(items[j].0, v, p)
    decreases |items|
  {
    if |items| > 0 {
      var next := Step(manifest, items[0].0, pipelineName, ctx).value;
      assert GitlabLoop(manifest, items, pipelineName, ctx) == GitlabLoop(manifest, items[1..], pipelineName, next);
      GitlabLoopFrom(manifest, items[1..], pipelineName, next, v, p);
      if exists j :: 0 <= j < |items[1..]| && FilesAt(items[1..][j].0, v, p) {
        var j :| 0 <= j < |items[1..]| && FilesAt(items[1..][j].0, v, p);
        assert items[j + 1] == items[1..][j];
      } else if !FilesAt(items[0].0, v, p) {
        assert Filed(next, v, p) == Filed(ctx, v, p);
      }
    }
  }

  /** Every release key of the manifest yields the pipeline context of its
      version and pipeline name (manager.py:1111-1120); a later key of the
      same version and name files the same context. */
  lemma GitlabPipelinesCover(manifest: Value, pipelineName: string, j: nat)
    requires GitlabPipelines(manifest, pipelineName).Ok?
    requires manifest.Map? && j < |manifest.entries| && ParseReleaseKey(manifest.entries[j].0).Some?
    ensures var rk := ParseReleaseKey(manifest.entries[j].0).value;
            var pc := PipelineCtxOf(manifest, rk.version, PipelineOf(rk), pipelineName);
            pc.Ok? && Filed(GitlabPipelines(manifest, pipelineName).value, rk.version, PipelineOf(rk)) == Some(pc.value)
  {
    GitlabLoopCovers(manifest, manifest.entries, pipelineName, [], j);
  }

  /** The context holds nothing but the pipelines of the manifest's release
      keys. */
  lemma GitlabPipelinesFrom(manifest: Value, pipelineName: string, v: string, p: string)
    requires GitlabPipelines(manifest, pipelineName).Ok?
    requires Has(GitlabPipelines(manifest, pipelineName).value, v, p)
    ensures manifest.Map? && exists j :: 0 <= j < |manifest.entries| && FilesAt(manifest.entries[j].0, v, p)
  {
    GitlabLoopFrom(manifest, manifest.entries, pipelineName, [], v, p);
  }

  /** A release key that spells out `_default` is looked up without the
      suffix, so a manifest holding it but not the plain key fails. */
  lemma DefaultSuffixFails(v: string, entry: Value, pipelineName: string)
    requires ValidVersion(v)
    ensures GitlabPipelines(Map([(KeyText(ReleaseKey(v, Some(DefaultPipeline))), entry)]), pipelineName).Err?
  {
    var k := KeyText(ReleaseKey(v, Some(DefaultPipeline)));
    var manifest := Map([(k, entry)]);
    PipelineKeyDropsDefault(v);
    assert Find(manifest.entries, PipelineKey(v, DefaultPipeline)).None?;
    assert Step(manifest, k, pipelineName, []).Err?;
  }
}

=== FILE: manifest.dfy ===
/** The manifest as loaded from YAML: an immutable tree whose mappings keep
    their keys in document order, with Python `dict` lookup and assignment
    and the `get_data` path lookup of `Manager`. */
module Manifest {
  import opened Wrappers
  import opened Strings

  datatype Value =
    | Null
    | Bool(b: bool)
    | Num(n: int)
    | Str(s: string)
    | List(items: seq<Value>)
    | Map(entries: seq<(string, Value)>)

  const Empty: Value := Map([])

  /** The entry that lists the registries an image must not be pushed to. */
  const ExcludeReposKey := "exclude_repos"

  /** The entry that holds the release label of a release. */
  const ReleaseLabelKey := "release_label"

  /** Python truthiness: `None`, `False`, `0`, `""`, `[]` and `{}` are false. */
  predicate Truthy(v: Value) {
    match v
    case Null => false
    case Bool(b) => b
    case Num(n) => n != 0
    case Str(s) => s != ""
    case List(xs) => |xs| > 0
    case Map(e) => |e| > 0
  }

  /** The keys of an ordered mapping, in order. */
  function Keys<V>(m: seq<(string, V)>): (ks: seq<string>)
    ensures |ks| == |m|
    ensures forall i :: 0 <= i < |m| ==> ks[i] == m[i].0
  {
    if |m| == 0 then [] else [m[0].0] + Keys(m[1..])
  }

  predicate UniqueKeys<V>(m: seq<(string, V)>) {
    forall i, j :: 0 <= i < j < |m| ==> m[i].0 != m[j].0
  }

  /** `m[k]` / `m.get(k)`: the value stored under `k`, if any. */
  function Find<V>(m: seq<(string, V)>, k: string): (r: Option<V>)
    ensures r.None? <==> k !in Keys(m)
    ensures r.Some? ==> exists i :: 0 <= i < |m| && m[i] == (k, r.value)
    ensures UniqueKeys(m) ==> forall i :: 0 <= i < |m| && m[i].0 == k ==> r == Some(m[i].1)
  {
    if |m| == 0 then None
    else if m[0].0 == k then Some(m[0].1)
    else
      var r := Find(m[1..], k);
      assert forall i :: 1 <= i < |m| ==> m[i] == m[1..][i - 1];
      r
  }

  /** A three-entry mapping with distinct keys holds exactly those keys. */
  lemma FindThree<V>(m: seq<(string, V)>)
    requires |m| == 3 && m[0].0 != m[1].0 && m[0].0 != m[2].0 && m[1].0 != m[2].0
    ensures UniqueKeys(m)
    ensures Find(m, m[0].0) == Some(m[0].1) && Find(m, m[1].0) == Some(m[1].1) && Find(m, m[2].0) == Some(m[2].1)
    ensures forall k {:trigger Find(m, k)} :: k != m[0].0 && k != m[1].0 && k != m[2].0 ==> Find(m, k) == None
  {
    assert UniqueKeys(m);
    var ks := Keys(m);
    assert ks == [m[0].0, m[1].0, m[2].0];
    forall k | k != m[0].0 && k != m[1].0 && k != m[2].0 ensures Find(m, k) == None {
      assert k !in ks;
    }
  }

  /** The entry at `i` is found under its key when no earlier entry has that key. */
  lemma {:induction false} FindAt<V>(m: seq<(string, V)>, i: nat)
    requires i < |m| && forall j :: 0 <= j < i ==> m[j].0 != m[i].0
    ensures Find(m, m[i].0) == Some(m[i].1)
  {
    if i > 0 {
      assert m[1..][i - 1] == m[i];
      FindAt(m[1..], i - 1);
    }
  }

  /** A mapping with unique keys is its first entry followed by a mapping
      with unique keys that does not hold the first key. */
  lemma UniqueKeysTail<V>(m: seq<(string, V)>)
    requires |m| > 0 && UniqueKeys(m)
    ensures UniqueKeys(m[1..]) && m[0].0 !in Keys(m[1..])
    ensures Keys(m) == [m[0].0] + Keys(m[1..])
    ensures Find(m, m[0].0) == Some(m[0].1)
    ensures forall j :: j != m[0].0 ==> Find(m, j) == Find(m[1..], j)
  {
    var rest := m[1..];
    assert forall i :: 0 <= i < |rest| ==> rest[i] == m[i + 1];
  }

  /** `m[k] = v` on a Python dict: an existing key keeps its place and takes
      the new value; a new key goes last. */
  function Put<V>(m: seq<(string, V)>, k: string, v: V): (r: seq<(string, V)>)
    ensures forall j {:trigger Find(r, j)} :: Find(r, j) == if j == k then Some(v) else Find(m, j)
    ensures k in Keys(m) ==> Keys(r) == Keys(m)
    ensures k !in Keys(m) ==> Keys(r) == Keys(m) + [k]
    ensures UniqueKeys(m) ==> UniqueKeys(r)
  {
    if |m| == 0 then [(k, v)]
    else if m[0].0 == k then
      PutHead(m, k, v);
      [(k, v)] + m[1..]
    else
      var t := Put(m[1..], k, v);
      PutBehindFind(m, k, v, t);
      PutBehindKeys(m, k, t);
      if UniqueKeys(m) then PutBehindUnique(m, k, t); [m[0]] + t else [m[0]] + t
  }

  /** Overwriting the first key keeps the order of the keys. */
  lemma PutHead<V>(m: seq<(string, V)>, k: string, v: V)
    requires |m| > 0 && m[0].0 == k
    ensures var r := [(k, v)] + m[1..];
            && (forall j {:trigger Find(r, j)} :: Find(r, j) == if j == k then Some(v) else Find(m, j))
            && Keys(r) == Keys(m)
            && (UniqueKeys(m) ==> UniqueKeys(r))
  {
    var r := [(k, v)] + m[1..];
    assert r[0] == (k, v) && r[1..] == m[1..];
    assert Keys(r) == [k] + Keys(m[1..]) && Keys(m) == [k] + Keys(m[1..]);
    if UniqueKeys(m) {
      UniqueKeysTail(m);
      UniqueKeysCons((k, v), m[1..]);
    }
  }

  /** Storing a key other than the first one behind the first entry:
      what is found. */
  lemma PutBehindFind<V>(m: seq<(string, V)>, k: string, v: V, t: seq<(string, V)>)
    requires |m| > 0 && m[0].0 != k
    requires forall j {:trigger Find(t, j)} :: Find(t, j) == if j == k then Some(v) else Find(m[1..], j)
    ensures forall j {:trigger Find([m[0]] + t, j)} :: Find([m[0]] + t, j) == if j == k then Some(v) else Find(m, j)
  {
    var r := [m[0]] + t;
    assert r[0] == m[0] && r[1..] == t;
  }

  /** ... the keys, in order. */
  lemma PutBehindKeys<V>(m: seq<(string, V)>, k: string, t: seq<(string, V)>)
    requires |m| > 0 && m[0].0 != k
    requires k in Keys(m[1..]) ==> Keys(t) == Keys(m[1..])
    requires k !in Keys(m[1..]) ==> Keys(t) == Keys(m[1..]) + [k]
    ensures k in Keys(m) ==> Keys([m[0]] + t) == Keys(m)
    ensures k !in Keys(m) ==> Keys([m[0]] + t) == Keys(m) + [k]
  {
    var r := [m[0]] + t;
    assert r[0] == m[0] && r[1..] == t;
    assert Keys(r) == [m[0].0] + Keys(t);
    assert Keys(m) == [m[0].0] + Keys(m[1..]);
  }

  /** ... and the keys stay unique. */
  lemma PutBehindUnique<V>(m: seq<(string, V)>, k: string, t: seq<(string, V)>)
    requires |m| > 0 && m[0].0 != k && UniqueKeys(m)
    requires k in Keys(m[1..]) ==> Keys(t) == Keys(m[1..])
    requires k !in Keys(m[1..]) ==> Keys(t) == Keys(m[1..]) + [k]
    requires UniqueKeys(m[1..]) ==> UniqueKeys(t)
    ensures UniqueKeys([m[0]] + t)
  {
    UniqueKeysTail(m);
    assert Keys(m) == [m[0].0] + Keys(m[1..]);
    assert m[0].0 !in Keys(t);
    UniqueKeysCons(m[0], t);
  }

  /** A mapping has unique keys when its tail does and its head's key is
      not in the tail. */
  lemma UniqueKeysCons<V>(x: (string, V), t: seq<(string, V)>)
    requires UniqueKeys(t) && x.0 !in Keys(t)
    ensures UniqueKeys([x] + t)
  {
    var m := [x] + t;
    forall i, j | 0 <= i < j < |m| ensures m[i].0 != m[j].0 {
      assert m[j] == t[j - 1];
      if i > 0 {
        assert m[i] == t[i - 1];
      } else {
        assert m[j].0 == Keys(t)[j - 1];
      }
    }
  }

  /** `.items()`: only a mapping has them. */
  function Items(v: Value): (r: Result<seq<(string, Value)>>)
    ensures r.Ok? <==> v.Map?
    ensures v.Map? ==> r.value == v.entries
  {
    if v.Map? then Ok(v.entries) else Err("object has no attribute 'items'")
  }

  /** Python's `item in container` for a string item: key of a mapping,
      element of a list, substring of a string; anything else raises. */
  function In(item: string, container: Value): (r: Result<bool>)
    ensures r.Ok? <==> container.Map? || container.List? || container.Str?
    ensures container.Map? ==> r == Ok(item in Keys(container.entries))
    ensures container.List? ==> r == Ok(Str(item) in container.items)
    ensures container.Str? ==> r == Ok(Contains(container.s, item))
  {
    match container
    case Map(e) => Ok(item in Keys(e))
    case List(xs) => Ok(Str(item) in xs)
    case Str(t) => Ok(Contains(t, item))
    case _ => Err("argument is not iterable")
  }

  /** Result of `get_data`: the value found, and whether an error was logged. */
  datatype Lookup = Lookup(data: Value, logged: bool)

  /** `Manager.get_data(obj, *path, can_skip)`: descend by literal key through
      nested mappings. A missing step yields an empty mapping in both modes;
      `can_skip` decides only whether the miss is logged as an error. */
  function GetData(obj: Value, path: seq<string>, canSkip: bool): (r: Lookup)
    ensures r.logged ==> r.data == Empty && !canSkip
    decreases |path|
  {
    if |path| == 0 then Lookup(obj, false)
    else
      match obj
      case Map(e) =>
        (match Find(e, path[0])
         case Some(child) => GetData(child, path[1..], canSkip)
         case None => Lookup(Empty, !canSkip))
      case _ => Lookup(Empty, !canSkip)
  }

  /** `vs` is the chain of nodes visited when every segment of `path` exists:
      `vs[0]` is the root and `vs[i + 1]` is stored under `path[i]` in `vs[i]`. */
  predicate IsChain(obj: Value, path: seq<string>, vs: seq<Value>) {
    && |vs| == |path| + 1
    && vs[0] == obj
    && forall i :: 0 <= i < |path| ==>
         vs[i].Map? && Find(vs[i].entries, path[i]) == Some(vs[i + 1])
  }

  ghost predicate PathExists(obj: Value, path: seq<string>) {
    exists vs :: IsChain(obj, path, vs)
  }

  lemma {:induction false} ChainTail(obj: Value, path: seq<string>, vs: seq<Value>)
    requires |path| > 0 && IsChain(obj, path, vs)
    ensures IsChain(vs[1], path[1..], vs[1..])
  {
    forall i | 0 <= i < |path[1..]|
      ensures vs[1..][i].Map? && Find(vs[1..][i].entries, path[1..][i]) == Some(vs[1..][i + 1])
    {
      assert vs[1..][i] == vs[i + 1] && path[1..][i] == path[i + 1];
    }
  }

  /** Strict descent by literal keys through nested mappings, as
      `manifest[a][b]` or `glom.glom(manifest, glom.Path(a, b))` do it:
      `None` where a step is missing (the source raises there). */
  function Descend(obj: Value, path: seq<string>): (r: Option<Value>)
    decreases |path|
  {
    if |path| == 0 then Some(obj)
    else
      match obj
      case Map(e) =>
        (match Find(e, path[0])
         case Some(child) => Descend(child, path[1..])
         case None => None)
      case _ => None
  }

  /** `get_data` is the tolerant form of strict descent: it yields what
      strict descent finds, and an empty mapping where strict descent fails,
      logging the miss only when `can_skip` is false. */
  lemma {:induction false} DescendGetData(obj: Value, path: seq<string>, canSkip: bool)
    ensures Descend(obj, path).Some? ==> GetData(obj, path, canSkip) == Lookup(Descend(obj, path).value, false)
    ensures Descend(obj, path).None? ==> GetData(obj, path, canSkip) == Lookup(Empty, !canSkip)
    decreases |path|
  {
    if |path| > 0 && obj.Map? && Find(obj.entries, path[0]).Some? {
      DescendGetData(Find(obj.entries, path[0]).value, path[1..], canSkip);
    }
  }

  /** A strict descent that succeeds walks a chain of mappings. */
  lemma {:induction false} DescendChain(obj: Value, path: seq<string>)
    requires Descend(obj, path).Some?
    ensures PathExists(obj, path)
    decreases |path|
  {
    if |path| == 0 {
      assert IsChain(obj, path, [obj]);
    } else {
      var child := Find(obj.entries, path[0]).value;
      DescendChain(child, path[1..]);
      var ws :| IsChain(child, path[1..], ws);
      ChainCons(obj, path, child, ws);
    }
  }

  /** A step into a child followed by a chain from the child is a chain. */
  lemma ChainCons(obj: Value, path: seq<string>, child: Value, ws: seq<Value>)
    requires |path| > 0 && obj.Map? && Find(obj.entries, path[0]) == Some(child)
    requires IsChain(child, path[1..], ws)
    ensures IsChain(obj, path, [obj] + ws)
  {
    var vs := [obj] + ws;
    forall i | 0 <= i < |path|
      ensures vs[i].Map? && Find(vs[i].entries, path[i]) == Some(vs[i + 1])
    {
      if i > 0 { assert vs[i] == ws[i - 1] && path[i] == path[1..][i - 1]; }
    }
  }

  /** When some segment is missing, `get_data` returns an empty mapping in
      both modes and logs an error exactly when `can_skip` is false. */
  lemma GetDataMissing(obj: Value, path: seq<string>, canSkip: bool)
    requires !PathExists(obj, path)
    ensures GetData(obj, path, canSkip) == Lookup(Empty, !canSkip)
  {
    if Descend(obj, path).Some? {
      DescendChain(obj, path);
    }
    DescendGetData(obj, path, canSkip);
  }

  /** Looking up `p + q` is looking up `p`, then `q` under the node found —
      as long as every segment of `p` exists. */
  lemma {:induction false} GetDataAppend(obj: Value, p: seq<string>, q: seq<string>, canSkip: bool)
    requires Descend(obj, p).Some?
    ensures GetData(obj, p + q, canSkip) == GetData(GetData(obj, p, canSkip).data, q, canSkip)
    decreases |p|
  {
    if |p| > 0 {
      var child := Find(obj.entries, p[0]).value;
      assert (p + q)[0] == p[0] && (p + q)[1..] == p[1..] + q;
      GetDataAppend(child, p[1..], q, canSkip);
    } else {
      assert p + q == q;
    }
  }

  /** Strict descent along a chain ends at the chain's last node. */
  lemma {:induction false} ChainDescend(obj: Value, path: seq<string>, vs: seq<Value>)
    requires IsChain(obj, path, vs)
    ensures Descend(obj, path) == Some(vs[|path|])
    decreases |path|
  {
    if |path| > 0 {
      assert Descend(obj, path) == Descend(vs[1], path[1..]) by {
        assert Find(obj.entries, path[0]) == Some(vs[1]);
      }
      ChainTail(obj, path, vs);
      ChainDescend(vs[1], path[1..], vs[1..]);
      assert vs[1..][|path| - 1] == vs[|path|];
    }
  }

  /** When every segment exists, `get_data` returns the node at the end of the
      chain and logs nothing, whatever `can_skip` says. */
  lemma GetDataFound(obj: Value, path: seq<string>, vs: seq<Value>, canSkip: bool)
    requires IsChain(obj, path, vs)
    ensures GetData(obj, path, canSkip) == Lookup(vs[|path|], false)
  {
    ChainDescend(obj, path, vs);
    DescendGetData(obj, path, canSkip);
  }
}

=== FILE: naming.dfy ===
/** How `output_template` names the file it renders a template into. */
module Naming {
  import opened Strings

  const DockerfileWord := "dockerfile"
  const DockerfileName := "Dockerfile"
  const JinjaExt := ".jinja"
  const J2Ext := ".j2"
  const BasePrefix := "base-"

  /** The output name before any architecture suffix: a Dockerfile template
      renders to `Dockerfile`; a `.jinja` template (anywhere in its path)
      loses that extension; a `base-*.j2` template loses both its prefix and
      its extension; any other name is kept. */
  function BaseFilename(name: string, path: string): (r: string)
    ensures Contains(Lower(name), DockerfileWord) ==> r == DockerfileName
    ensures !Contains(Lower(name), DockerfileWord) && Contains(path, JinjaExt) ==>
              (if EndsWith(name, JinjaExt) then r + JinjaExt == name else r == name)
    ensures !Contains(Lower(name), DockerfileWord) && !Contains(path, JinjaExt) ==>
              (if StartsWith(name, BasePrefix) && EndsWith(name, J2Ext)
               then BasePrefix + r + J2Ext == name else r == name)
  {
    if Contains(Lower(name), DockerfileWord) then DockerfileName
    else if Contains(path, JinjaExt) then
      if EndsWith(name, JinjaExt) then name[..|name| - |JinjaExt|] else name
    else if StartsWith(name, BasePrefix) && EndsWith(name, J2Ext) then
      BaseInner(name)
    else name
  }

  /** `name[5:-3]` for a name that starts with `base-` and ends with `.j2`:
      the two affixes never overlap. */
  function BaseInner(name: string): (r: string)
    requires StartsWith(name, BasePrefix) && EndsWith(name, J2Ext)
    ensures BasePrefix + r + J2Ext == name
  {
    assert name[..5] == BasePrefix && name[|name| - 3..] == J2Ext;
    assert forall i :: 0 <= i < 5 ==> name[i] != '.';
    assert name[|name| - 3] == '.';
    var r := name[|BasePrefix|..|name| - |J2Ext|];
    assert name == name[..|BasePrefix|] + r + name[|name| - |J2Ext|..];
    r
  }

  /** `write_template(arch)` (manager.py:909-925): the base name, followed
      by `-<arch>` when an architecture is given. */
  function OutputFilename(name: string, path: string, arch: string): (r: string)
    ensures arch == "" ==> r == BaseFilename(name, path)
    ensures arch != "" ==> StartsWith(r, BaseFilename(name, path)) && r[|BaseFilename(name, path)|..] == "-" + arch
  {
    var base := BaseFilename(name, path);
    if arch != "" then base + "-" + arch else base
  }

  /** A `base-<n>.j2` template outside a `.jinja` path renders to `<n>`
      (with its architecture suffix), as long as `<n>` does not mention a
      Dockerfile. */
  lemma BaseTemplateRoundTrip(n: string, path: string, arch: string)
    requires !Contains(Lower(BasePrefix + n + J2Ext), DockerfileWord)
    requires !Contains(path, JinjaExt)
    ensures OutputFilename(BasePrefix + n + J2Ext, path, arch) == if arch == "" then n else n + "-" + arch
  {
    var name := BasePrefix + n + J2Ext;
    assert name[..|BasePrefix|] == BasePrefix;
    assert name[|name| - |J2Ext|..] == J2Ext;
    var b := BaseFilename(name, path);
    assert BasePrefix + b + J2Ext == name;
    assert b == name[|BasePrefix|..|name| - |J2Ext|];
    assert b == n;
  }

  /** A `<n>.jinja` template inside a `.jinja` path renders to `<n>`. */
  lemma JinjaRoundTrip(n: string, path: string, arch: string)
    requires !Contains(Lower(n + JinjaExt), DockerfileWord)
    requires Contains(path, JinjaExt)
    ensures OutputFilename(n + JinjaExt, path, arch) == if arch == "" then n else n + "-" + arch
  {
    var name := n + JinjaExt;
    assert name[|name| - |JinjaExt|..] == JinjaExt;
    var b := BaseFilename(name, path);
    assert b + JinjaExt == name;
    assert b == name[..|n|];
  }

  /** Every template whose name mentions a Dockerfile, in any letter case,
      renders to `Dockerfile`, with its architecture suffix. */
  lemma DockerfileNamed(name: string, path: string, arch: string)
    requires Contains(Lower(name), DockerfileWord)
    ensures OutputFilename(name, path, arch) == if arch == "" then DockerfileName else DockerfileName + "-" + arch
  {
  }
}

=== FILE: payload.dfy ===
/** The form data `ManagerTrigger` posts to the GitLab pipeline-trigger API:
    `kickoff` after `populate_triggers`, and `kickoff_from_kitmaker` for a
    release candidate. Environment variables and command-line switches are
    parameters; the POST itself, the URL and dry-run mode are not modelled.

    The payload is a Python dict built by successive assignments, modelled
    as an ordered mapping built with `Put`. A value is `None` only where
    `os.getenv` returned `None`. */
module Payload {
  import opened Wrappers
  import opened Strings
  import opened Manifest
  import opened ReleaseKeys
  import opened Utils

  type Form = seq<(string, Option<string>)>

  const TokenKey := "token"
  const RefKey := "ref"
  const TrueValue := "true"
  const VarOpen := "variables["
  const VarClose := "]"

  const JobTokenEnv := "CI_JOB_TOKEN"
  const RefNameEnv := "CI_COMMIT_REF_NAME"

  const TriggerName := "TRIGGER"
  const AllName := "all"
  const NoScanName := "NO_SCAN"
  const NoTestName := "NO_TEST"
  const NoPushName := "NO_PUSH"
  const RebuildName := "REBUILD_BUILDER"
  const FlavorName := "FLAVOR"
  const KitmakerName := "KITMAKER"
  const L4tName := "UBUNTU18_04_L4T"
  const ReleaseLabelName := "RELEASE_LABEL"
  const ImageTagSuffixName := "IMAGE_TAG_SUFFIX"
  const CandidateUrlName := "CANDIDATE_URL"
  const WebhookUrlName := "WEBHOOK_URL"
  const L4tWord := "l4t"

  /** `f"variables[{name}]"` */
  function Var(name: string): (k: string)
    ensures |k| == |name| + 11 && k[0] == 'v'
    ensures k[10..|k| - 1] == name
  {
    VarOpen + name + VarClose
  }

  /** The switches of `ManagerTrigger` the payloads read. */
  datatype Switches = Switches(
    noTest: bool, noScan: bool, noPush: bool, rebuildBuilder: bool,
    flavor: string, branch: Option<string>)

  /** `os.getenv(name) or attr`, as a truth value. */
  predicate EnvFlag(env: Env, name: string, attr: bool) {
    (name in env && env[name] != "") || attr
  }

  /** `os.getenv("CI_COMMIT_REF_NAME") or self.branch` */
  function RefOf(env: Env, branch: Option<string>): (r: Option<string>)
    ensures RefNameEnv in env && env[RefNameEnv] != "" ==> r == Some(env[RefNameEnv])
    ensures !(RefNameEnv in env && env[RefNameEnv] != "") ==> r == branch
  {
    var e := GetEnv(env, RefNameEnv);
    if e.Some? && e.value != "" then e else branch
  }

  /** `{"token": token, "ref": ref, "variables[<marker>]": "true"}` */
  function Base(env: Env, branch: Option<string>, marker: string): (p: Form)
    ensures UniqueKeys(p)
    ensures Find(p, TokenKey) == Some(GetEnv(env, JobTokenEnv))
    ensures Find(p, RefKey) == Some(RefOf(env, branch))
    ensures Find(p, Var(marker)) == Some(Some(TrueValue))
    ensures forall k {:trigger Find(p, k)} :: k != TokenKey && k != RefKey && k != Var(marker) ==> Find(p, k) == None
  {
    var m := Var(marker);
    var p := [(TokenKey, GetEnv(env, JobTokenEnv)), (RefKey, RefOf(env, branch)), (m, Some(TrueValue))];
    assert TokenKey[0] == 't' && RefKey[0] == 'r' && m[0] == 'v';
    FindThree(p);
    p
  }

  /** `payload[f"variables[{name}]"] = "true"` when the flag is set. */
  function PutFlag(p: Form, name: string, on: bool): (r: Form)
    ensures UniqueKeys(p) ==> UniqueKeys(r)
    ensures forall k {:trigger Find(r, k)} :: Find(r, k) == if on && k == Var(name) then Some(Some(TrueValue)) else Find(p, k)
  {
    if on then Put(p, Var(name), Some(TrueValue)) else p
  }

  /** `for job in jobs: payload[f"variables[{job}]"] = "true"` */
  function PutJobs(p: Form, jobs: seq<string>): (r: Form)
    ensures UniqueKeys(p) ==> UniqueKeys(r)
    ensures forall k {:trigger Find(r, k)} :: Find(r, k) == if k in JobVars(jobs) then Some(Some(TrueValue)) else Find(p, k)
    decreases |jobs|
  {
    if |jobs| == 0 then p
    else
      assert forall k :: k in JobVars(jobs) <==> k == Var(jobs[0]) || k in JobVars(jobs[1..]);
      PutJobs(Put(p, Var(jobs[0]), Some(TrueValue)), jobs[1..])
  }

  /** The keys the jobs are sent under. */
  function JobVars(jobs: seq<string>): (ks: seq<string>)
    ensures forall job :: job in jobs ==> Var(job) in ks
    ensures forall k :: k in ks ==> |k| > 10 && k[0] == 'v' && exists job :: job in jobs && k == Var(job)
  {
    var ks := seq(|jobs|, i requires 0 <= i < |jobs| => Var(jobs[i]));
    assert forall i :: 0 <= i < |jobs| ==> ks[i] == Var(jobs[i]);
    ks
  }

  /** Two variable keys differ when their names visibly differ. */
  lemma VarsDiffer(a: string, b: string)
    requires |a| != |b| || (|a| > 0 && |b| > 0 && a[0] != b[0])
    ensures Var(a) != Var(b)
  {
    assert Var(a)[10..|Var(a)| - 1] == a;
  }

  /** No variable key is `token` or `ref`. */
  lemma VarNotBase(a: string)
    ensures Var(a) != TokenKey && Var(a) != RefKey
  {
    assert TokenKey[0] == 't' && RefKey[0] == 'r';
  }

  // ---------------------------------------------------------------------
  // kickoff

  /** `variables[all]` under `trigger_all`, else one variable per job. */
  function Selection(p: Form, all: bool, explicit: seq<string>): (r: Form)
    ensures UniqueKeys(p) ==> UniqueKeys(r)
  {
    if all then Put(p, Var(AllName), Some(TrueValue)) else PutJobs(p, explicit)
  }

  /** The flag and flavor assignments that follow the selection. */
  function Switched(p: Form, env: Env, sw: Switches): (r: Form)
    ensures UniqueKeys(p) ==> UniqueKeys(r)
  {
    var p2 := PutFlag(p, NoScanName, EnvFlag(env, NoScanName, sw.noScan));
    var p3 := PutFlag(p2, NoTestName, EnvFlag(env, NoTestName, sw.noTest));
    var p4 := PutFlag(p3, NoPushName, EnvFlag(env, NoPushName, sw.noPush));
    var p5 := PutFlag(p4, RebuildName, EnvFlag(env, RebuildName, sw.rebuildBuilder));
    if sw.flavor != "" then Put(p5, Var(FlavorName), Some(sw.flavor)) else p5
  }

  /** The payload of `kickoff` (manager.py:415-430); a given flavor is sent. */
  function Kickoff(env: Env, sw: Switches, all: bool, explicit: seq<string>): (p: Form)
    ensures UniqueKeys(p)
    ensures sw.flavor != "" ==> Find(p, Var(FlavorName)) == Some(Some(sw.flavor))
  {
    Switched(Selection(Base(env, sw.branch, TriggerName), all, explicit), env, sw)
  }

  /** The names `kickoff` may send besides the jobs. */
  predicate KickoffName(name: string) {
    name in [TriggerName, AllName, NoScanName, NoTestName, NoPushName, RebuildName, FlavorName]
  }

  /** The flag assignments leave every other key alone. */
  lemma SwitchedOther(p: Form, env: Env, sw: Switches, k: string)
    requires k != Var(NoScanName) && k != Var(NoTestName) && k != Var(NoPushName)
    requires k != Var(RebuildName) && k != Var(FlavorName)
    ensures Find(Switched(p, env, sw), k) == Find(p, k)
  {
  }

  /** A key outside the fixed names is left alone by the flags. */
  lemma SwitchedJob(p: Form, env: Env, sw: Switches, job: string)
    requires job != NoScanName && job != NoTestName && job != NoPushName && job != RebuildName
    requires job != FlavorName || sw.flavor == ""
    ensures Find(Switched(p, env, sw), Var(job)) == Find(p, Var(job))
  {
    NamesDiffer(job, NoScanName);
    NamesDiffer(job, NoTestName);
    NamesDiffer(job, NoPushName);
    NamesDiffer(job, RebuildName);
    if sw.flavor != "" { NamesDiffer(job, FlavorName); }
  }

  lemma NamesDiffer(a: string, b: string)
    requires a != b
    ensures Var(a) != Var(b)
  {
    assert Var(a)[10..|Var(a)| - 1] == a;
  }

  /** What `kickoff` sends: the token as found (possibly `None`), the ref,
      `TRIGGER`, and `all` exactly under `trigger_all` unless a job is
      literally named `all`. */
  lemma KickoffFields(env: Env, sw: Switches, all: bool, explicit: seq<string>)
    ensures var p := Kickoff(env, sw, all, explicit);
            && Find(p, TokenKey) == Some(GetEnv(env, JobTokenEnv))
            && Find(p, RefKey) == Some(RefOf(env, sw.branch))
            && Find(p, Var(TriggerName)) == Some(Some(TrueValue))
            && (all ==> Find(p, Var(AllName)) == Some(Some(TrueValue)))
            && (!all && AllName !in explicit ==> Find(p, Var(AllName)) == None)
  {
    var p0 := Base(env, sw.branch, TriggerName);
    var p1 := Selection(p0, all, explicit);
    VarNotBase(NoScanName);
    VarNotBase(NoTestName);
    VarNotBase(NoPushName);
    VarNotBase(RebuildName);
    VarNotBase(FlavorName);
    VarNotBase(AllName);
    SwitchedOther(p1, env, sw, TokenKey);
    SwitchedOther(p1, env, sw, RefKey);
    assert TriggerName[0] == 'T' && AllName[0] == 'a';
    SwitchedJob(p1, env, sw, TriggerName);
    SwitchedJob(p1, env, sw, AllName);
    VarsDiffer(TriggerName, AllName);
    if !all && Var(AllName) in JobVars(explicit) {
      var job :| job in explicit && Var(AllName) == Var(job);
      assert Var(job)[10..|Var(job)| - 1] == job;
    }
  }

  /** For a job named neither like a flag nor like `trigger_all` (those
      names the later flag assignments may overwrite, and `KickoffFlags`
      covers them), nor `FLAVOR` while a flavor is set: one variable when
      the job is selected, and none otherwise, so under `trigger_all` none
      beyond the fixed names. */
  lemma KickoffJobs(env: Env, sw: Switches, all: bool, explicit: seq<string>, job: string)
    requires !KickoffName(job) || job == TriggerName || (job == FlavorName && sw.flavor == "")
    ensures var p := Kickoff(env, sw, all, explicit);
            && (!all && job in explicit ==> Find(p, Var(job)) == Some(Some(TrueValue)))
            && (!KickoffName(job) && (all || job !in explicit) ==> Find(p, Var(job)) == None)
  {
    var p0 := Base(env, sw.branch, TriggerName);
    var p1 := Selection(p0, all, explicit);
    SwitchedJob(p1, env, sw, job);
    if !KickoffName(job) && (all || job !in explicit) {
      SelectionAbsent(env, sw.branch, all, explicit, job);
    }
  }

  /** Before the switches, a name that is neither `TRIGGER` nor `all` has
      a variable only as a selected job. */
  lemma SelectionAbsent(env: Env, branch: Option<string>, all: bool, explicit: seq<string>, name: string)
    requires name != TriggerName && name != AllName
    requires all || name !in explicit
    ensures Find(Selection(Base(env, branch, TriggerName), all, explicit), Var(name)) == None
  {
    var p0 := Base(env, branch, TriggerName);
    var k := Var(name);
    assert Find(p0, k) == None by {
      VarNotBase(name);
      NamesDiffer(name, TriggerName);
    }
    if all {
      NamesDiffer(name, AllName);
    } else {
      assert k !in JobVars(explicit);
    }
  }

  /** Each flag switch (or its environment variable) sends its variable,
      and a flag that is off sends none, unless a selected job carries its
      name. */
  lemma KickoffFlags(env: Env, sw: Switches, all: bool, explicit: seq<string>)
    ensures var p := Kickoff(env, sw, all, explicit);
            && (EnvFlag(env, NoScanName, sw.noScan) ==> Find(p, Var(NoScanName)) == Some(Some(TrueValue)))
            && (EnvFlag(env, NoTestName, sw.noTest) ==> Find(p, Var(NoTestName)) == Some(Some(TrueValue)))
            && (EnvFlag(env, NoPushName, sw.noPush) ==> Find(p, Var(NoPushName)) == Some(Some(TrueValue)))
            && (EnvFlag(env, RebuildName, sw.rebuildBuilder) ==> Find(p, Var(RebuildName)) == Some(Some(TrueValue)))
    ensures var p := Kickoff(env, sw, all, explicit);
            && (!EnvFlag(env, NoScanName, sw.noScan) && (all || NoScanName !in explicit) ==> Find(p, Var(NoScanName)) == None)
            && (!EnvFlag(env, NoTestName, sw.noTest) && (all || NoTestName !in explicit) ==> Find(p, Var(NoTestName)) == None)
            && (!EnvFlag(env, NoPushName, sw.noPush) && (all || NoPushName !in explicit) ==> Find(p, Var(NoPushName)) == None)
            && (!EnvFlag(env, RebuildName, sw.rebuildBuilder) && (all || RebuildName !in explicit) ==> Find(p, Var(RebuildName)) == None)
  {
    var p1 := Selection(Base(env, sw.branch, TriggerName), all, explicit);
    assert Kickoff(env, sw, all, explicit) == Switched(p1, env, sw);
    SwitchedFlags(p1, env, sw);
    SwitchedFlagsOff(p1, env, sw);
    KickoffFlagsAbsent(env, sw.branch, all, explicit);
  }

  /** Before the switches, no flag has a variable unless a selected job
      carries its name. */
  lemma KickoffFlagsAbsent(env: Env, branch: Option<string>, all: bool, explicit: seq<string>)
    ensures var p1 := Selection(Base(env, branch, TriggerName), all, explicit);
            && ((all || NoScanName !in explicit) ==> Find(p1, Var(NoScanName)) == None)
            && ((all || NoTestName !in explicit) ==> Find(p1, Var(NoTestName)) == None)
            && ((all || NoPushName !in explicit) ==> Find(p1, Var(NoPushName)) == None)
            && ((all || RebuildName !in explicit) ==> Find(p1, Var(RebuildName)) == None)
  {
    if all || NoScanName !in explicit { SelectionAbsent(env, branch, all, explicit, NoScanName); }
    if all || NoTestName !in explicit { SelectionAbsent(env, branch, all, explicit, NoTestName); }
    if all || NoPushName !in explicit { SelectionAbsent(env, branch, all, explicit, NoPushName); }
    if all || RebuildName !in explicit { SelectionAbsent(env, branch, all, explicit, RebuildName); }
  }

  lemma SwitchedFlags(p: Form, env: Env, sw: Switches)
    ensures var r := Switched(p, env, sw);
            && (EnvFlag(env, NoScanName, sw.noScan) ==> Find(r, Var(NoScanName)) == Some(Some(TrueValue)))
            && (EnvFlag(env, NoTestName, sw.noTest) ==> Find(r, Var(NoTestName)) == Some(Some(TrueValue)))
            && (EnvFlag(env, NoPushName, sw.noPush) ==> Find(r, Var(NoPushName)) == Some(Some(TrueValue)))
            && (EnvFlag(env, RebuildName, sw.rebuildBuilder) ==> Find(r, Var(RebuildName)) == Some(Some(TrueValue)))
  {
    FlagNamesDiffer();
    FlagsKeptLate(p, env, sw, NoScanName);
    FlagsKeptLate(p, env, sw, NoTestName);
    FlagsKeptLate(p, env, sw, NoPushName);
  }

  /** A flag that is off leaves its variable as it was. */
  lemma SwitchedFlagsOff(p: Form, env: Env, sw: Switches)
    ensures var r := Switched(p, env, sw);
            && (!EnvFlag(env, NoScanName, sw.noScan) ==> Find(r, Var(NoScanName)) == Find(p, Var(NoScanName)))
            && (!EnvFlag(env, NoTestName, sw.noTest) ==> Find(r, Var(NoTestName)) == Find(p, Var(NoTestName)))
            && (!EnvFlag(env, NoPushName, sw.noPush) ==> Find(r, Var(NoPushName)) == Find(p, Var(NoPushName)))
            && (!EnvFlag(env, RebuildName, sw.rebuildBuilder) ==> Find(r, Var(RebuildName)) == Find(p, Var(RebuildName)))
  {
    FlagNamesDiffer();
    FlagsKeptLate(p, env, sw, NoScanName);
    FlagsKeptLate(p, env, sw, NoTestName);
    FlagsKeptLate(p, env, sw, NoPushName);
  }

  /** The variables of the four flags and the flavor are pairwise distinct. */
  lemma FlagNamesDiffer()
    ensures Var(NoScanName) != Var(NoTestName) && Var(NoScanName) != Var(NoPushName) && Var(NoTestName) != Var(NoPushName)
    ensures Var(RebuildName) != Var(FlavorName)
  {
    assert NoScanName[3] == 'S' && NoTestName[3] == 'T' && NoPushName[3] == 'P';
    NamesDiffer(NoScanName, NoTestName);
    NamesDiffer(NoScanName, NoPushName);
    NamesDiffer(NoTestName, NoPushName);
    assert |RebuildName| == 15 && |FlavorName| == 6;
    VarsDiffer(RebuildName, FlavorName);
  }

  /** The rebuild and flavor assignments leave a seven-letter flag alone. */
  lemma FlagsKeptLate(p: Form, env: Env, sw: Switches, name: string)
    requires |name| == 7
    ensures Find(Switched(p, env, sw), Var(name)) == Find(PutFlag(PutFlag(PutFlag(p, NoScanName, EnvFlag(env, NoScanName, sw.noScan)),
              NoTestName, EnvFlag(env, NoTestName, sw.noTest)), NoPushName, EnvFlag(env, NoPushName, sw.noPush)), Var(name))
  {
    assert |RebuildName| == 15 && |FlavorName| == 6;
    VarsDiffer(name, RebuildName);
    VarsDiffer(name, FlavorName);
  }

  // ---------------------------------------------------------------------
  // kickoff_from_kitmaker

  /** The release-candidate switches `main` insists on before it calls
      `kickoff_from_kitmaker`. */
  datatype Candidate = Candidate(
    releaseLabel: Option<string>, candidateNumber: Option<string>,
    candidateUrl: Option<string>, webhookUrl: Option<string>)

  predicate CandidateGiven(c: Candidate, branch: Option<string>) {
    Given(c.releaseLabel) && Given(c.candidateNumber) && Given(c.candidateUrl)
    && Given(c.webhookUrl) && Given(branch)
  }

  /** The flag, L4T and flavor assignments of `kickoff_from_kitmaker`. */
  function KitmakerSwitched(p: Form, env: Env, sw: Switches): (r: Form)
    ensures UniqueKeys(p) ==> UniqueKeys(r)
  {
    var p1 := PutFlag(p, NoScanName, EnvFlag(env, NoScanName, sw.noScan));
    var p2 := PutFlag(p1, NoTestName, EnvFlag(env, NoTestName, sw.noTest));
    var p3 := PutFlag(p2, NoPushName, EnvFlag(env, NoPushName, sw.noPush));
    var p4 := PutFlag(p3, L4tName, Contains(sw.flavor, L4tWord));
    if sw.flavor != "" then Put(p4, Var(FlavorName), Some(sw.flavor)) else p4
  }

  /** The assignments before the candidate's fields. */
  function KitmakerHead(env: Env, sw: Switches): (p: Form)
    ensures UniqueKeys(p)
  {
    KitmakerSwitched(Base(env, sw.branch, KitmakerName), env, sw)
  }

  lemma KitmakerSwitchedOther(p: Form, env: Env, sw: Switches, k: string)
    requires k != Var(NoScanName) && k != Var(NoTestName) && k != Var(NoPushName)
    requires k != Var(L4tName) && k != Var(FlavorName)
    ensures Find(KitmakerSwitched(p, env, sw), k) == Find(p, k)
  {
  }

  /** The L4T switch is set exactly when the flavor mentions `l4t`. */
  lemma KitmakerSwitchedL4t(p: Form, env: Env, sw: Switches)
    requires Find(p, Var(L4tName)) == None
    ensures Find(KitmakerSwitched(p, env, sw), Var(L4tName)).Some? <==> Contains(sw.flavor, L4tWord)
  {
    assert |L4tName| == 15 && |FlavorName| == 6;
    VarsDiffer(L4tName, FlavorName);
  }

  /** `TRIGGER` and the candidate's fields, assigned last. */
  function CandidateFields(p: Form, c: Candidate): (r: Form)
    requires c.candidateNumber.Some?
    ensures UniqueKeys(p) ==> UniqueKeys(r)
  {
    var p6 := Put(p, Var(TriggerName), Some(TrueValue));
    var p7 := Put(p6, Var(ReleaseLabelName), c.releaseLabel);
    var p8 := Put(p7, Var(ImageTagSuffixName), Some("-" + c.candidateNumber.value));
    var p9 := Put(p8, Var(CandidateUrlName), c.candidateUrl);
    Put(p9, Var(WebhookUrlName), c.webhookUrl)
  }

  /** `main` with a shipit UUID (manager.py:487-505): a missing switch is a
      fatal error; otherwise the payload of `kickoff_from_kitmaker`
      (manager.py:452-474). */
  function KickoffFromKitmaker(env: Env, sw: Switches, c: Candidate): (r: Result<Form>)
    ensures r.Ok? <==> CandidateGiven(c, sw.branch)
    ensures r.Ok? ==> UniqueKeys(r.value)
  {
    if !CandidateGiven(c, sw.branch) then Err("Missing arguments")
    else Ok(CandidateFields(KitmakerHead(env, sw), c))
  }

  /** The candidate's fields, whatever came before. */
  lemma CandidateFieldValues(p: Form, c: Candidate)
    requires c.candidateNumber.Some?
    ensures var r := CandidateFields(p, c);
            && Find(r, Var(TriggerName)) == Some(Some(TrueValue))
            && Find(r, Var(ReleaseLabelName)) == Some(c.releaseLabel)
            && Find(r, Var(ImageTagSuffixName)) == Some(Some("-" + c.candidateNumber.value))
            && Find(r, Var(CandidateUrlName)) == Some(c.candidateUrl)
            && Find(r, Var(WebhookUrlName)) == Some(c.webhookUrl)
  {
    assert |TriggerName| == 7 && |ReleaseLabelName| == 13 && |ImageTagSuffixName| == 16;
    assert |CandidateUrlName| == 13 && |WebhookUrlName| == 11;
    assert ReleaseLabelName[0] == 'R' && CandidateUrlName[0] == 'C';
    VarsDiffer(TriggerName, ReleaseLabelName);
    VarsDiffer(TriggerName, ImageTagSuffixName);
    VarsDiffer(TriggerName, CandidateUrlName);
    VarsDiffer(TriggerName, WebhookUrlName);
    VarsDiffer(ReleaseLabelName, ImageTagSuffixName);
    VarsDiffer(ReleaseLabelName, CandidateUrlName);
    VarsDiffer(ReleaseLabelName, WebhookUrlName);
    VarsDiffer(ImageTagSuffixName, CandidateUrlName);
    VarsDiffer(ImageTagSuffixName, WebhookUrlName);
    VarsDiffer(CandidateUrlName, WebhookUrlName);
  }

  /** A key that is no candidate field keeps its earlier value. */
  lemma CandidateFieldsOther(p: Form, c: Candidate, k: string)
    requires c.candidateNumber.Some?
    requires k != Var(TriggerName) && k != Var(ReleaseLabelName) && k != Var(ImageTagSuffixName)
    requires k != Var(CandidateUrlName) && k != Var(WebhookUrlName)
    ensures Find(CandidateFields(p, c), k) == Find(p, k)
  {
  }

  /** The head of the release-candidate payload: token, ref, the `KITMAKER`
      marker, the L4T switch exactly when the flavor mentions `l4t`, and
      never `all`. */
  lemma KitmakerHeadFields(env: Env, sw: Switches)
    ensures var p := KitmakerHead(env, sw);
            && Find(p, TokenKey) == Some(GetEnv(env, JobTokenEnv))
            && Find(p, RefKey) == Some(RefOf(env, sw.branch))
            && Find(p, Var(KitmakerName)) == Some(Some(TrueValue))
            && (Find(p, Var(L4tName)).Some? <==> Contains(sw.flavor, L4tWord))
            && Find(p, Var(AllName)) == None
  {
    var b := Base(env, sw.branch, KitmakerName);
    KitmakerBaseKept(b, env, sw, TokenKey);
    KitmakerBaseKept(b, env, sw, RefKey);
    KitmakerBaseKept(b, env, sw, Var(KitmakerName));
    KitmakerBaseKept(b, env, sw, Var(AllName));
    KitmakerHeadL4t(env, sw);
    assert |AllName| == 3 && |KitmakerName| == 8;
    VarsDiffer(AllName, KitmakerName);
    VarNotBase(AllName);
  }

  lemma KitmakerHeadL4t(env: Env, sw: Switches)
    ensures Find(KitmakerHead(env, sw), Var(L4tName)).Some? <==> Contains(sw.flavor, L4tWord)
  {
    var b := Base(env, sw.branch, KitmakerName);
    assert |L4tName| == 15 && |KitmakerName| == 8;
    VarsDiffer(L4tName, KitmakerName);
    VarNotBase(L4tName);
    KitmakerSwitchedL4t(b, env, sw);
  }

  lemma KitmakerBaseKept(b: Form, env: Env, sw: Switches, k: string)
    requires k == TokenKey || k == RefKey || k == Var(KitmakerName) || k == Var(AllName)
    ensures Find(KitmakerSwitched(b, env, sw), k) == Find(b, k)
  {
    VarNotBase(NoScanName);
    VarNotBase(NoTestName);
    VarNotBase(NoPushName);
    VarNotBase(L4tName);
    VarNotBase(FlavorName);
    assert |KitmakerName| == 8 && |AllName| == 3;
    assert |NoScanName| == 7 && |NoTestName| == 7 && |NoPushName| == 7 && |L4tName| == 15 && |FlavorName| == 6;
    if k == Var(KitmakerName) || k == Var(AllName) {
      var name := if k == Var(KitmakerName) then KitmakerName else AllName;
      VarsDiffer(name, NoScanName);
      VarsDiffer(name, NoTestName);
      VarsDiffer(name, NoPushName);
      VarsDiffer(name, L4tName);
      VarsDiffer(name, FlavorName);
    }
    KitmakerSwitchedOther(b, env, sw, k);
  }

  /** The release-candidate payload, put together. */
  lemma KitmakerFields(env: Env, sw: Switches, c: Candidate)
    requires CandidateGiven(c, sw.branch)
    ensures var p := KickoffFromKitmaker(env, sw, c).value;
            && Find(p, TokenKey) == Some(GetEnv(env, JobTokenEnv))
            && Find(p, RefKey) == Some(RefOf(env, sw.branch))
            && Find(p, Var(KitmakerName)) == Some(Some(TrueValue))
            && Find(p, Var(TriggerName)) == Some(Some(TrueValue))
            && Find(p, Var(ReleaseLabelName)) == Some(c.releaseLabel)
            && Find(p, Var(ImageTagSuffixName)) == Some(Some("-" + c.candidateNumber.value))
            && Find(p, Var(CandidateUrlName)) == Some(c.candidateUrl)
            && Find(p, Var(WebhookUrlName)) == Some(c.webhookUrl)
            && (Find(p, Var(L4tName)).Some? <==> Contains(sw.flavor, L4tWord))
            && Find(p, Var(AllName)) == None
  {
    var h := KitmakerHead(env, sw);
    KitmakerHeadFields(env, sw);
    CandidateFieldValues(h, c);
    VarNotBase(TriggerName);
    VarNotBase(ReleaseLabelName);
    VarNotBase(ImageTagSuffixName);
    VarNotBase(CandidateUrlName);
    VarNotBase(WebhookUrlName);
    CandidateFieldsOther(h, c, TokenKey);
    CandidateFieldsOther(h, c, RefKey);
    assert |KitmakerName| == 8 && |L4tName| == 15 && |AllName| == 3;
    assert |TriggerName| == 7 && |ReleaseLabelName| == 13 && |ImageTagSuffixName| == 16;
    assert |CandidateUrlName| == 13 && |WebhookUrlName| == 11;
    KitmakerOther(h, c, KitmakerName);
    KitmakerOther(h, c, L4tName);
    KitmakerOther(h, c, AllName);
  }

  lemma KitmakerOther(h: Form, c: Candidate, name: string)
    requires c.candidateNumber.Some?
    requires |name| != 7 && |name| != 13 && |name| != 16 && |name| != 11
    ensures Find(CandidateFields(h, c), Var(name)) == Find(h, Var(name))
  {
    VarsDiffer(name, TriggerName);
    VarsDiffer(name, ReleaseLabelName);
    VarsDiffer(name, ImageTagSuffixName);
    VarsDiffer(name, CandidateUrlName);
    VarsDiffer(name, WebhookUrlName);
  }
}

=== FILE: push.dfy ===
/** `ManagerContainerPush.setup_repos`: which registries a built image is
    pushed to, and with which credentials. The manifest and the environment
    are parameters; the pushes themselves are not modelled. */
module Push {
  import opened Wrappers
  import opened Strings
  import opened Manifest
  import opened ReleaseKeys
  import opened Utils

  const GitlabMaster := "gitlab-master"
  const UserField := "user"
  const PassField := "pass"
  const ImageNameField := "image_name"

  /** The registries to push to, in order (a registry may repeat), and the
      credentials per registry. */
  datatype PushSetup = PushSetup(repos: seq<string>, creds: seq<(string, Cred)>)

  /** The tests a repository must pass to be pushed to: listed for the
      release, not the internal GitLab registry, its `only_if` variable (if
      any) set, and not excluded for the distro. */
  predicate Pushed(repo: string, metadata: Value, target: Value, excluded: Value, env: Env) {
    && In(repo, target) == Ok(true)
    && !Contains(repo, GitlabMaster)
    && metadata.Map?
    && OnlyIfUnmet(metadata.entries, env) == Ok(false)
    && !(Truthy(excluded) && In(repo, excluded) == Ok(true))
  }

  /** The credentials of a repository: each of `user` and `pass` names an
      environment variable, whose value is used when it is set. */
  function RepoCreds(metadata: seq<(string, Value)>, env: Env): (r: Result<(string, Cred)>)
    ensures r.Ok? ==> Field(metadata, ImageNameField) == Ok(r.value.0)
    ensures r.Ok? <==> Field(metadata, UserField).Ok? && Field(metadata, PassField).Ok? && Field(metadata, ImageNameField).Ok?
    ensures r.Ok? ==> r.value.1 == Cred(Credential(env, Field(metadata, UserField).value), Credential(env, Field(metadata, PassField).value))
  {
    var user :- Field(metadata, UserField);
    var pass :- Field(metadata, PassField);
    var registry :- Field(metadata, ImageNameField);
    Ok((registry, Cred(Credential(env, user), Credential(env, pass))))
  }

  /** One pass of the loop of `setup_repos`, the tests in the source's
      order: `None` for a skipped repository. */
  function RepoStep(repo: string, metadata: Value, pushRepos: Value, target: Value, excluded: Value, env: Env): (r: Result<Option<(string, Cred)>>)
    ensures r.Ok? && r.value.Some? ==> Pushed(repo, metadata, target, excluded, env)
    ensures r.Ok? && r.value.Some? ==> RepoCreds(metadata.entries, env) == Ok(r.value.value)
    ensures r == Ok(None) && pushRepos.Map? && repo in Keys(pushRepos.entries) ==> !Pushed(repo, metadata, target, excluded, env)
    ensures r.Ok? && Pushed(repo, metadata, target, excluded, env) && pushRepos.Map? && repo in Keys(pushRepos.entries) ==> r.value.Some?
  {
    var listed :- In(repo, target);
    if !listed || Contains(repo, GitlabMaster) then Ok(None)
    else if !metadata.Map? then Err("metadata has no attribute 'get'")
    else
      var unmet :- OnlyIfUnmet(metadata.entries, env);
      if unmet then Ok(None)
      else
        var known :- In(repo, pushRepos);
        if Truthy(pushRepos) && !known then Ok(None)
        else
          var dropped :- if Truthy(excluded) then In(repo, excluded) else Ok(false);
          if dropped then Ok(None)
          else
            var c :- RepoCreds(metadata.entries, env);
            Ok(Some(c))
  }

  /** The loop over `push_repos.items()`. */
  function SetupLoop(items: seq<(string, Value)>, pushRepos: Value, target: Value, excluded: Value, env: Env, acc: PushSetup): (r: Result<PushSetup>)
    requires UniqueKeys(acc.creds)
    requires forall x :: x in acc.repos <==> x in Keys(acc.creds)
    ensures r.Ok? ==> UniqueKeys(r.value.creds) && |acc.repos| <= |r.value.repos|
    ensures r.Ok? ==> forall x :: x in r.value.repos <==> x in Keys(r.value.creds)
    decreases |items|
  {
    if |items| == 0 then Ok(acc)
    else
      var step :- RepoStep(items[0].0, items[0].1, pushRepos, target, excluded, env);
      match step
      case None => SetupLoop(items[1..], pushRepos, target, excluded, env, acc)
      case Some(c) =>
        var creds := Put(acc.creds, c.0, c.1);
        assert forall x :: x in Keys(creds) <==> x == c.0 || x in Keys(acc.creds);
        SetupLoop(items[1..], pushRepos, target, excluded, env, PushSetup(acc.repos + [c.0], creds))
  }

  /** `setup_repos` (manager.py:594-636): the registries and credentials of
      the repositories that pass every test; none at all is fatal. */
  function SetupRepos(manifest: Value, key: string, distroKey: string, env: Env): (r: Result<PushSetup>)
    ensures r.Ok? ==> |r.value.repos| > 0 && UniqueKeys(r.value.creds)
    ensures r.Ok? ==> forall x :: x in r.value.repos <==> x in Keys(r.value.creds)
  {
    var pushRepos := GetData(manifest, [PushReposKey], false).data;
    var target := GetData(manifest, [key, PushReposKey], false).data;
    var excluded := GetData(manifest, [key, distroKey, ExcludeReposKey], true).data;
    var items :- Items(pushRepos);
    var setup :- SetupLoop(items, pushRepos, target, excluded, env, PushSetup([], []));
    if |setup.repos| == 0 then Err("Could not retrieve container image repo credentials")
    else Ok(setup)
  }

  /** `item` passes every test and its image name is `x`. */
  predicate PushedAs(item: (string, Value), target: Value, excluded: Value, env: Env, x: string) {
    && Pushed(item.0, item.1, target, excluded, env)
    && RepoCreds(item.1.entries, env).Ok? && RepoCreds(item.1.entries, env).value.0 == x
  }

  /** Some repository of `items` passes every test and has image name `x`. */
  predicate PushedImage(items: seq<(string, Value)>, target: Value, excluded: Value, env: Env, x: string)
    decreases |items|
  {
    |items| > 0 && (PushedAs(items[0], target, excluded, env, x) || PushedImage(items[1..], target, excluded, env, x))
  }

  /** The loop keeps exactly the image names of the repositories that pass. */
  lemma {:induction false} SetupLoopSelects(items: seq<(string, Value)>, pushRepos: Value, target: Value, excluded: Value, env: Env, acc: PushSetup, x: string)
    requires UniqueKeys(acc.creds)
    requires forall y :: y in acc.repos <==> y in Keys(acc.creds)
    requires pushRepos.Map? && forall i :: 0 <= i < |items| ==> items[i].0 in Keys(pushRepos.entries)
    requires SetupLoop(items, pushRepos, target, excluded, env, acc).Ok?
    ensures x in SetupLoop(items, pushRepos, target, excluded, env, acc).value.repos <==>
              x in acc.repos || PushedImage(items, target, excluded, env, x)
    decreases |items|
  {
    if |items| > 0 {
      var acc' := SetupLoopFirst(items, pushRepos, target, excluded, env, acc, x);
      assert PushedImage(items, target, excluded, env, x) <==>
             PushedAs(items[0], target, excluded, env, x) || PushedImage(items[1..], target, excluded, env, x);
      SetupLoopSelects(items[1..], pushRepos, target, excluded, env, acc', x);
    }
  }

  /** The loop after its first pass is the loop over the rest of the
      items, from the registries that pass has collected. */
  lemma SetupLoopFirst(items: seq<(string, Value)>, pushRepos: Value, target: Value, excluded: Value, env: Env, acc: PushSetup, x: string)
      returns (acc': PushSetup)
    requires |items| > 0
    requires UniqueKeys(acc.creds)
    requires forall y :: y in acc.repos <==> y in Keys(acc.creds)
    requires pushRepos.Map? && forall i :: 0 <= i < |items| ==> items[i].0 in Keys(pushRepos.entries)
    requires SetupLoop(items, pushRepos, target, excluded, env, acc).Ok?
    ensures UniqueKeys(acc'.creds)
    ensures forall y :: y in acc'.repos <==> y in Keys(acc'.creds)
    ensures forall i :: 0 <= i < |items[1..]| ==> items[1..][i].0 in Keys(pushRepos.entries)
    ensures x in acc'.repos <==> x in acc.repos || PushedAs(items[0], target, excluded, env, x)
    ensures SetupLoop(items, pushRepos, target, excluded, env, acc) == SetupLoop(items[1..], pushRepos, target, excluded, env, acc')
  {
    var rest := items[1..];
    assert forall i :: 0 <= i < |rest| ==> rest[i].0 == items[i + 1].0;
    acc' := SetupStep(items[0], pushRepos, target, excluded, env, acc, x);
  }

  /** The first pass of the loop adds the first repository's image name
      exactly when that repository passes. */
  lemma SetupStep(item: (string, Value), pushRepos: Value, target: Value, excluded: Value, env: Env, acc: PushSetup, x: string)
      returns (acc': PushSetup)
    requires UniqueKeys(acc.creds)
    requires forall y :: y in acc.repos <==> y in Keys(acc.creds)
    requires pushRepos.Map? && item.0 in Keys(pushRepos.entries)
    requires RepoStep(item.0, item.1, pushRepos, target, excluded, env).Ok?
    ensures UniqueKeys(acc'.creds)
    ensures forall y :: y in acc'.repos <==> y in Keys(acc'.creds)
    ensures x in acc'.repos <==> x in acc.repos || PushedAs(item, target, excluded, env, x)
    ensures acc' == match RepoStep(item.0, item.1, pushRepos, target, excluded, env).value
                    case None => acc
                    case Some(c) => PushSetup(acc.repos + [c.0], Put(acc.creds, c.0, c.1))
  {
    var step := RepoStep(item.0, item.1, pushRepos, target, excluded, env).value;
    RepoStepAdds(item, pushRepos, target, excluded, env, x);
    if step.Some? {
      acc' := PushSetup(acc.repos + [step.value.0], Put(acc.creds, step.value.0, step.value.1));
      assert forall y :: y in Keys(acc'.creds) <==> y == step.value.0 || y in Keys(acc.creds);
    } else {
      acc' := acc;
    }
  }

  /** A pass that succeeds yields image name `x` exactly when the
      repository passes every test with that image name. */
  lemma RepoStepAdds(item: (string, Value), pushRepos: Value, target: Value, excluded: Value, env: Env, x: string)
    requires pushRepos.Map? && item.0 in Keys(pushRepos.entries)
    requires RepoStep(item.0, item.1, pushRepos, target, excluded, env).Ok?
    ensures var step := RepoStep(item.0, item.1, pushRepos, target, excluded, env).value;
            step.Some? && step.value.0 == x <==> PushedAs(item, target, excluded, env, x)
  {
  }

  /** The registries `setup_repos` pushes to are exactly the image names of
      the repositories that pass every test. */
  lemma SetupReposSelects(manifest: Value, key: string, distroKey: string, env: Env, x: string)
    requires SetupRepos(manifest, key, distroKey, env).Ok?
    ensures var pushRepos := GetData(manifest, [PushReposKey], false).data;
            var target := GetData(manifest, [key, PushReposKey], false).data;
            var excluded := GetData(manifest, [key, distroKey, ExcludeReposKey], true).data;
            pushRepos.Map? &&
            (x in SetupRepos(manifest, key, distroKey, env).value.repos <==> PushedImage(pushRepos.entries, target, excluded, env, x))
  {
    var pushRepos := GetData(manifest, [PushReposKey], false).data;
    var target := GetData(manifest, [key, PushReposKey], false).data;
    var excluded := GetData(manifest, [key, distroKey, ExcludeReposKey], true).data;
    SetupLoopSelects(pushRepos.entries, pushRepos, target, excluded, env, PushSetup([], []), x);
  }

  /** The `repo not in self.push_repos` test never skips anything: the loop
      runs over the keys of `push_repos` itself. */
  lemma PushReposTestIsDead(items: seq<(string, Value)>, i: nat)
    requires i < |items|
    ensures Truthy(Map(items)) && In(items[i].0, Map(items)) == Ok(true)
  {
  }

  /** The internal GitLab registry is never pushed to. */
  lemma GitlabNeverPushed(manifest: Value, key: string, distroKey: string, env: Env)
    requires SetupRepos(manifest, key, distroKey, env).Ok?
    ensures var pushRepos := GetData(manifest, [PushReposKey], false).data;
            forall i :: 0 <= i < |pushRepos.entries| && Contains(pushRepos.entries[i].0, GitlabMaster) ==>
              !Pushed(pushRepos.entries[i].0, pushRepos.entries[i].1, GetData(manifest, [key, PushReposKey], false).data,
                      GetData(manifest, [key, distroKey, ExcludeReposKey], true).data, env)
  {
    SetupReposSelects(manifest, key, distroKey, env, "");
  }
}

=== FILE: regex.dfy ===
/** The fragment of Python's `re` that the manager's patterns use, with the
    backtracking order of its matcher. `Ends(r, s, i)` lists every position
    at which `r` can stop when started at `i`, in the order Python's matcher
    tries them (greedy repetition first longest, alternation left first), so
    the first overall success of a concatenation is the one `re.match`
    reports, together with its group boundaries. */
module Regex {
  import opened Wrappers
  import opened Strings

  datatype CharClass =
    | Lit(c: char)      // the character itself
    | AnyButNewline     // `.`
    | Digit             // `\d`
    | Space             // `\s`
    | LowerAz           // `[a-z]`
    | WordOrDot         // `[\w\._]`

  predicate InClass(cc: CharClass, c: char) {
    match cc
    case Lit(d) => c == d
    case AnyButNewline => c != '\n'
    case Digit => IsDigit(c)
    case Space => IsSpace(c)
    case LowerAz => IsLower(c)
    case WordOrDot => IsWordChar(c) || c == '.'
  }

  datatype Re =
    | Eps                                          // the empty pattern
    | One(cc: CharClass)                           // one character of the class
    | Repeat(cc: CharClass, lo: nat, hi: Option<nat>)  // greedy `{lo,hi}`; `None` is unbounded
    | Cat(a: Re, b: Re)                            // `ab`
    | Alt(a: Re, b: Re)                            // `a|b`, `a` tried first
    | Pat(t: string)                               // interpolated text: `.` is any
                                                   // character but a newline, every
                                                   // other character stands for itself

  /** Number of consecutive characters of class `cc` starting at `i`. */
  function Run(cc: CharClass, s: string, i: nat): (n: nat)
    requires i <= |s|
    ensures i + n <= |s|
    ensures forall k :: i <= k < i + n ==> InClass(cc, s[k])
    ensures i + n < |s| ==> !InClass(cc, s[i + n])
    decreases |s| - i
  {
    if i == |s| || !InClass(cc, s[i]) then 0 else 1 + Run(cc, s, i + 1)
  }

  /** `[hi, hi - 1, …, lo]` */
  function Countdown(hi: nat, lo: nat): (r: seq<nat>)
    requires lo <= hi
    ensures |r| == hi - lo + 1
    ensures forall k :: 0 <= k < |r| ==> r[k] == hi - k
    decreases hi - lo
  {
    if hi == lo then [hi] else [hi] + Countdown(hi - 1, lo)
  }

  predicate AllWithin(es: seq<nat>, i: nat, n: nat) {
    forall k :: 0 <= k < |es| ==> i <= es[k] <= n
  }

  /** Positions at which `r` may end when started at `i`, in the order tried. */
  function Ends(r: Re, s: string, i: nat): (es: seq<nat>)
    requires i <= |s|
    ensures AllWithin(es, i, |s|)
    decreases r, 0
  {
    match r
    case Eps => [i]
    case One(cc) => if i < |s| && InClass(cc, s[i]) then [i + 1] else []
    case Repeat(cc, lo, hi) =>
      var n := Run(cc, s, i);
      var m := if hi.Some? && hi.value < n then hi.value else n;
      if m < lo then [] else Countdown(i + m, i + lo)
    case Cat(a, b) => CatEnds(Ends(a, s, i), b, s, i)
    case Alt(a, b) => Ends(a, s, i) + Ends(b, s, i)
    case Pat(t) => if i + |t| <= |s| && PatMatches(t, s[i..i + |t|]) then [i + |t|] else []
  }

  /** Ends of `b` tried from each of `starts` in turn. */
  function CatEnds(starts: seq<nat>, b: Re, s: string, i: nat): (es: seq<nat>)
    requires AllWithin(starts, i, |s|)
    ensures AllWithin(es, i, |s|)
    decreases b, |starts|
  {
    if |starts| == 0 then []
    else
      var first := Ends(b, s, starts[0]);
      assert AllWithin(first, i, |s|);
      first + CatEnds(starts[1..], b, s, i)
  }

  lemma {:induction false} CatEndsMember(starts: seq<nat>, b: Re, s: string, i: nat, e: nat)
    requires AllWithin(starts, i, |s|)
    ensures e in CatEnds(starts, b, s, i) <==> exists m :: m in starts && m <= |s| && e in Ends(b, s, m)
    decreases |starts|
  {
    if |starts| > 0 {
      CatEndsMember(starts[1..], b, s, i, e);
      var first := Ends(b, s, starts[0]);
      assert CatEnds(starts, b, s, i) == first + CatEnds(starts[1..], b, s, i);
      assert starts[0] in starts && starts[0] <= |s|;
      if m :| m in starts && m <= |s| && e in Ends(b, s, m) {
        if m != starts[0] { assert m in starts[1..]; }
      }
    }
  }

  /** An end of `ab` is an end of `b` started from an end of `a`. */
  lemma CatMember(a: Re, b: Re, s: string, i: nat, e: nat)
    requires i <= |s|
    ensures e in Ends(Cat(a, b), s, i) <==> exists m :: m in Ends(a, s, i) && m <= |s| && e in Ends(b, s, m)
  {
    CatEndsMember(Ends(a, s, i), b, s, i, e);
  }

  /** A witness for `CatMember`: the end of `a` that an end of `ab` went through. */
  lemma CatSplit(a: Re, b: Re, s: string, i: nat, e: nat) returns (m: nat)
    requires i <= |s| && e in Ends(Cat(a, b), s, i)
    ensures m in Ends(a, s, i) && m <= |s| && e in Ends(b, s, m)
  {
    CatMember(a, b, s, i, e);
    m :| m in Ends(a, s, i) && m <= |s| && e in Ends(b, s, m);
  }

  /** The other half of `CatMember`: an end of `b` from an end of `a` is an end of `ab`. */
  lemma CatJoin(a: Re, b: Re, s: string, i: nat, m: nat, e: nat)
    requires i <= |s| && m in Ends(a, s, i) && m <= |s| && e in Ends(b, s, m)
    ensures e in Ends(Cat(a, b), s, i)
  {
    CatMember(a, b, s, i, e);
  }

  /** The ends of `ab` begin with those of `b` from the first end of `a`. */
  lemma CatFirst(a: Re, b: Re, s: string, i: nat)
    requires i <= |s| && |Ends(a, s, i)| > 0
    ensures Ends(a, s, i)[0] <= |s|
    ensures Ends(Cat(a, b), s, i) == Ends(b, s, Ends(a, s, i)[0]) + CatEnds(Ends(a, s, i)[1..], b, s, i)
  {
  }

  /** When `a` can end at only one place, `ab` ends where `b` ends from there. */
  lemma CatSingle(a: Re, b: Re, s: string, i: nat, m: nat)
    requires i <= |s| && Ends(a, s, i) == [m]
    ensures m <= |s| && Ends(Cat(a, b), s, i) == Ends(b, s, m)
  {
    assert AllWithin([m], i, |s|) && [m][0] == m;
    assert CatEnds([m], b, s, i) == Ends(b, s, m) + CatEnds([], b, s, i);
  }

  lemma CatNone(a: Re, b: Re, s: string, i: nat)
    requires i <= |s| && Ends(a, s, i) == []
    ensures Ends(Cat(a, b), s, i) == []
  {
  }

  /** The ends of a repetition: every length between the bounds whose
      characters all belong to the class, longest first. */
  lemma RepeatMember(cc: CharClass, lo: nat, hi: Option<nat>, s: string, i: nat, e: nat)
    requires i <= |s|
    ensures e in Ends(Repeat(cc, lo, hi), s, i) <==>
              && i + lo <= e <= |s|
              && (hi.Some? ==> e <= i + hi.value)
              && (forall k :: i <= k < e ==> InClass(cc, s[k]))
  {
    var n := Run(cc, s, i);
    var m := if hi.Some? && hi.value < n then hi.value else n;
    if m >= lo {
      var es := Countdown(i + m, i + lo);
      if i + lo <= e <= i + m {
        assert es[i + m - e] == e;
      }
    }
  }

  /** What an end of a repetition tells about the characters it covered. */
  lemma RepeatEnd(cc: CharClass, lo: nat, hi: Option<nat>, s: string, i: nat, e: nat)
    requires i <= |s| && e in Ends(Repeat(cc, lo, hi), s, i)
    ensures i + lo <= e <= |s|
    ensures hi.Some? ==> e <= i + hi.value
    ensures forall k :: i <= k < e ==> InClass(cc, s[k])
  {
    RepeatMember(cc, lo, hi, s, i, e);
  }

  /** The other half of `RepeatMember`. */
  lemma RepeatHit(cc: CharClass, lo: nat, hi: Option<nat>, s: string, i: nat, e: nat)
    requires i <= |s| && i + lo <= e <= |s|
    requires hi.Some? ==> e <= i + hi.value
    requires forall k :: i <= k < e ==> InClass(cc, s[k])
    ensures e in Ends(Repeat(cc, lo, hi), s, i)
  {
    RepeatMember(cc, lo, hi, s, i, e);
  }

  /** A run of exactly `n` characters of the class, then one outside it (or the end). */
  lemma {:induction false} RunIs(cc: CharClass, s: string, i: nat, n: nat)
    requires i + n <= |s|
    requires forall k :: i <= k < i + n ==> InClass(cc, s[k])
    requires i + n == |s| || !InClass(cc, s[i + n])
    ensures Run(cc, s, i) == n
    decreases n
  {
    if n > 0 {
      RunIs(cc, s, i + 1, n - 1);
    }
  }

  /** An unbounded repetition tries the longest run first. */
  lemma RepeatFirst(cc: CharClass, lo: nat, s: string, i: nat, n: nat)
    requires i + n <= |s| && lo <= n
    requires forall k :: i <= k < i + n ==> InClass(cc, s[k])
    requires i + n == |s| || !InClass(cc, s[i + n])
    ensures |Ends(Repeat(cc, lo, None), s, i)| > 0 && Ends(Repeat(cc, lo, None), s, i)[0] == i + n
  {
    RunIs(cc, s, i, n);
  }

  /** `u` (of the same length) is matched by the text `t` read as a pattern. */
  predicate PatMatches(t: string, u: string) {
    && |u| == |t|
    && forall k :: 0 <= k < |t| ==> (if t[k] == '.' then u[k] != '\n' else u[k] == t[k])
  }

  /** What an end of a text pattern tells. */
  lemma PatEnd(t: string, s: string, i: nat, e: nat)
    requires i <= |s| && e in Ends(Pat(t), s, i)
    ensures e == i + |t| <= |s| && PatMatches(t, s[i..e])
  {
    assert i + |t| <= |s| && PatMatches(t, s[i..i + |t|]);
    assert e in [i + |t|];
  }

  /** A text pattern reaches the end of the text it matches. */
  lemma PatHit(t: string, s: string, i: nat)
    requires i + |t| <= |s| && PatMatches(t, s[i..i + |t|])
    ensures Ends(Pat(t), s, i) == [i + |t|]
  {
  }

  /** Matching a concatenated text is matching each part. */
  lemma PatMatchesConcat(a: string, b: string, u: string)
    requires |u| == |a| + |b|
    ensures PatMatches(a + b, u) <==> PatMatches(a, u[..|a|]) && PatMatches(b, u[|a|..])
  {
    if PatMatches(a, u[..|a|]) && PatMatches(b, u[|a|..]) {
      forall k | 0 <= k < |a + b|
        ensures if (a + b)[k] == '.' then u[k] != '\n' else u[k] == (a + b)[k]
      {
        if k < |a| { assert (a + b)[k] == a[k] && u[k] == u[..|a|][k]; }
        else { assert (a + b)[k] == b[k - |a|] && u[k] == u[|a|..][k - |a|]; }
      }
    }
    if PatMatches(a + b, u) {
      forall k | 0 <= k < |a|
        ensures if a[k] == '.' then u[..|a|][k] != '\n' else u[..|a|][k] == a[k]
      {
        assert (a + b)[k] == a[k];
      }
      forall k | 0 <= k < |b|
        ensures if b[k] == '.' then u[|a|..][k] != '\n' else u[|a|..][k] == b[k]
      {
        assert (a + b)[|a| + k] == b[k];
      }
    }
  }

  /** A stretch of `s` matching a concatenated text matches each part in turn. */
  lemma PatMatchesSplit(a: string, b: string, s: string, i: nat, j: nat, k: nat)
    requires i + |a| == j && j + |b| == k <= |s|
    requires PatMatches(a + b, s[i..k])
    ensures PatMatches(a, s[i..j]) && PatMatches(b, s[j..k])
  {
    PatMatchesConcat(a, b, s[i..k]);
    assert s[i..k][..|a|] == s[i..j];
    assert s[i..k][|a|..] == s[j..k];
  }

  /** A pattern without `.` matches only its own text. */
  lemma PatMatchesLiteral(t: string, u: string)
    requires '.' !in t
    ensures PatMatches(t, u) <==> u == t
  {
    if PatMatches(t, u) {
      assert forall k :: 0 <= k < |t| ==> t[k] != '.';
    }
  }

  /** Python's `$`: the end of the subject, or just before a final newline. */
  predicate AtEnd(s: string, e: nat) {
    e == |s| || (e + 1 == |s| && s[e] == '\n')
  }

  /** Some end of `post` started at `q` is accepted by `$`. */
  predicate TailSucceeds(post: Re, s: string, q: nat)
    requires q <= |s|
  {
    exists e :: e in Ends(post, s, q) && AtEnd(s, e)
  }

  /** `re.match("pre(grp)post$", s)`: the boundaries of group `grp` in the
      first successful match, trying positions in the matcher's order. */
  function MatchGroup(pre: Re, grp: Re, post: Re, s: string): (r: Option<(nat, nat)>)
    ensures r.Some? ==>
              && r.value.0 in Ends(pre, s, 0)
              && r.value.0 <= r.value.1 <= |s|
              && r.value.1 in Ends(grp, s, r.value.0)
              && TailSucceeds(post, s, r.value.1)
    ensures r.None? ==>
              forall p, q :: p in Ends(pre, s, 0) && q in Ends(grp, s, p) && p <= q <= |s|
                ==> !TailSucceeds(post, s, q)
  {
    FirstGroup(Ends(pre, s, 0), grp, post, s)
  }

  /** When the first end of `pre` leads to exactly one end of `grp` that the
      tail accepts, that is the match. */
  lemma MatchGroupAt(pre: Re, grp: Re, post: Re, s: string, p: nat, q: nat)
    requires |Ends(pre, s, 0)| > 0 && Ends(pre, s, 0)[0] == p
    requires q in Ends(grp, s, p) && q <= |s| && TailSucceeds(post, s, q)
    requires forall q' :: q' in Ends(grp, s, p) && q' <= |s| && TailSucceeds(post, s, q') ==> q' == q
    ensures MatchGroup(pre, grp, post, s) == Some((p, q))
  {
    var ps := Ends(pre, s, 0);
    assert p <= |s|;
    var r := FirstEnd(Ends(grp, s, p), p, post, s);
    assert r.Some? && r.value == q;
  }

  function FirstGroup(ps: seq<nat>, grp: Re, post: Re, s: string): (r: Option<(nat, nat)>)
    requires AllWithin(ps, 0, |s|)
    ensures r.Some? ==>
              && r.value.0 in ps
              && r.value.0 <= r.value.1 <= |s|
              && r.value.1 in Ends(grp, s, r.value.0)
              && TailSucceeds(post, s, r.value.1)
    ensures r.None? ==>
              forall p, q :: p in ps && q in Ends(grp, s, p) && p <= q <= |s|
                ==> !TailSucceeds(post, s, q)
    ensures |ps| > 0 && FirstEnd(Ends(grp, s, ps[0]), ps[0], post, s).Some? ==>
              r == Some((ps[0], FirstEnd(Ends(grp, s, ps[0]), ps[0], post, s).value))
  {
    if |ps| == 0 then None
    else
      match FirstEnd(Ends(grp, s, ps[0]), ps[0], post, s)
      case Some(q) => Some((ps[0], q))
      case None =>
        assert forall p :: p in ps ==> p == ps[0] || p in ps[1..];
        FirstGroup(ps[1..], grp, post, s)
  }

  function FirstEnd(qs: seq<nat>, p: nat, post: Re, s: string): (r: Option<nat>)
    requires AllWithin(qs, p, |s|)
    ensures r.Some? ==> r.value in qs && p <= r.value <= |s| && TailSucceeds(post, s, r.value)
    ensures r.None? ==> forall q :: q in qs && q <= |s| ==> !TailSucceeds(post, s, q)
    ensures |qs| > 0 && TailSucceeds(post, s, qs[0]) ==> r == Some(qs[0])
  {
    if |qs| == 0 then None
    else if TailSucceeds(post, s, qs[0]) then Some(qs[0])
    else
      assert forall q :: q in qs ==> q == qs[0] || q in qs[1..];
      FirstEnd(qs[1..], p, post, s)
  }
}

=== FILE: release_keys.dfy ===
/** Release keys of the manifest (`cuda_v<version>[_<pipeline>]`): how each
    part of the manager builds them, how `cuda_version_regex` reads them
    back, and the other small name parsers of the generator — the CI job
    names of `target_all`, the distro keys of `generate_gitlab_pipelines`,
    and the dot-free forms used in YAML and in output paths.

    Each regular expression here has a fixed shape, so it is written out as a
    direct matcher. The runs in these shapes (`[a-zA-Z]*`, `[\d\.]*`, `\w+`)
    are each followed by a character the run cannot contain, so Python's
    backtracking never shortens a greedy run and the matchers take the
    longest run. `$` accepts the end of the text or one final newline. */
module ReleaseKeys {
  import opened Wrappers
  import opened Strings

  const KeyPrefix := "cuda_v"
  const DefaultPipeline := "default"
  const PushReposKey := "push_repos"

  /** A value of an optional command-line switch as Python formats it:
      an absent switch (`None`) prints as `None`. */
  function Fmt(o: Option<string>): string {
    if o.Some? then o.value else "None"
  }

  /** Python truthiness of an optional string. */
  predicate Given(o: Option<string>) {
    o.Some? && o.value != ""
  }

  /** The parts of a release key: the version, and the pipeline name when
      the key carries one. */
  datatype ReleaseKey = ReleaseKey(version: string, pipeline: Option<string>)

  /** `[\d\.]+` */
  predicate ValidVersion(v: string) {
    |v| > 0 && AllVersionChars(v)
  }

  /** `\w+` */
  predicate ValidName(p: string) {
    |p| > 0 && AllWordChars(p)
  }

  predicate ValidKey(r: ReleaseKey) {
    ValidVersion(r.version) && (r.pipeline.Some? ==> ValidName(r.pipeline.value))
  }

  /** `f"_{pipeline}"` (or `-`) when there is a pipeline name, else nothing. */
  function SuffixText(sep: char, p: Option<string>): string {
    if p.Some? then [sep] + p.value else ""
  }

  /** `(?:<sep>(\w+))?` over the whole of `t`. */
  function ParseSuffix(sep: char, t: string): (r: Option<Option<string>>)
    ensures r.Some? ==> t == SuffixText(sep, r.value)
    ensures r.Some? && r.value.Some? ==> ValidName(r.value.value)
  {
    if t == "" then Some(None)
    else if t[0] == sep && ValidName(t[1..]) then
      assert t == [sep] + t[1..];
      Some(Some(t[1..]))
    else None
  }

  lemma ParseSuffixText(sep: char, p: Option<string>)
    requires p.Some? ==> ValidName(p.value)
    ensures ParseSuffix(sep, SuffixText(sep, p)) == Some(p)
  {
    if p.Some? {
      assert SuffixText(sep, p)[1..] == p.value;
    }
  }

  /** `f"cuda_v{version}"`, with `f"_{pipeline}"` when there is one. */
  function KeyText(r: ReleaseKey): string {
    KeyPrefix + (r.version + SuffixText('_', r.pipeline))
  }

  /** The pipeline a parsed key belongs to: a missing suffix is the
      `default` pipeline (manager.py:1106-1107). */
  function PipelineOf(r: ReleaseKey): string {
    if r.pipeline.Some? then r.pipeline.value else DefaultPipeline
  }

  /** `cuda_v([\d\.]+)(?:_(\w+))?` over the whole of `b`. */
  function ParseKeyBody(b: string): (r: Option<ReleaseKey>)
    ensures r.Some? ==> ValidKey(r.value) && b == KeyText(r.value)
  {
    if !StartsWith(b, KeyPrefix) then None
    else
      assert b == KeyPrefix + b[|KeyPrefix|..];
      var (v, t) := SpanVersion(b[|KeyPrefix|..]);
      if v == "" then None
      else
        match ParseSuffix('_', t)
        case None => None
        case Some(p) => Some(ReleaseKey(v, p))
  }

  /** `cuda_version_regex.match(key)` with `cuda_v([\d\.]+)(?:_(\w+))?$`. No
      part of the pattern matches a newline, so `$` leaves room for exactly
      one final newline after the key. */
  function ParseReleaseKey(k: string): (r: Option<ReleaseKey>)
    ensures r.Some? ==> ValidKey(r.value) && DropFinalNewline(k) == KeyText(r.value)
  {
    ParseKeyBody(DropFinalNewline(k))
  }

  /** Every well-formed key reads back as the parts it was built from. */
  lemma ParseKeyText(r: ReleaseKey)
    requires ValidKey(r)
    ensures ParseKeyBody(KeyText(r)) == Some(r)
    ensures ParseReleaseKey(KeyText(r)) == Some(r)
  {
    var k := KeyText(r);
    var t := SuffixText('_', r.pipeline);
    assert k[..|KeyPrefix|] == KeyPrefix && k[|KeyPrefix|..] == r.version + t;
    SpanVersionOf(r.version, t);
    ParseSuffixText('_', r.pipeline);
    KeyTextLast(r);
  }

  /** A well-formed key does not end in a newline. */
  lemma KeyTextLast(r: ReleaseKey)
    requires ValidKey(r)
    ensures var k := KeyText(r); |k| > 0 && k[|k| - 1] != '\n'
  {
    var k := KeyText(r);
    if r.pipeline.Some? {
      assert k[|k| - 1] == r.pipeline.value[|r.pipeline.value| - 1];
    } else {
      assert k[|k| - 1] == r.version[|r.version| - 1];
    }
  }

  /** A trailing newline, as a key read from a line of text keeps it, does
      not change the parse. */
  lemma ParseKeyTextLine(r: ReleaseKey)
    requires ValidKey(r)
    ensures ParseReleaseKey(KeyText(r) + "\n") == Some(r)
  {
    DropAddedNewline(KeyText(r));
    ParseKeyText(r);
  }

  /** The candidate-property form: a version and a pipeline name read back
      from the key built from them, with no suffix read as `default`. */
  lemma ReleaseKeyRoundTrip(v: string, p: string)
    requires ValidVersion(v) && ValidName(p)
    ensures var r := ParseReleaseKey(TriggerKey(v, p));
            r.Some? && r.value.version == v && PipelineOf(r.value) == p
  {
    ParseKeyText(ReleaseKey(v, if p != DefaultPipeline then Some(p) else None));
  }

  /** Top-level manifest entries that are not releases do not parse. */
  lemma PushReposIsNotRelease()
    ensures ParseReleaseKey(PushReposKey) == None
  {
    assert DropFinalNewline(PushReposKey) == PushReposKey;
    assert PushReposKey[0] != KeyPrefix[0];
  }

  // ---------------------------------------------------------------------
  // The places that build a release key

  /** `self.key` in `populate_triggers` (manager.py:365-367): the suffix is
      added for every name but `default`, the empty name included. */
  function TriggerKey(version: string, pipelineName: string): (k: string)
    ensures StartsWith(k, KeyPrefix + version)
    ensures pipelineName == DefaultPipeline ==> |k| == |KeyPrefix| + |version|
    ensures pipelineName != DefaultPipeline ==> |k| == |KeyPrefix| + |version| + 1 + |pipelineName|
    ensures k == KeyPrefix + version + (if pipelineName != DefaultPipeline then "_" + pipelineName else "")
  {
    KeyText(ReleaseKey(version, if pipelineName != DefaultPipeline then Some(pipelineName) else None))
  }

  /** `self.key` in `ManagerContainerPush.main` (manager.py:705-707): the
      suffix is added whenever a pipeline name is given, `default` included. */
  function PushKey(cudaVersion: Option<string>, pipelineName: Option<string>): (k: string)
    ensures StartsWith(k, KeyPrefix + Fmt(cudaVersion))
    ensures Given(pipelineName) <==> |k| > |KeyPrefix| + |Fmt(cudaVersion)|
    ensures k == KeyPrefix + Fmt(cudaVersion) + (if Given(pipelineName) then "_" + pipelineName.value else "")
  {
    KeyText(ReleaseKey(Fmt(cudaVersion), if Given(pipelineName) then pipelineName else None))
  }

  /** `key` in `generate_gitlab_pipelines` (manager.py:1118-1120): the suffix
      is added for a non-empty name other than `default`. */
  function PipelineKey(version: string, pipelineName: string): (k: string)
    ensures StartsWith(k, KeyPrefix + version)
    ensures pipelineName == "" || pipelineName == DefaultPipeline <==> |k| == |KeyPrefix| + |version|
  {
    KeyText(ReleaseKey(version, if pipelineName != "" && pipelineName != DefaultPipeline then Some(pipelineName) else None))
  }

  /** Rebuilding a manifest key from its parse gives the key back, unless
      the key spells out `_default`. */
  lemma PipelineKeyRebuilds(k: string)
    requires ParseReleaseKey(k).Some? && (|k| == 0 || k[|k| - 1] != '\n')
    requires ParseReleaseKey(k).value.pipeline != Some(DefaultPipeline)
    ensures var r := ParseReleaseKey(k).value; PipelineKey(r.version, PipelineOf(r)) == k
  {
    assert DropFinalNewline(k) == k;
  }

  /** A manifest key that spells out `_default` parses, but is rebuilt
      without the suffix, so the rebuilt key names a different manifest
      entry. */
  lemma PipelineKeyDropsDefault(v: string)
    requires ValidVersion(v)
    ensures var k := KeyText(ReleaseKey(v, Some(DefaultPipeline)));
            && ParseReleaseKey(k) == Some(ReleaseKey(v, Some(DefaultPipeline)))
            && PipelineKey(v, DefaultPipeline) != k
  {
    ParseKeyText(ReleaseKey(v, Some(DefaultPipeline)));
  }

  /** The push and pipeline builders disagree on the `default` name. */
  lemma PushKeyKeepsDefault(v: string)
    ensures PushKey(Some(v), Some(DefaultPipeline)) != PipelineKey(v, DefaultPipeline)
  {
  }

  /** `self.key` in `target_all` (manager.py:1460-1465). The job-name parse
      yields either no pipeline name or a non-empty one. */
  function TargetAllKey(releaseLabel: Option<string>, cudaVersion: string, pipelineName: Option<string>): (k: string)
    ensures Given(pipelineName) && ValidVersion(cudaVersion) && ValidName(pipelineName.value) ==>
              ParseReleaseKey(k) == Some(ReleaseKey(cudaVersion, pipelineName))
    ensures !Given(pipelineName) && !Given(releaseLabel) && cudaVersion != "" ==> k == KeyPrefix + cudaVersion
    ensures !Given(pipelineName) && Given(releaseLabel) ==> k == KeyPrefix + releaseLabel.value
  {
    if Given(pipelineName) then
      var r := ReleaseKey(cudaVersion, pipelineName);
      if ValidVersion(cudaVersion) && ValidName(pipelineName.value) then ParseKeyText(r); KeyText(r)
      else KeyText(r)
    else if !Given(releaseLabel) && cudaVersion != "" then KeyText(ReleaseKey(cudaVersion, None))
    else KeyText(ReleaseKey(Fmt(releaseLabel), None))
  }

  /** `self.key` in `targeted` as written (manager.py:1542-1547): with a
      pipeline name other than `default`, the suffix goes on the release
      label even when there is none, so the version chosen just before is
      dropped. */
  function TargetedKeyAsWritten(releaseLabel: Option<string>, cudaVersion: Option<string>, pipelineName: Option<string>): (k: string)
    ensures Given(pipelineName) && pipelineName.value != DefaultPipeline ==>
              StartsWith(k, KeyPrefix + Fmt(releaseLabel))
  {
    if Given(pipelineName) && pipelineName.value != DefaultPipeline then
      KeyText(ReleaseKey(Fmt(releaseLabel), pipelineName))
    else if !Given(releaseLabel) && Given(cudaVersion) then KeyText(ReleaseKey(cudaVersion.value, None))
    else KeyText(ReleaseKey(Fmt(releaseLabel), None))
  }

  /** `target_all` calls `targeted` without a release label for a named
      pipeline: the key it looks up then starts `cuda_vNone_`, not the key
      `target_all` built for the same job. */
  lemma TargetedKeyLosesVersion(v: string, name: string)
    requires ValidVersion(v) && ValidName(name) && name != DefaultPipeline
    ensures TargetedKeyAsWritten(None, Some(v), Some(name)) == KeyPrefix + ("None" + ("_" + name))
    ensures TargetedKeyAsWritten(None, Some(v), Some(name)) != TargetAllKey(None, v, Some(name))
  {
    WrittenKeyText(v, name);
    BuiltKeyText(v, name);
    var tail := "_" + name;
    var written := KeyPrefix + ("None" + tail);
    var built := KeyPrefix + (v + tail);
    assert written[|KeyPrefix|] == 'N';
    assert built[|KeyPrefix|] == v[0] && IsVersionChar(v[0]);
  }

  lemma WrittenKeyText(v: string, name: string)
    requires name != "" && name != DefaultPipeline
    ensures TargetedKeyAsWritten(None, Some(v), Some(name)) == KeyPrefix + ("None" + ("_" + name))
  {
    assert SuffixText('_', Some(name)) == "_" + name;
  }

  lemma BuiltKeyText(v: string, name: string)
    requires name != ""
    ensures TargetAllKey(None, v, Some(name)) == KeyPrefix + (v + ("_" + name))
  {
    assert SuffixText('_', Some(name)) == "_" + name;
  }

  /** The version the key of `targeted` is meant to carry: the release label
      when there is one, otherwise the CUDA version. */
  function KeyVersion(releaseLabel: Option<string>, cudaVersion: Option<string>): string {
    if !Given(releaseLabel) && Given(cudaVersion) then cudaVersion.value else Fmt(releaseLabel)
  }

  /** `self.key` in `targeted` with the suffix on the version actually
      chosen. */
  function TargetedKey(releaseLabel: Option<string>, cudaVersion: Option<string>, pipelineName: Option<string>): (k: string)
    ensures Given(pipelineName) && pipelineName.value != DefaultPipeline ==>
              k == KeyText(ReleaseKey(KeyVersion(releaseLabel, cudaVersion), pipelineName))
    ensures !(Given(pipelineName) && pipelineName.value != DefaultPipeline) ==>
              k == TargetedKeyAsWritten(releaseLabel, cudaVersion, pipelineName)
  {
    var base := KeyVersion(releaseLabel, cudaVersion);
    if Given(pipelineName) && pipelineName.value != DefaultPipeline then KeyText(ReleaseKey(base, pipelineName))
    else KeyText(ReleaseKey(base, None))
  }

  /** The corrected key agrees with the key `target_all` built for every
      job it hands over without a release label, and with the key as
      written whenever a release label is given. */
  lemma TargetedKeyAgrees(rl: Option<string>, v: string, name: Option<string>)
    ensures !Given(rl) && v != "" && (name.Some? ==> name.value != DefaultPipeline) ==>
              TargetedKey(rl, Some(v), name) == TargetAllKey(rl, v, name)
    ensures Given(rl) ==> TargetedKey(rl, Some(v), name) == TargetedKeyAsWritten(rl, Some(v), name)
  {
  }

  // ---------------------------------------------------------------------
  // CI job names (target_all)

  /** The parts of a CI job name `<distro><distro_version>-v<cuda_version>[-<pipeline>]`. */
  datatype Job = Job(distro: string, distroVersion: string, cudaVersion: string, pipeline: Option<string>)

  const CudnnWord := "cudnn"
  const TestWord := "test"
  const ScanWord := "scan"
  const DeployWord := "deploy"
  const VersionMark := "-v"

  /** `(?!cudnn|test|scan|deploy)`: a pipeline name may not start with these. */
  predicate Excluded(w: string) {
    StartsWith(w, CudnnWord) || StartsWith(w, TestWord) || StartsWith(w, ScanWord) || StartsWith(w, DeployWord)
  }

  predicate ValidJob(j: Job) {
    && AllAlpha(j.distro)
    && AllVersionChars(j.distroVersion)
    && AllVersionChars(j.cudaVersion)
    && (j.pipeline.Some? ==> ValidName(j.pipeline.value) && !Excluded(j.pipeline.value))
  }

  function JobText(j: Job): string {
    j.distro + (j.distroVersion + (VersionMark + (j.cudaVersion + SuffixText('-', j.pipeline))))
  }

  /** `([a-zA-Z]*)([\d\.]*)-v([\d\.]*)(?:-(?!cudnn|test|scan|deploy)(\w+))?`
      over the whole of `b`. When the look-ahead refuses the name, the
      optional group is skipped and the text left over fails the match. */
  function ParseJobBody(b: string): (r: Option<Job>)
    ensures r.Some? ==> ValidJob(r.value) && b == JobText(r.value)
  {
    var (d, rest) := SpanAlpha(b);
    var (dv, u) := SpanVersion(rest);
    if !StartsWith(u, VersionMark) then None
    else
      assert u == VersionMark + u[2..];
      var (cv, t) := SpanVersion(u[2..]);
      match ParseSuffix('-', t)
      case None => None
      case Some(p) => if p.Some? && Excluded(p.value) then None else Some(Job(d, dv, cv, p))
  }

  /** `rgx.match(ci_job)` in `target_all`; as for release keys, `$` leaves
      room for one final newline. */
  function ParseJobName(s: string): (r: Option<Job>)
    ensures r.Some? ==> ValidJob(r.value) && DropFinalNewline(s) == JobText(r.value)
  {
    ParseJobBody(DropFinalNewline(s))
  }

  /** Every well-formed job name reads back as its parts. */
  lemma ParseJobText(j: Job)
    requires ValidJob(j)
    ensures ParseJobBody(JobText(j)) == Some(j)
  {
    var t := SuffixText('-', j.pipeline);
    var w := j.cudaVersion + t;
    var u := VersionMark + w;
    var rest := j.distroVersion + u;
    assert u[0] == '-';
    assert rest[0] == (if |j.distroVersion| > 0 then j.distroVersion[0] else '-');
    SpanAlphaOf(j.distro, rest);
    SpanVersionOf(j.distroVersion, u);
    assert StartsWith(u, VersionMark) && u[2..] == w;
    SpanVersionOf(j.cudaVersion, t);
    ParseSuffixText('-', j.pipeline);
  }

  /** The same through `$`, with or without a final newline. */
  lemma ParseJobNameText(j: Job)
    requires ValidJob(j)
    ensures ParseJobName(JobText(j)) == Some(j)
    ensures ParseJobName(JobText(j) + "\n") == Some(j)
  {
    var s := JobText(j);
    var t := SuffixText('-', j.pipeline);
    var w := j.cudaVersion + t;
    var u := VersionMark + w;
    assert s[|s| - 1] == u[|u| - 1];
    if |t| > 0 {
      assert u[|u| - 1] == j.pipeline.value[|j.pipeline.value| - 1];
    } else if |w| > 0 {
      assert u[|u| - 1] == j.cudaVersion[|j.cudaVersion| - 1];
    } else {
      assert u[|u| - 1] == 'v';
    }
    assert DropFinalNewline(s) == s;
    DropAddedNewline(s);
    ParseJobText(j);
  }

  /** `self.cuda_version.count(".") > 1`: a full `major.minor.patch` version
      marks the job's version as a release label. */
  predicate IsReleaseLabel(cudaVersion: string) {
    Count(cudaVersion, '.') > 1
  }

  /** What `target_all` hands to `targeted` for one matching job. */
  datatype Target = Target(job: Job, releaseLabel: bool, key: string)

  /** What one job name contributes: nothing unless it matches. */
  function TargetOf(jobName: string, releaseLabel: Option<string>): Option<Target> {
    match ParseJobName(jobName)
    case None => None
    case Some(j) => Some(Target(j, IsReleaseLabel(j.cudaVersion), TargetAllKey(releaseLabel, j.cudaVersion, j.pipeline)))
  }

  /** The loop of `target_all` over the CI job names (manager.py:1444-1482):
      jobs that do not match are skipped; each match sets the distro, the
      versions and the pipeline name afresh, so nothing carries over between
      jobs. */
  function TargetAll(jobNames: seq<string>, releaseLabel: Option<string>): (ts: seq<Target>)
    ensures |ts| <= |jobNames|
    ensures forall t :: t in ts <==> exists i :: 0 <= i < |jobNames| && TargetOf(jobNames[i], releaseLabel) == Some(t)
  {
    var xs := TargetOptions(jobNames, releaseLabel);
    Collect(xs)
  }

  /** The job names' option list that `TargetAll` collects. */
  function TargetOptions(jobNames: seq<string>, releaseLabel: Option<string>): (xs: seq<Option<Target>>)
    ensures |xs| == |jobNames| && forall i :: 0 <= i < |jobNames| ==> xs[i] == TargetOf(jobNames[i], releaseLabel)
  {
    seq(|jobNames|, i requires 0 <= i < |jobNames| => TargetOf(jobNames[i], releaseLabel))
  }

  /** `targeted()` runs job by job: the targets of a longer job list are
      those of its first part followed by those of the rest. */
  lemma TargetAllInOrder(a: seq<string>, b: seq<string>, releaseLabel: Option<string>)
    ensures TargetAll(a + b, releaseLabel) == TargetAll(a, releaseLabel) + TargetAll(b, releaseLabel)
  {
    var xs := TargetOptions(a + b, releaseLabel);
    assert xs == TargetOptions(a, releaseLabel) + TargetOptions(b, releaseLabel);
    assert TargetAll(a + b, releaseLabel) == Collect(xs);
    assert TargetAll(a, releaseLabel) == Collect(TargetOptions(a, releaseLabel));
    assert TargetAll(b, releaseLabel) == Collect(TargetOptions(b, releaseLabel));
    CollectConcat(TargetOptions(a, releaseLabel), TargetOptions(b, releaseLabel));
  }

  /** One job name gives its target when it matches, and nothing otherwise. */
  lemma TargetAllOne(jobName: string, releaseLabel: Option<string>)
    ensures var t := TargetOf(jobName, releaseLabel);
            TargetAll([jobName], releaseLabel) == if t.Some? then [t.value] else []
  {
    var xs := TargetOptions([jobName], releaseLabel);
    assert TargetAll([jobName], releaseLabel) == Collect(xs);
    assert xs == [TargetOf(jobName, releaseLabel)];
    CollectOne(TargetOf(jobName, releaseLabel));
  }

  /** Every target comes from a job name that is the text of its parts, and
      is flagged as a release label exactly when its version has two dots or
      more; every matching job name yields a target. */
  lemma TargetAllJobs(jobNames: seq<string>, releaseLabel: Option<string>)
    ensures forall t :: t in TargetAll(jobNames, releaseLabel) ==>
              && ValidJob(t.job)
              && (t.releaseLabel <==> Count(t.job.cudaVersion, '.') >= 2)
              && JobText(t.job) in Map(jobNames, DropFinalNewline)
    ensures forall i :: 0 <= i < |jobNames| && ParseJobName(jobNames[i]).Some? ==>
              exists t :: t in TargetAll(jobNames, releaseLabel) && t.job == ParseJobName(jobNames[i]).value
  {
    TargetAllSound(jobNames, releaseLabel);
    TargetAllComplete(jobNames, releaseLabel);
  }

  /** Every target comes from a job name that is the text of its parts. */
  lemma TargetAllSound(jobNames: seq<string>, releaseLabel: Option<string>)
    ensures forall t :: t in TargetAll(jobNames, releaseLabel) ==>
              ValidJob(t.job) && JobText(t.job) in Map(jobNames, DropFinalNewline)
  {
    var ts := TargetAll(jobNames, releaseLabel);
    forall t | t in ts
      ensures ValidJob(t.job) && JobText(t.job) in Map(jobNames, DropFinalNewline)
    {
      var i :| 0 <= i < |jobNames| && TargetOf(jobNames[i], releaseLabel) == Some(t);
      assert Map(jobNames, DropFinalNewline)[i] == DropFinalNewline(jobNames[i]);
    }
  }

  /** Every matching job name yields a target. */
  lemma TargetAllComplete(jobNames: seq<string>, releaseLabel: Option<string>)
    ensures forall i :: 0 <= i < |jobNames| && ParseJobName(jobNames[i]).Some? ==>
              exists t :: t in TargetAll(jobNames, releaseLabel) && t.job == ParseJobName(jobNames[i]).value
  {
    var ts := TargetAll(jobNames, releaseLabel);
    forall i | 0 <= i < |jobNames| && ParseJobName(jobNames[i]).Some?
      ensures exists t :: t in ts && t.job == ParseJobName(jobNames[i]).value
    {
      assert TargetOf(jobNames[i], releaseLabel).Some?;
      assert TargetOf(jobNames[i], releaseLabel).value in ts;
    }
  }

  /** `[f(x) for x in xs]` */
  function Map<A, B>(xs: seq<A>, f: A -> B): (ys: seq<B>)
    ensures |ys| == |xs| && forall i :: 0 <= i < |xs| ==> ys[i] == f(xs[i])
  {
    seq(|xs|, i requires 0 <= i < |xs| => f(xs[i]))
  }

  /** A job name that would select a pipeline named after a test stage does
      not match at all. */
  lemma TestStageJobSkipped(distro: string, dv: string, v: string, stage: string)
    requires StartsWith(stage, TestWord)
    ensures ParseJobName(distro + dv + VersionMark + v + "-" + stage) != Some(Job(distro, dv, v, Some(stage)))
  {
  }

  // ---------------------------------------------------------------------
  // Distro keys and dot-free names

  /** `dmrgx.match(distro)` with `([a-zA-Z]+)([\d\.]+)$`: the distro name and
      its version. */
  function SplitDistroKey(k: string): (r: Option<(string, string)>)
    ensures r.Some? ==> |r.value.0| > 0 && AllAlpha(r.value.0) && ValidVersion(r.value.1)
    ensures r.Some? ==> DropFinalNewline(k) == r.value.0 + r.value.1
  {
    var (name, rest) := SpanAlpha(DropFinalNewline(k));
    var (version, left) := SpanVersion(rest);
    if name == "" || version == "" || left != "" then None
    else
      assert rest == version;
      Some((name, version))
  }

  lemma SplitDistroKeyJoin(name: string, version: string)
    requires |name| > 0 && AllAlpha(name) && ValidVersion(version)
    ensures SplitDistroKey(name + version) == Some((name, version))
  {
    var k := name + version;
    assert k[|k| - 1] == version[|version| - 1];
    assert DropFinalNewline(k) == k;
    SpanAlphaOf(name, version);
    SpanVersionOf(version, "");
    assert version + "" == version;
  }

  /** `s.replace(".", "_")`, the `yaml_safe` form of a version or distro. */
  function YamlSafe(s: string): (r: string)
    ensures |r| == |s| && '.' !in r
    ensures forall i :: 0 <= i < |s| && s[i] != '.' ==> r[i] == s[i]
    ensures forall i :: 0 <= i < |s| && s[i] == '.' ==> r[i] == '_'
  {
    ReplaceChar(s, '.', '_')
  }

  /** Versions and distro keys hold no underscore, so no two of them share a
      `yaml_safe` form. */
  lemma YamlSafeInjective(a: string, b: string)
    requires '_' !in a && '_' !in b
    requires YamlSafe(a) == YamlSafe(b)
    ensures a == b
  {
    assert |a| == |b|;
    forall i | 0 <= i < |a| ensures a[i] == b[i] {
      assert YamlSafe(a)[i] == YamlSafe(b)[i];
    }
  }

  /** `f"{dist_base_path}/{target.replace('.', '')}"` of `set_output_path`
      (manager.py:1431-1434). */
  function OutputPath(base: string, target: string): (p: string)
    ensures StartsWith(p, base + "/")
    ensures '.' !in p[|base| + 1..]
    ensures IsSubsequence(p[|base| + 1..], target)
    ensures |p| == |base| + 1 + |target| - Count(target, '.')
  {
    var r := base + "/" + RemoveChar(target, '.');
    assert r[|base| + 1..] == RemoveChar(target, '.');
    RemoveCharKeeps(target, '.');
    r
  }

  /** The output directory is the only one the contract admits: a dot-free
      subsequence of the target that is as long as the target without its
      dots is the target with its dots removed. */
  lemma OutputPathUnique(base: string, target: string, q: string)
    requires StartsWith(q, base + "/") && '.' !in q[|base| + 1..]
    requires IsSubsequence(q[|base| + 1..], target)
    requires |q| == |base| + 1 + |target| - Count(target, '.')
    ensures q == OutputPath(base, target)
  {
    var tail := q[|base| + 1..];
    DotFreeSubsequenceIsRemoval(tail, target);
    assert q == q[..|base| + 1] + tail;
    assert q[..|base| + 1] == base + "/";
  }

  /** `s.replace(c, "")` keeps the other characters in order. */
  lemma {:induction false} RemoveCharKeeps(s: string, c: char)
    ensures IsSubsequence(RemoveChar(s, c), s)
  {
    if |s| > 0 {
      RemoveCharKeeps(s[1..], c);
      var rest := RemoveChar(s[1..], c);
      if s[0] == c {
        assert RemoveChar(s, c) == rest;
        SubsequenceSkip(rest, s);
      } else {
        assert RemoveChar(s, c) == [s[0]] + rest;
        assert ([s[0]] + rest)[1..] == rest;
      }
    }
  }

  /** A dot-free subsequence of `s` is at most as long as `s` without its
      dots. */
  lemma {:induction false} DotFreeSubsequenceBound(a: string, s: string)
    requires '.' !in a && IsSubsequence(a, s)
    ensures |a| <= |s| - Count(s, '.')
    decreases |s|
  {
    if |a| > 0 {
      assert |s| > 0;
      if a[0] == s[0] {
        assert a[0] in a;
        DotFreeSubsequenceBound(a[1..], s[1..]);
      } else {
        DotFreeSubsequenceBound(a, s[1..]);
      }
    }
  }

  lemma {:induction false} DotFreeSubsequenceIsRemoval(a: string, s: string)
    requires '.' !in a && IsSubsequence(a, s)
    requires |a| == |s| - Count(s, '.')
    ensures a == RemoveChar(s, '.')
    decreases |s|
  {
    if |s| == 0 {
    } else if s[0] == '.' {
      if |a| > 0 {
        assert a[0] in a;
        DotFreeSubsequenceIsRemoval(a, s[1..]);
      }
    } else if a[0] == s[0] {
      assert forall c :: c in a[1..] ==> c in a;
      DotFreeSubsequenceIsRemoval(a[1..], s[1..]);
      assert a == [a[0]] + a[1..];
    } else {
      DotFreeSubsequenceBound(a, s[1..]);
      assert false;
    }
  }

  /** Removing the dots loses information: `ubuntu20.04` and `ubuntu2004`
      share an output directory. */
  lemma OutputPathCollides(base: string, name: string, major: string, minor: string)
    requires '.' !in name && '.' !in major && '.' !in minor
    ensures OutputPath(base, name + major + "." + minor) == OutputPath(base, name + major + minor)
  {
    RemoveDotJoin(name + major, minor);
  }

  lemma RemoveDotJoin(a: string, b: string)
    requires '.' !in a && '.' !in b
    ensures RemoveChar(a + "." + b, '.') == a + b
  {
    var db := "." + b;
    assert RemoveChar(db, '.') == b by {
      assert db[0] == '.' && db[1..] == b;
    }
    assert a + "." + b == a + db;
    RemoveCharConcat(a, db, '.');
  }

  lemma {:induction false} RemoveCharConcat(a: string, b: string, c: char)
    ensures RemoveChar(a + b, c) == RemoveChar(a, c) + RemoveChar(b, c)
    decreases |a|
  {
    if |a| == 0 {
      assert a + b == b;
    } else {
      assert (a + b)[0] == a[0] && (a + b)[1..] == a[1..] + b;
      RemoveCharConcat(a[1..], b, c);
    }
  }
}

=== FILE: string_order.dfy ===
/** Python's ordering of `str` values (code point by code point, a proper
    prefix first) and the `sorted(...)` results built on it. */
module StringOrder {

  /** `a < b` on Python strings. */
  predicate Less(a: string, b: string)
    decreases |a|
  {
    if |a| == 0 then |b| > 0
    else if |b| == 0 then false
    else if a[0] != b[0] then a[0] < b[0]
    else Less(a[1..], b[1..])
  }

  lemma LessIrreflexive(a: string)
    ensures !Less(a, a)
  {
  }

  lemma LessAsymmetric(a: string, b: string)
    ensures !(Less(a, b) && Less(b, a))
  {
  }

  lemma LessTransitive(a: string, b: string, c: string)
    requires Less(a, b) && Less(b, c)
    ensures Less(a, c)
  {
  }

  lemma LessTotal(a: string, b: string)
    ensures a == b || Less(a, b) || Less(b, a)
  {
    if |a| > 0 && |b| > 0 && a[0] == b[0] {
      LessTotal(a[1..], b[1..]);
      if a[1..] == b[1..] {
        assert a == [a[0]] + a[1..] && b == [b[0]] + b[1..];
      }
    }
  }

  predicate StrictlyIncreasing(s: seq<string>) {
    forall i, j :: 0 <= i < j < |s| ==> Less(s[i], s[j])
  }

  predicate NonDecreasing(s: seq<string>) {
    forall i, j :: 0 <= i < j < |s| ==> !Less(s[j], s[i])
  }

  predicate NonIncreasing(s: seq<string>) {
    forall i, j :: 0 <= i < j < |s| ==> !Less(s[i], s[j])
  }

  predicate NoDuplicates<T(==)>(s: seq<T>) {
    forall i, j :: 0 <= i < j < |s| ==> s[i] != s[j]
  }

  lemma StrictlyIncreasingHasNoDuplicates(s: seq<string>)
    requires StrictlyIncreasing(s)
    ensures NoDuplicates(s)
  {
    forall i, j | 0 <= i < j < |s| ensures s[i] != s[j] {
      LessIrreflexive(s[i]);
    }
  }

  /** Adds `x` to a strictly increasing list, keeping it strictly increasing. */
  function InsertUnique(s: seq<string>, x: string): (r: seq<string>)
    requires StrictlyIncreasing(s)
    ensures StrictlyIncreasing(r)
    ensures forall y :: y in r <==> y in s || y == x
  {
    if |s| == 0 then [x]
    else if x == s[0] then s
    else if Less(x, s[0]) then
      forall j | 0 <= j < |s| ensures Less(x, s[j]) {
        if j > 0 { LessTransitive(x, s[0], s[j]); }
      }
      [x] + s
    else
      LessTotal(x, s[0]);
      var tail := InsertUnique(s[1..], x);
      forall y | y in tail ensures Less(s[0], y) {
        if y != x {
          var j :| 0 <= j < |s[1..]| && s[1..][j] == y;
          assert s[j + 1] == y;
        }
      }
      [s[0]] + tail
  }

  /** `sorted(set(xs))`: the distinct elements of `xs`, strictly increasing. */
  function SortedSet(xs: seq<string>): (r: seq<string>)
    ensures StrictlyIncreasing(r)
    ensures forall y :: y in r <==> y in xs
  {
    if |xs| == 0 then []
    else
      var r := InsertUnique(SortedSet(xs[..|xs| - 1]), xs[|xs| - 1]);
      assert xs == xs[..|xs| - 1] + [xs[|xs| - 1]];
      r
  }

  /** A strictly increasing list is fixed by its elements: any two with the
      same elements are the same list. */
  lemma {:induction false} StrictlyIncreasingUnique(a: seq<string>, b: seq<string>)
    requires StrictlyIncreasing(a) && StrictlyIncreasing(b)
    requires forall y :: y in a <==> y in b
    ensures a == b
    decreases |a|
  {
    if |a| > 0 { assert a[0] in b; }
    if |b| > 0 { assert b[0] in a; }
    if |a| == 0 || |b| == 0 {
    } else {
      // the heads are the least elements of the same set
      assert b[0] in a;
      assert a[0] in b;
      var i :| 0 <= i < |a| && a[i] == b[0];
      var j :| 0 <= j < |b| && b[j] == a[0];
      if a[0] != b[0] {
        assert i > 0 && j > 0;
        assert Less(a[0], a[i]);
        assert Less(b[0], b[j]);
        LessAsymmetric(a[0], b[0]);
      }
      forall y ensures y in a[1..] <==> y in b[1..] {
        if y in a[1..] {
          var k :| 1 <= k < |a| && a[k] == y;
          LessIrreflexive(a[0]);
          assert y != a[0];
          assert y in b;
          var m :| 0 <= m < |b| && b[m] == y;
          assert m != 0;
          assert b[m] in b[1..];
        }
        if y in b[1..] {
          var k :| 1 <= k < |b| && b[k] == y;
          LessIrreflexive(b[0]);
          assert y != b[0];
          assert y in a;
          var m :| 0 <= m < |a| && a[m] == y;
          assert m != 0;
          assert a[m] in a[1..];
        }
      }
      StrictlyIncreasingUnique(a[1..], b[1..]);
      assert a == [a[0]] + a[1..] && b == [b[0]] + b[1..];
    }
  }

  /** Inserts `x` into a non-decreasing list after every element not greater than it. */
  function Insert(s: seq<string>, x: string): (r: seq<string>)
    requires NonDecreasing(s)
    ensures NonDecreasing(r)
    ensures multiset(r) == multiset(s) + multiset{x}
    decreases |s|, 1
  {
    if |s| == 0 then [x]
    else if Less(x, s[0]) then
      forall j | 0 <= j < |s| ensures !Less(s[j], x) {
        if j > 0 {
          if Less(s[j], x) { LessTransitive(s[j], x, s[0]); }
        } else {
          LessAsymmetric(x, s[0]);
        }
      }
      [x] + s
    else
      var tail := InsertAfterHead(s, x);
      assert s == [s[0]] + s[1..];
      [s[0]] + tail
  }

  function InsertAfterHead(s: seq<string>, x: string): (tail: seq<string>)
    requires NonDecreasing(s) && |s| > 0 && !Less(x, s[0])
    ensures NonDecreasing(tail) && multiset(tail) == multiset(s[1..]) + multiset{x}
    ensures forall y :: y in tail ==> !Less(y, s[0])
    decreases |s|, 0
  {
    var tail := Insert(s[1..], x);
    forall y | y in tail ensures !Less(y, s[0]) {
      assert y in multiset(tail);
      if y != x {
        assert y in multiset(s[1..]);
        var j :| 0 <= j < |s[1..]| && s[1..][j] == y;
        assert s[j + 1] == y;
      }
    }
    tail
  }

  /** `sorted(xs)`: the same strings, in non-decreasing order. */
  function Sort(xs: seq<string>): (r: seq<string>)
    ensures NonDecreasing(r)
    ensures multiset(r) == multiset(xs)
  {
    if |xs| == 0 then []
    else
      assert xs == xs[..|xs| - 1] + [xs[|xs| - 1]];
      Insert(Sort(xs[..|xs| - 1]), xs[|xs| - 1])
  }

  function Reverse<T>(s: seq<T>): (r: seq<T>)
    ensures |r| == |s|
    ensures forall i :: 0 <= i < |s| ==> r[i] == s[|s| - 1 - i]
  {
    if |s| == 0 then [] else Reverse(s[1..]) + [s[0]]
  }

  /** `sorted(xs, reverse=True)` */
  function SortDescending(xs: seq<string>): (r: seq<string>)
    ensures NonIncreasing(r)
    ensures multiset(r) == multiset(xs)
  {
    var up := Sort(xs);
    var r := Reverse(up);
    assert forall i :: 0 <= i < |r| ==> r[i] == up[|up| - 1 - i];
    assert r == Reverse(up);
    ReverseMultiset(up);
    r
  }

  /** `sorted(set(xs), reverse=True)`: the distinct elements of `xs`,
      strictly decreasing. */
  function SortedSetDescending(xs: seq<string>): (r: seq<string>)
    ensures forall i, j :: 0 <= i < j < |r| ==> Less(r[j], r[i])
    ensures forall y :: y in r <==> y in xs
  {
    var up := SortedSet(xs);
    var r := Reverse(up);
    assert forall i :: 0 <= i < |r| ==> r[i] == up[|up| - 1 - i];
    forall y | y in up ensures y in r {
      var k :| 0 <= k < |up| && up[k] == y;
      assert r[|up| - 1 - k] == y;
    }
    r
  }

  lemma ReverseMultiset<T>(s: seq<T>)
    ensures multiset(Reverse(s)) == multiset(s)
  {
    if |s| > 0 {
      ReverseMultiset(s[1..]);
      assert s == [s[0]] + s[1..];
    }
  }

  /** The greatest string of a non-empty list. */
  function Greatest(xs: seq<string>): (m: string)
    requires |xs| > 0
    ensures m in xs
    ensures forall y :: y in xs ==> !Less(m, y)
  {
    if |xs| == 1 then LessIrreflexive(xs[0]); xs[0]
    else
      var t := Greatest(xs[1..]);
      LessTotal(xs[0], t);
      if Less(xs[0], t) then
        assert forall y :: y in xs ==> y == xs[0] || y in xs[1..];
        LessAsymmetric(xs[0], t);
        forall y | y in xs ensures !Less(t, y) {
          if y == xs[0] { LessAsymmetric(xs[0], t); }
        }
        t
      else
        forall y | y in xs ensures !Less(xs[0], y) {
          if y != xs[0] {
            assert y in xs[1..];
            if Less(xs[0], y) {
              if xs[0] == t { } else { LessTransitive(t, xs[0], y); }
            }
          } else {
            LessIrreflexive(y);
          }
        }
        xs[0]
  }
}

=== FILE: strings.dfy ===
/** Character classes and the Python `str` operations the manager uses,
    restricted to ASCII: `\d`, `\w` and `\s` of the regular expressions,
    `str.split`, `str.strip`, `str.lower`, `str.replace` and `in`. */
module Strings {

  predicate IsDigit(c: char) { '0' <= c <= '9' }

  predicate IsLower(c: char) { 'a' <= c <= 'z' }

  predicate IsUpper(c: char) { 'A' <= c <= 'Z' }

  predicate IsAlpha(c: char) { IsLower(c) || IsUpper(c) }

  /** `\w` */
  predicate IsWordChar(c: char) { IsAlpha(c) || IsDigit(c) || c == '_' }

  /** `\s` and what `str.strip()` removes, in the ASCII range: space, tab,
      newline, carriage return, vertical tab, form feed and the four
      separators `\x1c`-`\x1f`. */
  predicate IsSpace(c: char) {
    c == ' ' || c == '\t' || c == '\n' || c == '\r' || c == '\U{000B}' || c == '\U{000C}'
    || ('\U{001C}' <= c <= '\U{001F}')
  }

  /** `[\d\.]` */
  predicate IsVersionChar(c: char) { IsDigit(c) || c == '.' }

  predicate AllVersionChars(s: string) { forall i :: 0 <= i < |s| ==> IsVersionChar(s[i]) }

  predicate AllWordChars(s: string) { forall i :: 0 <= i < |s| ==> IsWordChar(s[i]) }

  predicate AllAlpha(s: string) { forall i :: 0 <= i < |s| ==> IsAlpha(s[i]) }

  predicate StartsWith(s: string, p: string) { |p| <= |s| && s[..|p|] == p }

  predicate EndsWith(s: string, p: string) { |p| <= |s| && s[|s| - |p|..] == p }

  /** Python's `p in s` on strings. */
  predicate Contains(s: string, p: string) {
    exists i | 0 <= i <= |s| - |p| :: OccursAt(s, p, i)
  }

  /** `p` occurs in `s` starting at index `i`. */
  predicate OccursAt(s: string, p: string, i: int) {
    0 <= i && i + |p| <= |s| && s[i..i + |p|] == p
  }

  lemma ContainsSelf(s: string, p: string)
    requires StartsWith(s, p)
    ensures Contains(s, p)
  {
    assert OccursAt(s, p, 0);
  }

  lemma ContainsInfix(a: string, p: string, b: string)
    ensures Contains(a + p + b, p)
  {
    var s := a + p + b;
    assert s[|a|..|a| + |p|] == p;
    assert OccursAt(s, p, |a|);
  }

  /** Length of the longest prefix of `s` made of version characters. */
  function VersionRun(s: string): (n: nat)
    ensures n <= |s|
    ensures AllVersionChars(s[..n])
    ensures n < |s| ==> !IsVersionChar(s[n])
  {
    if |s| == 0 || !IsVersionChar(s[0]) then 0
    else
      var m := VersionRun(s[1..]);
      assert s[..1 + m] == [s[0]] + s[1..][..m];
      1 + m
  }

  /** The version run of `v + t` is `v` when `t` does not continue it. */
  lemma {:induction false} VersionRunOf(v: string, t: string)
    requires AllVersionChars(v)
    requires |t| == 0 || !IsVersionChar(t[0])
    ensures VersionRun(v + t) == |v|
    decreases |v|
  {
    if |v| == 0 {
      assert v + t == t;
    } else {
      assert (v + t)[1..] == v[1..] + t;
      VersionRunOf(v[1..], t);
    }
  }

  /** `s` cut after its longest prefix of version characters. */
  function SpanVersion(s: string): (r: (string, string))
    ensures s == r.0 + r.1 && AllVersionChars(r.0)
    ensures |r.1| == 0 || !IsVersionChar(r.1[0])
  {
    var n := VersionRun(s);
    assert s == s[..n] + s[n..];
    (s[..n], s[n..])
  }

  lemma SpanVersionOf(v: string, t: string)
    requires AllVersionChars(v)
    requires |t| == 0 || !IsVersionChar(t[0])
    ensures SpanVersion(v + t) == (v, t)
  {
    VersionRunOf(v, t);
    assert (v + t)[..|v|] == v && (v + t)[|v|..] == t;
  }

  /** Length of the longest prefix of `s` made of ASCII letters. */
  function AlphaRun(s: string): (n: nat)
    ensures n <= |s|
    ensures AllAlpha(s[..n])
    ensures n < |s| ==> !IsAlpha(s[n])
  {
    if |s| == 0 || !IsAlpha(s[0]) then 0
    else
      var m := AlphaRun(s[1..]);
      assert s[..1 + m] == [s[0]] + s[1..][..m];
      1 + m
  }

  /** The letter run of `a + t` is `a` when `t` does not continue it. */
  lemma {:induction false} AlphaRunOf(a: string, t: string)
    requires AllAlpha(a)
    requires |t| == 0 || !IsAlpha(t[0])
    ensures AlphaRun(a + t) == |a|
    decreases |a|
  {
    if |a| == 0 {
      assert a + t == t;
    } else {
      assert (a + t)[1..] == a[1..] + t;
      AlphaRunOf(a[1..], t);
    }
  }

  /** `s` cut after its longest prefix of letters. */
  function SpanAlpha(s: string): (r: (string, string))
    ensures s == r.0 + r.1 && AllAlpha(r.0)
    ensures |r.1| == 0 || !IsAlpha(r.1[0])
  {
    var n := AlphaRun(s);
    assert s == s[..n] + s[n..];
    (s[..n], s[n..])
  }

  lemma SpanAlphaOf(a: string, t: string)
    requires AllAlpha(a)
    requires |t| == 0 || !IsAlpha(t[0])
    ensures SpanAlpha(a + t) == (a, t)
  {
    AlphaRunOf(a, t);
    assert (a + t)[..|a|] == a && (a + t)[|a|..] == t;
  }

  /** Length of the longest prefix of `s` made of ASCII digits. */
  function DigitRun(s: string): (n: nat)
    ensures n <= |s|
    ensures forall i :: 0 <= i < n ==> IsDigit(s[i])
    ensures n < |s| ==> !IsDigit(s[n])
  {
    if |s| == 0 || !IsDigit(s[0]) then 0 else 1 + DigitRun(s[1..])
  }

  /** The regular expression `$`: the match may end at the end of the
      subject or just before one final newline. Matching a whole line
      against `^…$` is matching all of `DropFinalNewline(line)`. */
  function DropFinalNewline(s: string): (r: string)
    ensures r == s || (s == r + "\n")
  {
    if |s| > 0 && s[|s| - 1] == '\n' then s[..|s| - 1] else s
  }

  lemma DropAddedNewline(s: string)
    ensures DropFinalNewline(s + "\n") == s
  {
    assert (s + "\n")[..|s|] == s;
  }

  /** Index of the first occurrence of `c`. */
  function IndexOf(s: string, c: char): (i: nat)
    requires c in s
    ensures i < |s| && s[i] == c && c !in s[..i]
  {
    if s[0] == c then 0
    else
      var j := IndexOf(s[1..], c);
      assert s[..1 + j] == [s[0]] + s[1..][..j];
      1 + j
  }

  /** `sep.join(parts)` for a one-character separator. */
  function Join(parts: seq<string>, sep: char): string
  {
    if |parts| == 0 then ""
    else if |parts| == 1 then parts[0]
    else parts[0] + [sep] + Join(parts[1..], sep)
  }

  /** Python's `s.split(sep)` for a one-character separator: never empty,
      no part holds the separator, and joining the parts gives `s` back. */
  function Split(s: string, sep: char): (parts: seq<string>)
    ensures |parts| >= 1
    ensures forall i :: 0 <= i < |parts| ==> sep !in parts[i]
    ensures Join(parts, sep) == s
    ensures |parts| == 1 <==> sep !in s
    decreases |s|
  {
    if sep !in s then [s]
    else
      var i := IndexOf(s, sep);
      var rest := Split(s[i + 1..], sep);
      assert s == s[..i] + [sep] + s[i + 1..];
      [s[..i]] + rest
  }

  /** Splitting at a first separator that follows a separator-free part. */
  lemma SplitFirst(a: string, sep: char, rest: string)
    requires sep !in a
    ensures Split(a + [sep] + rest, sep) == [a] + Split(rest, sep)
  {
    var s := a + [sep] + rest;
    assert s[|a|] == sep;
    var i := IndexOf(s, sep);
    assert i == |a|;
    assert s[..i] == a && s[i + 1..] == rest;
  }

  /** Splitting parts joined by a separator none of them holds gives the
      parts back. */
  lemma {:induction false} SplitJoin(parts: seq<string>, sep: char)
    requires |parts| >= 1 && forall i :: 0 <= i < |parts| ==> sep !in parts[i]
    ensures Split(Join(parts, sep), sep) == parts
    decreases |parts|
  {
    if |parts| > 1 {
      var rest := parts[1..];
      assert forall i :: 0 <= i < |rest| ==> rest[i] == parts[i + 1];
      SplitJoin(rest, sep);
      var j := Join(rest, sep);
      assert Split(j, sep) == rest;
      assert Join(parts, sep) == parts[0] + [sep] + j;
      SplitFirst(parts[0], sep, j);
      assert parts == [parts[0]] + rest;
    }
  }

  /** The last part is whatever follows the last separator. */
  lemma {:induction false} SplitLast(a: string, sep: char, b: string)
    requires sep !in b
    ensures var parts := Split(a + [sep] + b, sep); |parts| >= 2 && parts[|parts| - 1] == b
    decreases |a|, 1
  {
    if sep !in a {
      SplitFirst(a, sep, b);
    } else {
      SplitLastAfter(a, sep, b);
    }
  }

  /** The case of `SplitLast` where `a` holds a separator: the parts are
      the text before it and the parts of what follows. */
  lemma {:induction false} SplitLastAfter(a: string, sep: char, b: string)
    requires sep !in b && sep in a
    ensures var parts := Split(a + [sep] + b, sep); |parts| >= 2 && parts[|parts| - 1] == b
    decreases |a|, 0
  {
    var i := IndexOf(a, sep);
    var tail := a[i + 1..];
    var rest := tail + [sep] + b;
    assert a == a[..i] + [sep] + tail;
    assert a + [sep] + b == a[..i] + [sep] + rest;
    SplitFirst(a[..i], sep, rest);
    SplitLast(tail, sep, b);
  }

  /** Number of occurrences of `c` in `s` (Python's `s.count(c)`). */
  function Count(s: string, c: char): (n: nat)
    ensures n <= |s|
    ensures n == 0 <==> c !in s
  {
    if |s| == 0 then 0
    else (if s[0] == c then 1 else 0) + Count(s[1..], c)
  }

  /** Python's `s.replace(a, [b])` for single characters. */
  function ReplaceChar(s: string, a: char, b: char): (r: string)
    ensures |r| == |s|
    ensures forall i :: 0 <= i < |s| ==> r[i] == (if s[i] == a then b else s[i])
  {
    if |s| == 0 then "" else [if s[0] == a then b else s[0]] + ReplaceChar(s[1..], a, b)
  }

  /** Python's `s.replace(a, "")` for a single character. */
  function RemoveChar(s: string, a: char): (r: string)
    ensures a !in r
    ensures |r| == |s| - Count(s, a)
    ensures a !in s ==> r == s
  {
    if |s| == 0 then "" else (if s[0] == a then "" else [s[0]]) + RemoveChar(s[1..], a)
  }

  function LowerChar(c: char): char {
    if IsUpper(c) then (c as int - 'A' as int + 'a' as int) as char else c
  }

  /** `str.lower()` over ASCII letters. */
  function Lower(s: string): (r: string)
    ensures |r| == |s|
    ensures forall i :: 0 <= i < |s| ==> r[i] == LowerChar(s[i]) && !IsUpper(r[i])
  {
    if |s| == 0 then "" else [LowerChar(s[0])] + Lower(s[1..])
  }

  /** Number of leading whitespace characters. */
  function LeadingSpace(s: string): (n: nat)
    ensures n <= |s|
    ensures forall i :: 0 <= i < n ==> IsSpace(s[i])
    ensures n < |s| ==> !IsSpace(s[n])
  {
    if |s| == 0 || !IsSpace(s[0]) then 0 else 1 + LeadingSpace(s[1..])
  }

  /** Number of trailing whitespace characters. */
  function TrailingSpace(s: string): (n: nat)
    ensures n <= |s|
    ensures forall i :: |s| - n <= i < |s| ==> IsSpace(s[i])
    ensures n < |s| ==> !IsSpace(s[|s| - n - 1])
  {
    if |s| == 0 || !IsSpace(s[|s| - 1]) then 0 else 1 + TrailingSpace(s[..|s| - 1])
  }

  /** `str.strip()`: the widest middle slice that neither starts nor ends
      with whitespace; everything cut away is whitespace. */
  function Strip(s: string): (r: string)
    ensures exists i, j ::
              && 0 <= i <= j <= |s| && r == s[i..j]
              && (forall k :: 0 <= k < i ==> IsSpace(s[k]))
              && (forall k :: j <= k < |s| ==> IsSpace(s[k]))
    ensures |r| > 0 ==> !IsSpace(r[0]) && !IsSpace(r[|r| - 1])
  {
    var i := LeadingSpace(s);
    var t := s[i..];
    var j := |t| - TrailingSpace(t);
    assert s[i..i + j] == t[..j];
    s[i..i + j]
  }

  lemma StripNoSpaceEnds(s: string)
    requires |s| > 0 ==> !IsSpace(s[0]) && !IsSpace(s[|s| - 1])
    ensures Strip(s) == s
  {
    if |s| > 0 {
      assert LeadingSpace(s) == 0;
      assert TrailingSpace(s) == 0;
    }
  }
}

=== FILE: tags.dfy ===
/** `ManagerGenerate.generate_tags` once the tag listing is in hand: the
    distros named by the published tags, the CUDA releases of the manifest
    keyed by version, and the split into supported and unsupported ones
    that the tag documents are rendered from. The registry query and the
    rendering are not modelled. */
module Tags {
  import opened Wrappers
  import opened Strings
  import opened StringOrder
  import opened Manifest
  import opened ReleaseKeys
  import opened Utils

  const UbuntuWord := "ubuntu"
  const RockyWord := "rockylinux"
  const UnsupportedKey := "unsupported"
  const DistrosKey := "distros"

  // ---------------------------------------------------------------------
  // Distros of the published tags

  /** A RHEL-family tag names its distro in its last dash-separated field. */
  predicate RedhatTag(tag: string) {
    Contains(tag, CentosWord) || Contains(tag, UbiWord) || Contains(tag, RockyWord)
  }

  /** The distros named by the dash-separated fields of a tag: every field
      mentioning `ubuntu` in an Ubuntu tag, the last field of a RHEL-family
      tag, none otherwise. */
  function FieldDistros(fields: seq<string>, ubuntu: bool, redhat: bool): (ds: seq<string>)
    requires |fields| >= 1
    ensures forall d :: d in ds ==> d in fields
    ensures ubuntu ==> forall d :: d in ds <==> d in fields && Contains(d, UbuntuWord)
    ensures !ubuntu && redhat ==> ds == [fields[|fields| - 1]]
    ensures !ubuntu && !redhat ==> ds == []
  {
    if ubuntu then Filter(fields, (f: string) => Contains(f, UbuntuWord))
    else if redhat then [fields[|fields| - 1]]
    else []
  }

  /** The distros one tag names. */
  function TagDistros(tag: string): (ds: seq<string>)
    ensures forall d :: d in ds ==> d in Split(tag, '-') && '-' !in d
  {
    FieldDistros(Split(tag, '-'), Contains(tag, UbuntuWord), RedhatTag(tag))
  }

  /** A tag built from dash-free fields names the distros of those very
      fields. */
  lemma TagDistrosOfFields(fields: seq<string>)
    requires |fields| >= 1 && forall i :: 0 <= i < |fields| ==> '-' !in fields[i]
    ensures var tag := Join(fields, '-');
            TagDistros(tag) == FieldDistros(fields, Contains(tag, UbuntuWord), RedhatTag(tag))
  {
    SplitJoin(fields, '-');
  }

  /** Some tag of `tags` names the distro `d`. */
  predicate NamedBy(tags: seq<string>, d: string)
    decreases |tags|
  {
    |tags| > 0 && (d in TagDistros(tags[0]) || NamedBy(tags[1..], d))
  }

  /** `distros_list`: the distros of every tag, tag by tag. */
  function NamedDistros(tags: seq<string>): (ds: seq<string>)
    ensures forall d :: d in ds <==> NamedBy(tags, d)
  {
    if |tags| == 0 then [] else TagDistros(tags[0]) + NamedDistros(tags[1..])
  }

  /** `set(distros_list)`: the distros named by any tag, each once (in
      sorted order, which the later sort makes immaterial). */
  function AllDistros(tags: seq<string>): (ds: seq<string>)
    ensures NoDuplicates(ds)
    ensures forall d :: d in ds <==> NamedBy(tags, d)
  {
    var ds := SortedSet(NamedDistros(tags));
    StrictlyIncreasingHasNoDuplicates(ds);
    ds
  }

  /** The supported distros, `sorted(..., reverse=True)`: those named by the
      tags that the manifest does not list as unsupported. A test against
      something that is not a container raises as soon as there is a distro
      to test. */
  function SupportedDistros(distros: seq<string>, unsupported: Value): (r: Result<seq<string>>)
    ensures r.Ok? <==> |distros| == 0 || unsupported.Map? || unsupported.List? || unsupported.Str?
    ensures r.Ok? ==> forall i, j :: 0 <= i < j < |r.value| ==> Less(r.value[j], r.value[i])
    ensures r.Ok? ==> forall d :: d in r.value <==> d in distros && In(d, unsupported) == Ok(false)
  {
    if |distros| > 0 && !(unsupported.Map? || unsupported.List? || unsupported.Str?) then
      Err("argument is not iterable")
    else
      Ok(SortedSetDescending(Filter(distros, (d: string) => In(d, unsupported) == Ok(false))))
  }

  // ---------------------------------------------------------------------
  // CUDA releases of the manifest

  /** The version part of a release key, `cuda_v<here>`, pipeline suffix
      included. */
  function ReleaseSuffix(key: string): (s: string)
    ensures StartsWith(key, KeyPrefix) ==> KeyPrefix + s == key
  {
    if |key| >= |KeyPrefix| then
      assert StartsWith(key, KeyPrefix) ==> key == key[..|KeyPrefix|] + key[|KeyPrefix|..];
      key[|KeyPrefix|..]
    else ""
  }

  /** The suffix of a release key is its version and pipeline suffix, and
      release keys with the same suffix are the same key. */
  lemma ReleaseSuffixOf(r: ReleaseKey, k: string)
    requires ValidKey(r)
    ensures ReleaseSuffix(KeyText(r)) == r.version + SuffixText('_', r.pipeline)
    ensures ParseReleaseKey(k).Some? && DropFinalNewline(k) == k && ReleaseSuffix(k) == ReleaseSuffix(KeyText(r)) ==> k == KeyText(r)
  {
    if ParseReleaseKey(k).Some? && DropFinalNewline(k) == k {
      assert StartsWith(k, KeyPrefix) by {
        assert k == KeyText(ParseReleaseKey(k).value);
      }
    }
  }

  /** `key.split("v")[1]` (manager.py:1376-1377): the text between the
      first and the second `v` of the key. */
  function ReleaseSuffixAsWritten(key: string): (r: Result<string>)
    ensures r.Ok? ==> 'v' !in r.value
  {
    var parts := Split(key, 'v');
    if |parts| < 2 then Err("IndexError: list index out of range") else Ok(parts[1])
  }

  /** A pipeline name holding a `v` cuts the suffix short: the release
      key `cuda_v11.4.1_nvidia` is filed under `11.4.1_n`. */
  lemma ReleaseSuffixAsWrittenCutsName()
    ensures ParseReleaseKey("cuda_v11.4.1_nvidia") == Some(ReleaseKey("11.4.1", Some("nvidia")))
    ensures ReleaseSuffixAsWritten("cuda_v11.4.1_nvidia") == Ok("11.4.1_n")
    ensures ReleaseSuffix("cuda_v11.4.1_nvidia") == "11.4.1_nvidia"
  {
    var k := "cuda_v11.4.1_nvidia";
    var r := ReleaseKey("11.4.1", Some("nvidia"));
    var tail := "11.4.1_n" + ['v'] + "idia";
    assert "11.4.1_n" + ['v'] == "11.4.1_nv";
    assert "11.4.1_nv" + "idia" == "11.4.1_nvidia";
    assert tail == "11.4.1_nvidia";
    assert "cuda_" + ['v'] == KeyPrefix;
    assert KeyPrefix + "11.4.1_nvidia" == k;
    assert "11.4.1" + "_nvidia" == "11.4.1_nvidia";
    assert 'v' !in "cuda_" && 'v' !in "11.4.1_n" && 'v' !in "idia";
    assert ValidKey(r) by {
      assert ValidVersion("11.4.1") && ValidName("nvidia");
    }
    assert KeyText(r) == k;
    ParseKeyText(r);
    SplitFirst("cuda_", 'v', tail);
    SplitFirst("11.4.1_n", 'v', "idia");
    ReleaseSuffixOf(r, k);
  }

  /** Without a `v` in the pipeline name both readings agree. */
  lemma ReleaseSuffixAgrees(r: ReleaseKey)
    requires ValidKey(r) && (r.pipeline.Some? ==> 'v' !in r.pipeline.value)
    ensures ReleaseSuffixAsWritten(KeyText(r)) == Ok(ReleaseSuffix(KeyText(r)))
  {
    var tail := r.version + SuffixText('_', r.pipeline);
    assert 'v' !in r.version by {
      forall i | 0 <= i < |r.version| ensures r.version[i] != 'v' {
        assert IsVersionChar(r.version[i]);
      }
    }
    assert 'v' !in tail;
    assert KeyText(r) == "cuda_" + ['v'] + tail;
    SplitFirst("cuda_", 'v', tail);
    ReleaseSuffixOf(r, KeyText(r));
  }

  /** Every key that reads as a release key has a `v` to split at, so
      `key.split("v")[1]` never raises inside the release loop. */
  lemma ParsedKeySplits(key: string)
    requires ParseReleaseKey(key).Some?
    ensures ReleaseSuffixAsWritten(key).Ok?
  {
    var text := KeyText(ParseReleaseKey(key).value);
    assert text[|KeyPrefix| - 1] == 'v';
    assert DropFinalNewline(key) == text;
    assert key[|KeyPrefix| - 1] == text[|KeyPrefix| - 1];
  }

  /** How the release loop reads a release key: as written, the text
      between the first and second `v` (manager.py:1375-1376); corrected,
      everything after `cuda_v`. */
  datatype Reading = AsWritten | Corrected

  /** The name a key is filed under in the release table, `None` for a key
      that is not a release key. */
  function FiledUnder(reading: Reading, key: string): (r: Option<string>)
    ensures r.Some? <==> ParseReleaseKey(key).Some?
    ensures r.Some? && reading == AsWritten ==> ReleaseSuffixAsWritten(key) == Ok(r.value)
    ensures r.Some? && reading == Corrected && DropFinalNewline(key) == key ==> KeyPrefix + r.value == key
  {
    if ParseReleaseKey(key).None? then None
    else
      ParsedKeySplits(key);
      assert StartsWith(key, KeyPrefix) by {
        assert DropFinalNewline(key) == KeyText(ParseReleaseKey(key).value);
      }
      match reading
      case AsWritten => Some(ReleaseSuffixAsWritten(key).value)
      case Corrected => Some(ReleaseSuffix(key))
  }

  /** Without a `v` in its pipeline name a release key is filed under the
      same name by both readings. */
  lemma FiledUnderAgrees(key: string)
    requires ParseReleaseKey(key).Some?
    requires var p := ParseReleaseKey(key).value.pipeline; p.Some? ==> 'v' !in p.value
    ensures FiledUnder(AsWritten, key) == FiledUnder(Corrected, key)
  {
    var r := ParseReleaseKey(key).value;
    SuffixReadingsAgree(key, r);
  }

  /** The two suffixes of a release key, or of one with a final newline,
      agree when its pipeline name has no `v`. */
  lemma SuffixReadingsAgree(key: string, r: ReleaseKey)
    requires ValidKey(r) && DropFinalNewline(key) == KeyText(r)
    requires r.pipeline.Some? ==> 'v' !in r.pipeline.value
    ensures ReleaseSuffixAsWritten(key) == Ok(ReleaseSuffix(key))
  {
    var text := KeyText(r);
    ReleaseSuffixAgrees(r);
    if DropFinalNewline(key) != key {
      var tail := r.version + SuffixText('_', r.pipeline);
      assert 'v' !in tail by {
        ReleaseSuffixOf(r, text);
      }
      assert key == "cuda_" + ['v'] + (tail + "\n");
      SplitFirst("cuda_", 'v', tail + "\n");
    }
  }

  /** The release label recorded for a release key. */
  function LabelOf(manifest: Value, key: string): Value {
    GetData(manifest, [key, ReleaseLabelKey], false).data
  }

  /** The filing of a reading: the name each key is filed under. */
  function Filing(reading: Reading): string -> Option<string> {
    k => FiledUnder(reading, k)
  }

  /** The loop over `manifest.items()` (manager.py:1373-1378), for a filing
      `filed`: every key it files has its release label filed under that
      name; a later key filed under the same name overwrites. The source's
      table is `Releases(Filing(AsWritten), ...)`. */
  function Releases(filed: string -> Option<string>, manifest: Value, items: seq<(string, Value)>, acc: seq<(string, Value)>): (r: seq<(string, Value)>)
    ensures UniqueKeys(acc) ==> UniqueKeys(r)
    decreases |items|
  {
    if |items| == 0 then acc
    else Releases(filed, manifest, items[1..], File(filed, manifest, items[0].0, acc))
  }

  /** One pass of the loop: a release key files its label; any other key
      changes nothing. */
  function File(filed: string -> Option<string>, manifest: Value, key: string, acc: seq<(string, Value)>): (r: seq<(string, Value)>)
    ensures UniqueKeys(acc) ==> UniqueKeys(r)
    ensures forall s {:trigger Find(r, s)} :: Find(r, s) == if filed(key) == Some(s) then Some(LabelOf(manifest, key)) else Find(acc, s)
  {
    match filed(key)
    case Some(s) => Put(acc, s, LabelOf(manifest, key))
    case None => acc
  }

  /** A name no later key is filed under is left as it was. */
  lemma {:induction false} ReleasesKeep(filed: string -> Option<string>, manifest: Value, items: seq<(string, Value)>, acc: seq<(string, Value)>, s: string)
    requires forall i :: 0 <= i < |items| ==> filed(items[i].0) != Some(s)
    ensures Find(Releases(filed, manifest, items, acc), s) == Find(acc, s)
    decreases |items|
  {
    if |items| > 0 {
      var rest := items[1..];
      assert forall i :: 0 <= i < |rest| ==> rest[i] == items[i + 1];
      ReleasesKeep(filed, manifest, rest, File(filed, manifest, items[0].0, acc), s);
    }
  }

  /** The last release key filed under a name is the one found there: a
      release key no later key collides with finds its own label. */
  lemma {:induction false} ReleasesFind(filed: string -> Option<string>, manifest: Value, items: seq<(string, Value)>, acc: seq<(string, Value)>, j: nat)
    requires j < |items| && filed(items[j].0).Some?
    requires forall i :: j < i < |items| ==> filed(items[i].0) != filed(items[j].0)
    ensures Find(Releases(filed, manifest, items, acc), filed(items[j].0).value) == Some(LabelOf(manifest, items[j].0))
    decreases |items|, 1
  {
    if j == 0 {
      ReleasesFindFirst(filed, manifest, items, acc);
    } else {
      ReleasesFindLater(filed, manifest, items, acc, j);
    }
  }

  /** The inductive step of `ReleasesFind`: a later key is found by the
      rest of the loop. */
  lemma {:induction false} ReleasesFindLater(filed: string -> Option<string>, manifest: Value, items: seq<(string, Value)>, acc: seq<(string, Value)>, j: nat)
    requires 0 < j < |items| && filed(items[j].0).Some?
    requires forall i :: j < i < |items| ==> filed(items[i].0) != filed(items[j].0)
    ensures Find(Releases(filed, manifest, items, acc), filed(items[j].0).value) == Some(LabelOf(manifest, items[j].0))
    decreases |items|, 0
  {
    var rest := items[1..];
    var acc' := File(filed, manifest, items[0].0, acc);
    assert Releases(filed, manifest, items, acc) == Releases(filed, manifest, rest, acc');
    assert rest[j - 1] == items[j];
    forall i | j - 1 < i < |rest|
      ensures filed(rest[i].0) != filed(rest[j - 1].0)
    {
      assert rest[i] == items[i + 1];
    }
    ReleasesFind(filed, manifest, rest, acc', j - 1);
  }

  /** The first key is found when no later key is filed under its name. */
  lemma ReleasesFindFirst(filed: string -> Option<string>, manifest: Value, items: seq<(string, Value)>, acc: seq<(string, Value)>)
    requires |items| > 0 && filed(items[0].0).Some?
    requires forall i :: 0 < i < |items| ==> filed(items[i].0) != filed(items[0].0)
    ensures Find(Releases(filed, manifest, items, acc), filed(items[0].0).value) == Some(LabelOf(manifest, items[0].0))
  {
    var rest := items[1..];
    var key := items[0].0;
    var acc' := File(filed, manifest, key, acc);
    assert Releases(filed, manifest, items, acc) == Releases(filed, manifest, rest, acc');
    forall i | 0 <= i < |rest|
      ensures filed(rest[i].0) != Some(filed(key).value)
    {
      assert rest[i] == items[i + 1];
    }
    ReleasesKeep(filed, manifest, rest, acc', filed(key).value);
  }

  /** Two distinct newline-free release keys have distinct suffixes. */
  lemma SuffixesDiffer(a: string, b: string)
    requires ParseReleaseKey(a).Some? && ParseReleaseKey(b).Some? && a != b
    requires DropFinalNewline(a) == a && DropFinalNewline(b) == b
    ensures ReleaseSuffix(a) != ReleaseSuffix(b)
  {
    ReleaseSuffixOf(ParseReleaseKey(a).value, b);
  }

  /** The corrected table keeps every release: with distinct newline-free
      keys, each release key finds its own label under its full suffix. */
  lemma ReleasesFindDistinct(manifest: Value, items: seq<(string, Value)>, acc: seq<(string, Value)>, j: nat)
    requires UniqueKeys(items) && forall i :: 0 <= i < |items| ==> DropFinalNewline(items[i].0) == items[i].0
    requires j < |items| && ParseReleaseKey(items[j].0).Some?
    ensures Find(Releases(Filing(Corrected), manifest, items, acc), ReleaseSuffix(items[j].0)) == Some(LabelOf(manifest, items[j].0))
  {
    forall i | j < i < |items|
      ensures FiledUnder(Corrected, items[i].0) != FiledUnder(Corrected, items[j].0)
    {
      if ParseReleaseKey(items[i].0).Some? {
        SuffixesDiffer(items[i].0, items[j].0);
      }
    }
    ReleasesFind(Filing(Corrected), manifest, items, acc, j);
  }

  /** The two readings build the same table when no release key of the
      manifest has a `v` in its pipeline name. */
  lemma {:induction false} ReleasesAgree(manifest: Value, items: seq<(string, Value)>, acc: seq<(string, Value)>)
    requires forall i :: 0 <= i < |items| && ParseReleaseKey(items[i].0).Some? ==>
               var p := ParseReleaseKey(items[i].0).value.pipeline; p.Some? ==> 'v' !in p.value
    ensures Releases(Filing(AsWritten), manifest, items, acc) == Releases(Filing(Corrected), manifest, items, acc)
    decreases |items|
  {
    if |items| > 0 {
      var rest := items[1..];
      var key := items[0].0;
      if ParseReleaseKey(key).Some? {
        FiledUnderAgrees(key);
      }
      assert File(Filing(AsWritten), manifest, key, acc) == File(Filing(Corrected), manifest, key, acc);
      assert forall i :: 0 <= i < |rest| ==> rest[i] == items[i + 1];
      ReleasesAgree(manifest, rest, File(Filing(Corrected), manifest, key, acc));
    }
  }

  /** Every entry filed comes from a release key of the manifest. */
  lemma {:induction false} ReleasesFrom(filed: string -> Option<string>, manifest: Value, items: seq<(string, Value)>, acc: seq<(string, Value)>, s: string)
    requires s in Keys(Releases(filed, manifest, items, acc))
    ensures s in Keys(acc) || exists i :: 0 <= i < |items| && filed(items[i].0) == Some(s)
    decreases |items|
  {
    if |items| > 0 {
      var rest := items[1..];
      var key := items[0].0;
      var acc' := File(filed, manifest, key, acc);
      ReleasesFrom(filed, manifest, rest, acc', s);
      if s !in Keys(acc') {
        var i :| 0 <= i < |rest| && filed(rest[i].0) == Some(s);
        assert rest[i] == items[i + 1];
      } else if filed(key) == Some(s) && s !in Keys(acc) {
        assert Find(acc', s).Some?;
      }
    }
  }

  /** The unsupported distros and release labels: those under the
      `unsupported` key, or empty lists when there is no such key. */
  datatype Unsupported = Unsupported(distros: Value, labels: Value)

  /** Every `unsupported` key of the loop reads the same two entries, so
      the result depends only on whether the key is there. */
  function UnsupportedOf(manifest: Value): (u: Unsupported)
    ensures manifest.Map? && UnsupportedKey in Keys(manifest.entries) ==>
              u.distros == GetData(manifest, [UnsupportedKey, DistrosKey], false).data &&
              u.labels == GetData(manifest, [UnsupportedKey, ReleaseLabelKey], false).data
    ensures !(manifest.Map? && UnsupportedKey in Keys(manifest.entries)) ==> u == Unsupported(List([]), List([]))
  {
    if manifest.Map? && UnsupportedKey in Keys(manifest.entries) then
      Unsupported(GetData(manifest, [UnsupportedKey, DistrosKey], false).data,
                  GetData(manifest, [UnsupportedKey, ReleaseLabelKey], false).data)
    else Unsupported(List([]), List([]))
  }

  // ---------------------------------------------------------------------
  // Supported releases

  /** Python's `value in container` for any manifest value: membership of
      a list, a key of a mapping (a list or mapping cannot be a key), a
      substring of a string; anything else raises. */
  function ValueIn(v: Value, container: Value): (r: Result<bool>)
    ensures container.List? ==> r == Ok(v in container.items)
    ensures container.Map? ==> (r.Ok? <==> !(v.List? || v.Map?))
    ensures container.Map? && v.Str? ==> r == Ok(v.s in Keys(container.entries))
    ensures v.Str? ==> r == In(v.s, container)
  {
    match container
    case List(xs) => Ok(v in xs)
    case Map(e) =>
      if v.List? || v.Map? then Err("unhashable type")
      else Ok(v.Str? && v.s in Keys(e))
    case Str(t) =>
      if v.Str? then Ok(Contains(t, v.s)) else Err("'in <string>' requires string as left operand")
    case _ => Err("argument is not iterable")
  }

  /** The releases whose label is not unsupported (manager.py:1389-1391),
      in the order of `cuda_releases`. */
  function SupportedReleases(releases: seq<(string, Value)>, labels: Value): (r: Result<seq<(string, Value)>>)
    ensures r.Ok? ==> IsSubsequence(r.value, releases)
    ensures r.Ok? ==> forall e :: e in r.value <==> e in releases && ValueIn(e.1, labels) == Ok(false)
    ensures r.Ok? <==> forall i :: 0 <= i < |releases| ==> ValueIn(releases[i].1, labels).Ok?
    decreases |releases|
  {
    if |releases| == 0 then Ok([])
    else
      var unsupported :- ValueIn(releases[0].1, labels);
      var rest :- SupportedReleases(releases[1..], labels);
      assert forall i :: 1 <= i < |releases| ==> releases[i] == releases[1..][i - 1];
      assert forall e :: e in releases <==> e == releases[0] || e in releases[1..];
      if unsupported then
        SubsequenceSkip(rest, releases);
        Ok(rest)
      else
        assert ([releases[0]] + rest)[1..] == rest;
        Ok([releases[0]] + rest)
  }

  /** A supported release keeps its label under its key; an unsupported
      one is gone. */
  lemma SupportedReleasesFind(releases: seq<(string, Value)>, labels: Value, k: string)
    requires UniqueKeys(releases) && SupportedReleases(releases, labels).Ok?
    ensures var s := SupportedReleases(releases, labels).value;
            UniqueKeys(s) &&
            Find(s, k) == (if Find(releases, k).Some? && ValueIn(Find(releases, k).value, labels) == Ok(false)
                           then Find(releases, k) else None)
  {
    var s := SupportedReleases(releases, labels).value;
    SubsequenceUniqueKeys(s, releases);
    if Find(s, k).Some? {
      var i :| 0 <= i < |s| && s[i] == (k, Find(s, k).value);
      assert s[i] in releases;
    }
  }

  /** A subsequence of a mapping with unique keys has unique keys. */
  lemma {:induction false} SubsequenceUniqueKeys(a: seq<(string, Value)>, b: seq<(string, Value)>)
    requires IsSubsequence(a, b)
    ensures UniqueKeys(b) ==> UniqueKeys(a)
    decreases |b|
  {
    if |a| > 0 && |b| > 0 && UniqueKeys(b) {
      UniqueKeysTail(b);
      if a[0] == b[0] {
        SubsequenceUniqueKeys(a[1..], b[1..]);
        forall e | e in a[1..] ensures e.0 != a[0].0 {
          SubsequenceHolds(a[1..], b[1..], e);
          var i :| 0 <= i < |b[1..]| && b[1..][i] == e;
          assert e.0 in Keys(b[1..]);
        }
        forall i, j | 0 <= i < j < |a| ensures a[i].0 != a[j].0 {
          if i == 0 { assert a[j] in a[1..]; } else { assert a[i] == a[1..][i - 1] && a[j] == a[1..][j - 1]; }
        }
      } else {
        SubsequenceUniqueKeys(a, b[1..]);
      }
    }
  }

  /** Every element of a subsequence is an element of the whole. */
  lemma {:induction false} SubsequenceHolds<T>(a: seq<T>, b: seq<T>, e: T)
    requires IsSubsequence(a, b) && e in a
    ensures e in b
    decreases |b|
  {
    if a[0] == b[0] {
      if e != a[0] {
        SubsequenceHolds(a[1..], b[1..], e);
      }
    } else {
      SubsequenceHolds(a, b[1..], e);
    }
  }

  // ---------------------------------------------------------------------
  // Unsupported releases

  /** Iterating a manifest value: the items of a list, the keys of a
      mapping, the characters of a string; anything else raises. */
  function Elements(v: Value): (r: Result<seq<Value>>)
    ensures r.Ok? <==> v.List? || v.Map? || v.Str?
    ensures v.List? ==> r == Ok(v.items)
    ensures v.Map? ==> |r.value| == |v.entries| && forall i :: 0 <= i < |v.entries| ==> r.value[i] == Str(v.entries[i].0)
  {
    match v
    case List(xs) => Ok(xs)
    case Map(e) => Ok(Strs(Keys(e)))
    case Str(s) => Ok(Strs(Chars(s)))
    case _ => Err("object is not iterable")
  }

  function Chars(s: string): (cs: seq<string>)
    ensures |cs| == |s| && forall i :: 0 <= i < |s| ==> cs[i] == [s[i]]
  {
    if |s| == 0 then [] else [[s[0]]] + Chars(s[1..])
  }

  function Strs(ss: seq<string>): (vs: seq<Value>)
    ensures |vs| == |ss| && forall i :: 0 <= i < |ss| ==> vs[i] == Str(ss[i])
  {
    if |ss| == 0 then [] else [Str(ss[0])] + Strs(ss[1..])
  }

  /** The value of a string of decimal digits, read most significant
      digit first. */
  function DigitsValue(s: string): nat
    requires forall i :: 0 <= i < |s| ==> IsDigit(s[i])
  {
    if |s| == 0 then 0
    else
      assert IsDigit(s[|s| - 1]);
      DigitsValue(s[..|s| - 1]) * 10 + (s[|s| - 1] as int - '0' as int)
  }

  /** `str(n)` for a non-negative integer: the digits of `n`, with no
      leading zero. */
  function Decimal(n: nat): (s: string)
    ensures |s| > 0 && forall i :: 0 <= i < |s| ==> IsDigit(s[i])
    ensures DigitsValue(s) == n
    ensures |s| > 1 ==> s[0] != '0'
  {
    var d := ['0' + (n % 10) as char];
    if n < 10 then d
    else
      var r := Decimal(n / 10) + d;
      assert r[..|r| - 1] == Decimal(n / 10);
      r
  }

  /** `str(n)` is the only digit string without a leading zero that has
      the value `n`. */
  lemma {:induction false} DecimalUnique(t: string, n: nat)
    requires |t| > 0 && (forall i :: 0 <= i < |t| ==> IsDigit(t[i])) && (|t| > 1 ==> t[0] != '0')
    requires DigitsValue(t) == n
    ensures t == Decimal(n)
    decreases |t|
  {
    var last := t[|t| - 1] as int - '0' as int;
    if |t| == 1 {
      assert DigitsValue(t[..0]) == 0;
      assert n == last && n < 10;
      assert t == ['0' + (n % 10) as char];
    } else {
      var init := t[..|t| - 1];
      assert init[0] == t[0];
      DigitsValuePositive(init);
      assert n == DigitsValue(init) * 10 + last && last < 10;
      assert n / 10 == DigitsValue(init) && n % 10 == last;
      DecimalUnique(init, n / 10);
      assert t == init + [t[|t| - 1]];
    }
  }

  /** A digit string that does not start with `0` has a positive value. */
  lemma {:induction false} DigitsValuePositive(t: string)
    requires |t| > 0 && (forall i :: 0 <= i < |t| ==> IsDigit(t[i])) && t[0] != '0'
    ensures DigitsValue(t) > 0
    decreases |t|
  {
    if |t| > 1 {
      var init := t[..|t| - 1];
      assert init[0] == t[0];
      DigitsValuePositive(init);
    }
  }

  /** `re.match(r"([\d\.]+)$", text)` */
  predicate PlainVersion(text: string) {
    ValidVersion(DropFinalNewline(text))
  }

  /** The key of a worded label: the first word for two words (`11.0 RC`),
      else the first and last words joined by a dot (`11.0 Update 1`). */
  function WordedKey(words: seq<string>): string
    requires |words| > 0
  {
    if |words| == 2 then words[0] else words[0] + "." + words[|words| - 1]
  }

  /** A value `split` can key: a string, or a number whose decimal text
      is a plain version. */
  predicate Keyable(v: Value) {
    v.Str? || (v.Num? && v.n >= 0)
  }

  /** The key an unsupported label is filed under (manager.py:1394-1402):
      a plain version is its own key, a non-negative number its decimal
      text; a string is keyed by its words; anything else has no `split`. */
  function LabelKey(v: Value): (r: Result<string>)
    ensures r.Ok? <==> Keyable(v)
    ensures v.Str? && PlainVersion(v.s) ==> r == Ok(v.s)
    ensures v.Num? && r.Ok? ==> PlainVersion(r.value)
    ensures v.Num? && v.n >= 0 ==> r == Ok(Decimal(v.n))
  {
    match v
    case Str(s) => if PlainVersion(s) then Ok(s) else Ok(WordedKey(Split(s, ' ')))
    case Num(n) =>
      if n >= 0 then
        var d := Decimal(n);
        assert forall i :: 0 <= i < |d| ==> IsVersionChar(d[i]);
        assert DropFinalNewline(d) == d;
        Ok(d)
      else Err("'int' object has no attribute 'split'")
    case _ => Err("object has no attribute 'split'")
  }

  /** A label of two words is keyed by its first word. */
  lemma LabelKeyTwoWords(a: string, b: string)
    requires ' ' !in a && ' ' !in b
    ensures LabelKey(Str(a + " " + b)) == Ok(a)
  {
    var s := a + " " + b;
    assert s[|a|] == ' ';
    assert !AllVersionChars(DropFinalNewline(s)) by {
      assert DropFinalNewline(s)[|a|] == ' ';
    }
    SplitFirst(a, ' ', b);
  }

  /** A label of three or more words is keyed by its first and last words
      joined by a dot. */
  lemma LabelKeyManyWords(a: string, mid: string, b: string)
    requires ' ' !in a && ' ' !in b
    ensures LabelKey(Str(a + " " + mid + " " + b)) == Ok(a + "." + b)
  {
    var s := a + " " + mid + " " + b;
    assert !PlainVersion(s) by {
      assert s[|a|] == ' ';
      assert DropFinalNewline(s)[|a|] == ' ';
    }
    WordedKeyMany(a, mid, b);
  }

  lemma WordedKeyMany(a: string, mid: string, b: string)
    requires ' ' !in a && ' ' !in b
    ensures WordedKey(Split(a + " " + mid + " " + b, ' ')) == a + "." + b
  {
    var tail := mid + [' '] + b;
    assert a + " " + mid + " " + b == a + [' '] + tail;
    SplitFirst(a, ' ', tail);
    SplitLast(mid, ' ', b);
    WordedKeyCons(a, Split(tail, ' '));
  }

  lemma WordedKeyCons(a: string, parts: seq<string>)
    requires |parts| >= 2
    ensures WordedKey([a] + parts) == a + "." + parts[|parts| - 1]
  {
    var words := [a] + parts;
    assert words[|words| - 1] == parts[|parts| - 1];
  }

  /** The release labels the source names as its special cases: `11.0 RC`
      is filed under `11.0`, and `11.0 Update 1` under `11.0.1`. */
  lemma LabelKeyExamples()
    ensures LabelKey(Str("11.0 RC")) == Ok("11.0")
    ensures LabelKey(Str("11.0 Update 1")) == Ok("11.0.1")
  {
    var v, rc, up, one := "11.0", "RC", "Update", "1";
    assert v + " " + rc == "11.0 RC";
    assert v + " " == "11.0 ";
    assert "11.0 " + up == "11.0 Update";
    assert "11.0 Update" + " " == "11.0 Update ";
    assert "11.0 Update " + one == "11.0 Update 1";
    assert v + "." == "11.0.";
    assert "11.0." + one == "11.0.1";
    assert ' ' !in v && ' ' !in rc && ' ' !in one;
    LabelKeyTwoWords(v, rc);
    LabelKeyManyWords(v, up, one);
  }

  /** A one-word label that is not a plain version is keyed by itself,
      twice over: `11.0-rc` is filed under `11.0-rc.11.0-rc`. */
  lemma LabelKeyOneWord(a: string)
    requires ' ' !in a && !PlainVersion(a)
    ensures LabelKey(Str(a)) == Ok(a + "." + a)
  {
  }

  /** The keys of the labels, in order; a label `split` cannot key
      raises. */
  function LabelKeys(labels: seq<Value>): (r: Result<seq<string>>)
    ensures r.Ok? <==> forall i :: 0 <= i < |labels| ==> Keyable(labels[i])
    ensures r.Ok? ==> |r.value| == |labels| && forall i :: 0 <= i < |labels| ==> LabelKey(labels[i]) == Ok(r.value[i])
  {
    if |labels| == 0 then Ok([])
    else
      KeyableShift(labels);
      var k :- LabelKey(labels[0]);
      var rest :- LabelKeys(labels[1..]);
      LabelKeysCons(labels, k, rest);
      Ok([k] + rest)
  }

  /** All labels are keyable when the first one and all the others are. */
  lemma KeyableShift(labels: seq<Value>)
    requires |labels| > 0
    ensures (forall i :: 0 <= i < |labels| ==> Keyable(labels[i])) <==>
            Keyable(labels[0]) && forall i :: 0 <= i < |labels[1..]| ==> Keyable(labels[1..][i])
  {
    assert forall i :: 1 <= i < |labels| ==> labels[i] == labels[1..][i - 1];
  }

  /** The key of the first label followed by the keys of the others are the
      keys of all the labels. */
  lemma LabelKeysCons(labels: seq<Value>, k: string, rest: seq<string>)
    requires |labels| > 0 && LabelKey(labels[0]) == Ok(k)
    requires |rest| == |labels| - 1 && forall i :: 0 <= i < |rest| ==> LabelKey(labels[1..][i]) == Ok(rest[i])
    ensures forall i :: 0 <= i < |labels| ==> LabelKey(labels[i]) == Ok(([k] + rest)[i])
  {
    ConsResults(LabelKey, labels, k, rest);
  }

  /** A result for the head and results for the tail are results for the
      whole list, for any function. */
  lemma ConsResults<A, B>(f: A -> Result<B>, xs: seq<A>, y: B, ys: seq<B>)
    requires |xs| > 0 && f(xs[0]) == Ok(y)
    requires |ys| == |xs| - 1 && forall i :: 0 <= i < |ys| ==> f(xs[1..][i]) == Ok(ys[i])
    ensures forall i :: 0 <= i < |xs| ==> f(xs[i]) == Ok(([y] + ys)[i])
  {
    forall i | 0 <= i < |xs| ensures f(xs[i]) == Ok(([y] + ys)[i]) {
      if i > 0 { assert xs[i] == xs[1..][i - 1] && ([y] + ys)[i] == ys[i - 1]; }
    }
  }

  /** `m[ks[i]] = vs[i]` for each `i` in turn. */
  function PutAll<V>(m: seq<(string, V)>, ks: seq<string>, vs: seq<V>): (r: seq<(string, V)>)
    requires |ks| == |vs|
    ensures UniqueKeys(m) ==> UniqueKeys(r)
    decreases |ks|
  {
    if |ks| == 0 then m else PutAll(Put(m, ks[0], vs[0]), ks[1..], vs[1..])
  }

  /** A key assigned nowhere keeps its value. */
  lemma {:induction false} PutAllKeep<V>(m: seq<(string, V)>, ks: seq<string>, vs: seq<V>, k: string)
    requires |ks| == |vs| && k !in ks
    ensures Find(PutAll(m, ks, vs), k) == Find(m, k)
    decreases |ks|
  {
    if |ks| > 0 {
      PutAllKeep(Put(m, ks[0], vs[0]), ks[1..], vs[1..], k);
    }
  }

  /** The last assignment to a key wins. */
  lemma {:induction false} PutAllLast<V>(m: seq<(string, V)>, ks: seq<string>, vs: seq<V>, i: nat)
    requires |ks| == |vs| && i < |ks|
    requires forall j :: i < j < |ks| ==> ks[j] != ks[i]
    ensures Find(PutAll(m, ks, vs), ks[i]) == Some(vs[i])
    decreases |ks|, 1
  {
    if i == 0 {
      PutAllFirst(m, ks, vs);
    } else {
      PutAllLater(m, ks, vs, i);
    }
  }

  /** The inductive step of `PutAllLast`: a later assignment survives the
      first one. */
  lemma {:induction false} PutAllLater<V>(m: seq<(string, V)>, ks: seq<string>, vs: seq<V>, i: nat)
    requires |ks| == |vs| && 0 < i < |ks|
    requires forall j :: i < j < |ks| ==> ks[j] != ks[i]
    ensures Find(PutAll(m, ks, vs), ks[i]) == Some(vs[i])
    decreases |ks|, 0
  {
    var m' := Put(m, ks[0], vs[0]);
    var rest := ks[1..];
    assert PutAll(m, ks, vs) == PutAll(m', rest, vs[1..]);
    assert forall j :: i - 1 < j < |rest| ==> rest[j] == ks[j + 1];
    assert rest[i - 1] == ks[i] && vs[1..][i - 1] == vs[i];
    PutAllLast(m', rest, vs[1..], i - 1);
  }

  /** The first assignment stands when no later one has the same key. */
  lemma PutAllFirst<V>(m: seq<(string, V)>, ks: seq<string>, vs: seq<V>)
    requires |ks| == |vs| && 0 < |ks|
    requires forall j :: 0 < j < |ks| ==> ks[j] != ks[0]
    ensures Find(PutAll(m, ks, vs), ks[0]) == Some(vs[0])
  {
    var m' := Put(m, ks[0], vs[0]);
    var rest := ks[1..];
    assert PutAll(m, ks, vs) == PutAll(m', rest, vs[1..]);
    assert Find(m', ks[0]) == Some(vs[0]);
    assert forall j :: 0 <= j < |rest| ==> rest[j] == ks[j + 1];
    assert ks[0] !in rest;
    PutAllKeep(m', rest, vs[1..], ks[0]);
  }

  /** The loop over the unsupported labels (manager.py:1393-1402): each
      label is filed under its key, a later label overwriting an earlier
      one with the same key. */
  function AddLabels(releases: seq<(string, Value)>, labels: seq<Value>): (r: Result<seq<(string, Value)>>)
    ensures r.Ok? <==> forall i :: 0 <= i < |labels| ==> Keyable(labels[i])
    ensures r.Ok? && UniqueKeys(releases) ==> UniqueKeys(r.value)
  {
    var keys :- LabelKeys(labels);
    Ok(PutAll(releases, keys, labels))
  }

  /** After the loop, each label is found under its key unless a later
      label has the same key, and every key no label has keeps its
      release. */
  lemma AddLabelsFind(releases: seq<(string, Value)>, labels: seq<Value>, k: string)
    requires AddLabels(releases, labels).Ok?
    ensures forall i :: 0 <= i < |labels| && LabelKey(labels[i]) == Ok(k) &&
                        (forall j :: i < j < |labels| ==> LabelKey(labels[j]) != Ok(k)) ==>
              Find(AddLabels(releases, labels).value, k) == Some(labels[i])
    ensures (forall i :: 0 <= i < |labels| ==> LabelKey(labels[i]) != Ok(k)) ==>
              Find(AddLabels(releases, labels).value, k) == Find(releases, k)
  {
    var keys := LabelKeys(labels).value;
    forall i | 0 <= i < |labels| && LabelKey(labels[i]) == Ok(k) &&
               (forall j :: i < j < |labels| ==> LabelKey(labels[j]) != Ok(k))
      ensures Find(AddLabels(releases, labels).value, k) == Some(labels[i])
    {
      PutAllLast(releases, keys, labels, i);
    }
    if forall i :: 0 <= i < |labels| ==> LabelKey(labels[i]) != Ok(k) {
      PutAllKeep(releases, keys, labels, k);
    }
  }

  /** `sorted(unsupported_distros, reverse=True)` for the shapes a list of
      distro names takes: a list of strings, a mapping (its keys) or a
      string (its characters). */
  function SortedNames(v: Value): (r: Result<seq<string>>)
    ensures r.Ok? ==> NonIncreasing(r.value)
    ensures v.Map? ==> r.Ok? && multiset(r.value) == multiset(Keys(v.entries))
    ensures v.Str? ==> r.Ok? && multiset(r.value) == multiset(Chars(v.s))
    ensures v.List? && (forall i :: 0 <= i < |v.items| ==> v.items[i].Str?) ==>
              r.Ok? && |r.value| == |v.items| && (forall x :: x in r.value <==> Str(x) in v.items) &&
              multiset(r.value) == multiset(Names(v.items))
  {
    match v
    case Map(e) => Ok(SortDescending(Keys(e)))
    case Str(t) => Ok(SortDescending(Chars(t)))
    case List(xs) =>
      if forall i :: 0 <= i < |xs| ==> xs[i].Str? then Ok(NamesDescending(xs))
      else Err("sorting of values other than strings is not modelled")
    case _ => Err("sorting of values other than lists and mappings is not modelled")
  }

  /** `sorted(xs, reverse=True)` for a list of strings. */
  function NamesDescending(xs: seq<Value>): (r: seq<string>)
    requires forall i :: 0 <= i < |xs| ==> xs[i].Str?
    ensures NonIncreasing(r) && |r| == |xs|
    ensures forall x :: x in r <==> Str(x) in xs
    ensures multiset(r) == multiset(Names(xs))
  {
    var names := Names(xs);
    var r := SortDescending(names);
    assert |r| == |multiset(r)| == |names|;
    assert forall x :: x in r <==> x in multiset(names);
    assert forall x :: x in names <==> Str(x) in xs by {
      forall x | Str(x) in xs ensures x in names {
        var i :| 0 <= i < |xs| && xs[i] == Str(x);
        assert names[i] == x;
      }
    }
    r
  }

  function Names(xs: seq<Value>): (ns: seq<string>)
    requires forall i :: 0 <= i < |xs| ==> xs[i].Str?
    ensures |ns| == |xs| && forall i :: 0 <= i < |xs| ==> xs[i] == Str(ns[i])
  {
    if |xs| == 0 then [] else [xs[0].s] + Names(xs[1..])
  }

  // ---------------------------------------------------------------------
  // The two tag documents

  /** The context the `supported` and `unsupported` tag documents are
      rendered from: the published tags, the supported distros and releases,
      every release with the unsupported labels added, and the unsupported
      distros and labels. */
  datatype TagsContext = TagsContext(
    cudaTags: seq<string>,
    supportedDistros: seq<string>,
    supportedReleases: seq<(string, Value)>,
    cudaReleases: seq<(string, Value)>,
    unsupportedDistros: seq<string>,
    unsupportedLabels: Value)

  /** The two release tables: the supported releases, and every release
      with the unsupported labels filed in. */
  datatype ReleaseTables = ReleaseTables(supported: seq<(string, Value)>, all: seq<(string, Value)>)

  /** The release tables read one way or the other; `generate_tags`
      builds `Tables(AsWritten, ...)`. */
  function Tables(reading: Reading, manifest: Value, items: seq<(string, Value)>): (r: Result<ReleaseTables>)
    ensures r.Ok? && UniqueKeys(items) ==> UniqueKeys(r.value.all)
  {
    var unsupported := UnsupportedOf(manifest);
    var releases := Releases(Filing(reading), manifest, items, []);
    var supported :- SupportedReleases(releases, unsupported.labels);
    var labels :- Elements(unsupported.labels);
    var all :- AddLabels(releases, labels);
    Ok(ReleaseTables(supported, all))
  }

  /** `generate_tags` (manager.py:1320-1412) from the registry's reply and
      the manifest. */
  function GenerateTags(reply: seq<(string, seq<string>)>, manifest: Value): (r: Result<TagsContext>)
    ensures r.Ok? ==> manifest.Map? && r.value.cudaTags == TagList(reply)
    ensures r.Ok? ==> r.value.unsupportedLabels == UnsupportedOf(manifest).labels
    ensures r.Ok? <==> manifest.Map? && Tables(AsWritten, manifest, manifest.entries).Ok?
                       && SortedNames(UnsupportedOf(manifest).distros).Ok?
                       && (|AllDistros(TagList(reply))| == 0 || UnsupportedOf(manifest).distros.Map?
                           || UnsupportedOf(manifest).distros.List? || UnsupportedOf(manifest).distros.Str?)
    ensures r.Ok? ==> forall d :: d in r.value.supportedDistros <==>
                        NamedBy(TagList(reply), d) && In(d, UnsupportedOf(manifest).distros) == Ok(false)
    ensures r.Ok? ==> forall i, j :: 0 <= i < j < |r.value.supportedDistros| ==>
                        Less(r.value.supportedDistros[j], r.value.supportedDistros[i])
    ensures r.Ok? ==> NonIncreasing(r.value.unsupportedDistros)
                      && SortedNames(UnsupportedOf(manifest).distros) == Ok(r.value.unsupportedDistros)
    ensures r.Ok? && UnsupportedOf(manifest).distros.List? ==>
              var xs := UnsupportedOf(manifest).distros.items;
              (forall i :: 0 <= i < |xs| ==> xs[i].Str?) && multiset(r.value.unsupportedDistros) == multiset(Names(xs))
    ensures r.Ok? ==> Tables(AsWritten, manifest, manifest.entries) == Ok(ReleaseTables(r.value.supportedReleases, r.value.cudaReleases))
  {
    var tags := TagList(reply);
    var items :- Items(manifest);
    var unsupported := UnsupportedOf(manifest);
    var distros :- DistroLists(tags, unsupported.distros);
    var tables :- Tables(AsWritten, manifest, items);
    Ok(TagsContext(tags, distros.0, tables.supported, tables.all, distros.1, unsupported.labels))
  }

  /** The supported distros named by `tags` and the sorted unsupported
      distros, in the order `generate_tags` computes them. */
  function DistroLists(tags: seq<string>, unsupported: Value): (r: Result<(seq<string>, seq<string>)>)
    ensures r.Ok? <==> SortedNames(unsupported).Ok?
                       && (|AllDistros(tags)| == 0 || unsupported.Map? || unsupported.List? || unsupported.Str?)
    ensures r.Ok? ==> forall d :: d in r.value.0 <==> NamedBy(tags, d) && In(d, unsupported) == Ok(false)
    ensures r.Ok? ==> forall i, j :: 0 <= i < j < |r.value.0| ==> Less(r.value.0[j], r.value.0[i])
    ensures r.Ok? ==> NonIncreasing(r.value.1) && SortedNames(unsupported) == Ok(r.value.1)
    ensures r.Ok? && unsupported.List? ==>
              (forall i :: 0 <= i < |unsupported.items| ==> unsupported.items[i].Str?)
              && multiset(r.value.1) == multiset(Names(unsupported.items))
  {
    var supported :- SupportedDistros(AllDistros(tags), unsupported);
    var sorted :- SortedNames(unsupported);
    Ok((supported, sorted))
  }

  /** A release of the manifest that no later release key collides with
      under `key.split("v")[1]` is a supported release filed under that
      name when its label is not listed as unsupported, and is not there
      when it is. */
  lemma GenerateTagsReleases(reply: seq<(string, seq<string>)>, manifest: Value, j: nat)
    requires GenerateTags(reply, manifest).Ok?
    requires manifest.Map? && j < |manifest.entries| && ParseReleaseKey(manifest.entries[j].0).Some?
    requires forall i :: j < i < |manifest.entries| ==>
               FiledUnder(AsWritten, manifest.entries[i].0) != FiledUnder(AsWritten, manifest.entries[j].0)
    ensures var key := manifest.entries[j].0;
            var s := FiledUnder(AsWritten, key).value;
            var lab := LabelOf(manifest, key);
            var t := GenerateTags(reply, manifest).value;
            && (ValueIn(lab, t.unsupportedLabels) == Ok(false) ==> Find(t.supportedReleases, s) == Some(lab))
            && (ValueIn(lab, t.unsupportedLabels) == Ok(true) ==> Find(t.supportedReleases, s) == None)
  {
    var items := manifest.entries;
    var releases := Releases(Filing(AsWritten), manifest, items, []);
    var labels := UnsupportedOf(manifest).labels;
    TablesSupported(AsWritten, manifest, items);
    ReleasesFind(Filing(AsWritten), manifest, items, [], j);
    SupportedReleasesFind(releases, labels, FiledUnder(AsWritten, items[j].0).value);
  }

  lemma TablesSupported(reading: Reading, manifest: Value, items: seq<(string, Value)>)
    requires Tables(reading, manifest, items).Ok?
    ensures SupportedReleases(Releases(Filing(reading), manifest, items, []), UnsupportedOf(manifest).labels) == Ok(Tables(reading, manifest, items).value.supported)
  {
    var releases := Releases(Filing(reading), manifest, items, []);
    var sr := SupportedReleases(releases, UnsupportedOf(manifest).labels);
    assert sr.Ok? && Tables(reading, manifest, items).value.supported == sr.value;
  }
}

=== FILE: triggers.dfy ===
/** Trigger selection of `ManagerTrigger`: reading a version or a pipeline
    name out of a trigger word, and `populate_triggers`, which turns the
    `--trigger-override` text into the list of CI gate variables to set.
    The `.gitlab-ci.yml` lines and the platform registry are parameters.

    The three trigger-word patterns have fixed shapes and are written out as
    direct matchers. None of their parts matches a newline, and `$` accepts
    the end of the text or one final newline, so a word matches only when
    everything before a possible final newline is newline-free. */
module Triggers {
  import opened Wrappers
  import opened Strings
  import opened StringOrder
  import opened ReleaseKeys
  import opened Regex
  import opened Gates

  const CudaWord := "cuda"
  const NameMark := "name:"
  const AllWord := "all"

  // ---------------------------------------------------------------------
  // `.*cuda-?([\d\.]+).*$` and `.*cuda([\d\.]+).*$`

  /** Where the version group starts after the `cuda` at `p`. With the
      optional dash the pattern first tries to take a `-`; when no version
      character follows it, giving the dash back cannot help, because the
      group would then have to start at the `-`. */
  function VersionStart(body: string, p: nat, dash: bool): nat {
    if dash && p + 4 < |body| && body[p + 4] == '-' then p + 5 else p + 4
  }

  /** The `cuda` at `p` is followed by a version group. */
  predicate CudaAt(body: string, p: nat, dash: bool) {
    && OccursAt(body, CudaWord, p)
    && VersionStart(body, p, dash) < |body|
    && IsVersionChar(body[VersionStart(body, p, dash)])
  }

  /** The greedy leading `.*` settles on the last usable `cuda` before `n`. */
  function LastCuda(body: string, n: nat, dash: bool): (r: Option<nat>)
    requires n <= |body|
    ensures r.Some? ==> r.value < n && CudaAt(body, r.value, dash)
    ensures r.Some? ==> forall q: nat :: r.value < q < n ==> !CudaAt(body, q, dash)
    ensures r.None? ==> forall q: nat :: q < n ==> !CudaAt(body, q, dash)
  {
    if n == 0 then None
    else if CudaAt(body, n - 1, dash) then Some(n - 1)
    else LastCuda(body, n - 1, dash)
  }

  /** `get_cuda_version_from_trigger` (`dash`) and
      `get_distro_version_from_trigger` (no dash): the longest run of digits
      and dots after the last `cuda` that has one, or `""` without a match. */
  function CudaVersionFrom(trigger: string, dash: bool): (v: string)
    ensures AllVersionChars(v)
    ensures v != "" <==> '\n' !in DropFinalNewline(trigger)
                         && exists p: nat :: CudaAt(DropFinalNewline(trigger), p, dash)
  {
    var body := DropFinalNewline(trigger);
    if '\n' in body then ""
    else
      match LastCuda(body, |body|, dash)
      case None => ""
      case Some(p) =>
        var st := VersionStart(body, p, dash);
        var n := VersionRun(body[st..]);
        assert body[st..][0] == body[st];
        body[st..][..n]
  }

  /** A version written after `cuda` (or, with the dash form, `cuda-`) is
      the one read back, whatever precedes it, as long as nothing after it
      continues the run or holds another `cuda`. */
  lemma CudaVersionOf(a: string, mark: string, v: string, t: string, dash: bool)
    requires mark == CudaWord || (dash && mark == CudaWord + "-")
    requires '\n' !in a && '\n' !in t
    requires |v| > 0 && AllVersionChars(v)
    requires |t| == 0 || !IsVersionChar(t[0])
    requires !Contains(t, CudaWord)
    ensures CudaVersionFrom(a + mark + v + t, dash) == v
    ensures CudaVersionFrom(a + mark + v + t + "\n", dash) == v
  {
    var s := a + mark + v + t;
    NoNewlineIn(a, mark, v, t);
    DropAddedNewline(s);
    CudaAtMark(a, mark, v, t, dash);
    NoCudaAfter(a, mark, v, t, dash);
    VersionAfterMark(a, mark, v, t, dash);
  }

  lemma NoNewlineIn(a: string, mark: string, v: string, t: string)
    requires mark == CudaWord || mark == CudaWord + "-"
    requires '\n' !in a && '\n' !in t
    requires AllVersionChars(v)
    ensures '\n' !in a + mark + v + t
    ensures DropFinalNewline(a + mark + v + t) == a + mark + v + t
  {
    var s := a + mark + v + t;
    var st := |a| + |mark|;
    forall i | 0 <= i < |s| ensures s[i] != '\n' {
      if i < |a| { assert s[i] == a[i]; }
      else if i < st { assert s[i] == mark[i - |a|]; }
      else if i < st + |v| { assert s[i] == v[i - st]; }
      else { assert s[i] == t[i - st - |v|]; }
    }
  }

  /** With the `cuda` at `|a|` the last usable one, the group is `v`. */
  lemma VersionAfterMark(a: string, mark: string, v: string, t: string, dash: bool)
    requires '\n' !in a + mark + v + t
    requires DropFinalNewline(a + mark + v + t) == a + mark + v + t
    requires CudaAt(a + mark + v + t, |a|, dash)
    requires VersionStart(a + mark + v + t, |a|, dash) == |a| + |mark|
    requires forall q: nat :: |a| < q < |a + mark + v + t| ==> !CudaAt(a + mark + v + t, q, dash)
    requires AllVersionChars(v)
    requires |t| == 0 || !IsVersionChar(t[0])
    ensures CudaVersionFrom(a + mark + v + t, dash) == v
  {
    var s := a + mark + v + t;
    LastCudaIs(s, |s|, dash, |a|);
    assert s[|a| + |mark|..] == v + t;
    VersionRunOf(v, t);
    assert (v + t)[..|v|] == v;
  }

  /** The last usable `cuda` is the one with no usable `cuda` after it. */
  lemma LastCudaIs(body: string, n: nat, dash: bool, p: nat)
    requires p < n <= |body| && CudaAt(body, p, dash)
    requires forall q: nat :: p < q < n ==> !CudaAt(body, q, dash)
    ensures LastCuda(body, n, dash) == Some(p)
  {
  }

  lemma CudaAtMark(a: string, mark: string, v: string, t: string, dash: bool)
    requires mark == CudaWord || (dash && mark == CudaWord + "-")
    requires |v| > 0 && AllVersionChars(v)
    ensures CudaAt(a + mark + v + t, |a|, dash)
    ensures VersionStart(a + mark + v + t, |a|, dash) == |a| + |mark|
  {
    var s := a + mark + v + t;
    assert s[|a|..|a| + 4] == CudaWord;
    assert s[|a| + |mark|] == v[0];
    if mark == CudaWord {
      assert s[|a| + 4] == v[0];
    } else {
      assert s[|a| + 4] == '-';
    }
  }

  lemma NoCudaAfter(a: string, mark: string, v: string, t: string, dash: bool)
    requires mark == CudaWord || (dash && mark == CudaWord + "-")
    requires AllVersionChars(v)
    requires !Contains(t, CudaWord)
    ensures forall q: nat :: |a| < q < |a + mark + v + t| ==> !CudaAt(a + mark + v + t, q, dash)
  {
    var s := a + mark + v + t;
    var e := |a| + |mark| + |v|;
    forall q: nat | |a| < q < |s| && OccursAt(s, CudaWord, q)
      ensures false
    {
      assert s[q..q + 4] == CudaWord;
      assert s[q] == s[q..q + 4][0];
      if q >= e {
        assert s[q..q + 4] == t[q - e..q - e + 4];
        assert OccursAt(t, CudaWord, q - e);
      }
    }
  }

  // ---------------------------------------------------------------------
  // `.*name:(\w+)$`

  /** Length of the longest suffix of `s` made of word characters. */
  function WordTail(s: string): (n: nat)
    ensures n <= |s|
    ensures forall i :: |s| - n <= i < |s| ==> IsWordChar(s[i])
    ensures n < |s| ==> !IsWordChar(s[|s| - n - 1])
  {
    if |s| == 0 || !IsWordChar(s[|s| - 1]) then 0
    else
      var m := WordTail(s[..|s| - 1]);
      m + 1
  }

  lemma {:induction false} WordTailOf(a: string, w: string)
    requires AllWordChars(w)
    requires |a| == 0 || !IsWordChar(a[|a| - 1])
    ensures WordTail(a + w) == |w|
    decreases |w|
  {
    if |w| == 0 {
      assert a + w == a;
    } else {
      var s := a + w;
      assert s[..|s| - 1] == a + w[..|w| - 1];
      WordTailOf(a, w[..|w| - 1]);
    }
  }

  /** `get_pipeline_name_from_trigger`: the word characters that end the
      trigger right after a `name:`, or `""`. */
  function PipelineNameFrom(trigger: string): (name: string)
    ensures AllWordChars(name)
    ensures name != "" ==> var body := DropFinalNewline(trigger);
                           '\n' !in body && EndsWith(body, NameMark + name)
  {
    var body := DropFinalNewline(trigger);
    var n := WordTail(body);
    var pre := body[..|body| - n];
    if '\n' !in body && n > 0 && EndsWith(pre, NameMark) then
      EndsWithMarkName(body, n);
      body[|body| - n..]
    else ""
  }

  /** A text whose last `n` characters follow a `name:` ends with the mark
      and those characters. */
  lemma EndsWithMarkName(body: string, n: nat)
    requires n <= |body| && EndsWith(body[..|body| - n], NameMark)
    ensures EndsWith(body, NameMark + body[|body| - n..])
  {
    var pre := body[..|body| - n];
    var name := body[|body| - n..];
    assert body == pre + name;
    assert body[|body| - |NameMark + name|..] == pre[|pre| - |NameMark|..] + name;
  }

  /** The name after the last `name:` is read back, whatever precedes it. */
  lemma PipelineNameOf(a: string, w: string)
    requires '\n' !in a
    requires |w| > 0 && AllWordChars(w)
    ensures PipelineNameFrom(a + NameMark + w) == w
    ensures PipelineNameFrom(a + NameMark + w + "\n") == w
  {
    var pre := a + NameMark;
    var s := pre + w;
    assert a + NameMark + w == s;
    assert s[|s| - 1] == w[|w| - 1];
    assert '\n' !in s by {
      forall i | 0 <= i < |s| ensures s[i] != '\n' {
        if i < |a| { assert s[i] == a[i]; }
        else if i < |pre| { assert s[i] == NameMark[i - |a|]; }
        else { assert s[i] == w[i - |pre|]; }
      }
    }
    DropAddedNewline(s);
    assert pre[|pre| - 1] == ':';
    WordTailOf(pre, w);
    assert s[..|s| - |w|] == pre && s[|s| - |w|..] == w;
    assert pre[|pre| - |NameMark|..] == NameMark;
  }

  // ---------------------------------------------------------------------
  // The accumulator

  /** `for cvar in vs: if not cvar in xs: xs.append(cvar)` */
  function AddNew(xs: seq<string>, vs: seq<string>): (r: seq<string>)
    ensures |xs| <= |r| && r[..|xs|] == xs
    ensures forall x :: x in r <==> x in xs || x in vs
    ensures NoDuplicates(xs) ==> NoDuplicates(r)
    ensures IsSubsequence(r[|xs|..], vs)
    decreases |vs|
  {
    if |vs| == 0 then xs
    else
      var ys := if vs[0] in xs then xs else xs + [vs[0]];
      var r := AddNew(ys, vs[1..]);
      assert r[..|xs|] == ys[..|xs|];
      assert forall x :: x in vs <==> x == vs[0] || x in vs[1..];
      if vs[0] in xs then
        SubsequenceSkip(r[|xs|..], vs);
        r
      else
        assert r[|xs|] == vs[0] by {
          assert r[..|ys|] == ys && r[..|ys|][|xs|] == r[|xs|];
        }
        assert r[|xs|..][0] == vs[0] && r[|xs|..][1..] == r[|ys|..];
        r
  }

  /** Adding what is already there changes nothing. */
  lemma {:induction false} AddNewPresent(xs: seq<string>, vs: seq<string>)
    requires forall v :: v in vs ==> v in xs
    ensures AddNew(xs, vs) == xs
    decreases |vs|
  {
    if |vs| > 0 {
      assert vs[0] in vs;
      AddNewPresent(xs, vs[1..]);
    }
  }

  /** Adding the same variables twice is adding them once. */
  lemma AddNewIdempotent(xs: seq<string>, vs: seq<string>)
    ensures AddNew(AddNew(xs, vs), vs) == AddNew(xs, vs)
  {
    AddNewPresent(AddNew(xs, vs), vs);
  }

  /** The inner loop of `populate_triggers`, run once per variable of the
      outer query. */
  function AddTimes(xs: seq<string>, vs: seq<string>, n: nat): (r: seq<string>)
    decreases n
  {
    if n == 0 then xs else AddTimes(AddNew(xs, vs), vs, n - 1)
  }

  /** Repeating the inner loop has the effect of running it once. */
  lemma {:induction false} AddTimesOnce(xs: seq<string>, vs: seq<string>, n: nat)
    ensures AddTimes(xs, vs, n) == if n == 0 then xs else AddNew(xs, vs)
    decreases n
  {
    if n > 1 {
      AddTimesOnce(AddNew(xs, vs), vs, n - 1);
      AddNewIdempotent(xs, vs);
    }
  }

  // ---------------------------------------------------------------------
  // populate_triggers

  /** An entry of the platform registry (defined outside the manager). */
  datatype Platform = Platform(distro: string, version: string)

  /** The fields of `ManagerTrigger` that `populate_triggers` reads and writes. */
  datatype TriggerState = TriggerState(all: bool, explicit: seq<string>, pipelineName: string, key: string)

  /** `x.strip()` for every part of `override.split(",")`, or the override
      alone when it has no comma. */
  function Jobs(override: string): (jobs: seq<string>)
    ensures ',' !in override ==> jobs == [override]
    ensures ',' in override ==> |jobs| == |Split(override, ',')| >= 2
    ensures ',' in override ==> forall i :: 0 <= i < |jobs| ==> ',' !in jobs[i] && jobs[i] == Strip(Split(override, ',')[i])
  {
    if ',' in override then
      var parts := Split(override, ',');
      assert |parts| >= 2;
      var jobs := seq(|parts|, i requires 0 <= i < |parts| => Strip(parts[i]));
      assert forall i :: 0 <= i < |jobs| ==> jobs[i] == Strip(parts[i]);
      jobs
    else [override]
  }

  /** `next((d.<field> for d in registry if d.<field> in text), None)`,
      with `""` for `None`: the first registry value found in `text`. */
  function FirstIn(values: seq<string>, text: string): (r: Option<string>)
    ensures r.Some? ==> r.value in values && Contains(text, r.value)
    ensures r.None? ==> forall v :: v in values ==> !Contains(text, v)
  {
    if |values| == 0 then None
    else if Contains(text, values[0]) then Some(values[0])
    else
      var r := FirstIn(values[1..], text);
      assert forall v :: v in values ==> v == values[0] || v in values[1..];
      r
  }

  /** `None` where `ci_pipelines` treats `None` and `""` alike. */
  function OrEmpty(o: Option<string>): string {
    if o.Some? then o.value else ""
  }

  function Distros(registry: seq<Platform>): seq<string> {
    seq(|registry|, i requires 0 <= i < |registry| => registry[i].distro)
  }

  function DistroVersions(registry: seq<Platform>): seq<string> {
    seq(|registry|, i requires 0 <= i < |registry| => registry[i].version)
  }

  /** The part of the job the registry is searched in: the second `_` part
      when there is one. */
  function DistroText(job: string): string {
    if '_' in job then Split(job, '_')[1] else job
  }

  /** The pipeline name after the job: read from the job when the job names
      no version, kept otherwise. */
  function JobPipelineName(name: string, job: string): string {
    if CudaVersionFrom(job, true) == "" then PipelineNameFrom(job) else name
  }

  /** The outer `ci_pipelines(version, distro, distro_version)` of the job. */
  function OuterOf(job: string, lines: seq<string>, registry: seq<Platform>): seq<string> {
    var text := DistroText(job);
    CiPipelines(lines, CudaVersionFrom(job, true), OrEmpty(FirstIn(Distros(registry), text)), OrEmpty(FirstIn(DistroVersions(registry), text)))
  }

  /** The variables the inner loop adds: by name for a named pipeline other
      than `default`, else the outer query once more. */
  function VarsOf(name: string, job: string, lines: seq<string>, registry: seq<Platform>): seq<string> {
    if name != "" && !Contains(name, DefaultPipeline) then CiPipelineByName(lines, name)
    else OuterOf(job, lines, registry)
  }

  /** One pass of the job loop. The variables are added once per result of
      the outer query, so a job whose outer query finds nothing adds
      nothing, even when its variables come from the by-name scan. */
  function JobStep(st: TriggerState, job: string, lines: seq<string>, registry: seq<Platform>): (r: TriggerState)
    ensures r.all == st.all
    ensures r.pipelineName == JobPipelineName(st.pipelineName, job)
    ensures r.key == TriggerKey(CudaVersionFrom(job, true), r.pipelineName)
    ensures |st.explicit| <= |r.explicit| && r.explicit[..|st.explicit|] == st.explicit
    ensures NoDuplicates(st.explicit) ==> NoDuplicates(r.explicit)
    ensures forall x :: x in r.explicit <==>
              x in st.explicit || (|OuterOf(job, lines, registry)| > 0 && x in VarsOf(r.pipelineName, job, lines, registry))
  {
    var version := CudaVersionFrom(job, true);
    var name := JobPipelineName(st.pipelineName, job);
    var outer := OuterOf(job, lines, registry);
    var vars := VarsOf(name, job, lines, registry);
    var explicit := AddTimes(st.explicit, vars, |outer|);
    AddTimesOnce(st.explicit, vars, |outer|);
    TriggerState(st.all, explicit, name, TriggerKey(version, name))
  }

  /** The pipeline name in force after a run of jobs. */
  function NameAfter(name: string, jobs: seq<string>): string
    decreases |jobs|
  {
    if |jobs| == 0 then name else NameAfter(JobPipelineName(name, jobs[0]), jobs[1..])
  }

  /** `x` is a variable some job of the run selects: its outer query finds
      something and `x` is among the variables of the pipeline name in
      force after that job. */
  predicate Selects(name: string, jobs: seq<string>, lines: seq<string>, registry: seq<Platform>, x: string)
    decreases |jobs|
  {
    && |jobs| > 0
    && var name' := JobPipelineName(name, jobs[0]);
       || (|OuterOf(jobs[0], lines, registry)| > 0 && x in VarsOf(name', jobs[0], lines, registry))
       || Selects(name', jobs[1..], lines, registry, x)
  }

  /** The job loop: the explicit list keeps what it held, in order, and
      gains exactly the variables the jobs select, none twice. */
  function JobLoop(st: TriggerState, jobs: seq<string>, lines: seq<string>, registry: seq<Platform>): (r: TriggerState)
    ensures r.all == st.all
    ensures r.pipelineName == NameAfter(st.pipelineName, jobs)
    ensures |st.explicit| <= |r.explicit| && r.explicit[..|st.explicit|] == st.explicit
    ensures NoDuplicates(st.explicit) ==> NoDuplicates(r.explicit)
    ensures forall x :: x in r.explicit <==> x in st.explicit || Selects(st.pipelineName, jobs, lines, registry, x)
    decreases |jobs|
  {
    if |jobs| == 0 then st
    else
      var s1 := JobStep(st, jobs[0], lines, registry);
      var r := JobLoop(s1, jobs[1..], lines, registry);
      assert r.explicit[..|st.explicit|] == r.explicit[..|s1.explicit|][..|st.explicit|];
      r
  }

  /** `populate_triggers` (it always returns `True`): an override holding
      `all` only sets `trigger_all`; otherwise each job adds its gate
      variables to `trigger_explicit`, which keeps what it held, in order,
      and gains exactly the variables the jobs select, none twice. */
  function PopulateTriggers(override: string, lines: seq<string>, registry: seq<Platform>, st: TriggerState): (r: TriggerState)
    ensures Contains(override, AllWord) ==> r.all && r.explicit == st.explicit
    ensures !Contains(override, AllWord) ==> r.all == st.all
    ensures |st.explicit| <= |r.explicit| && r.explicit[..|st.explicit|] == st.explicit
    ensures NoDuplicates(st.explicit) ==> NoDuplicates(r.explicit)
    ensures !Contains(override, AllWord) ==>
              forall x :: x in r.explicit <==> x in st.explicit || Selects(st.pipelineName, Jobs(override), lines, registry, x)
  {
    if Contains(override, AllWord) then st.(all := true)
    else JobLoop(st, Jobs(override), lines, registry)
  }

  // ---------------------------------------------------------------------
  // Where the selected variables come from

  /** `x` is the variable of some gate line of the file. */
  ghost predicate IsGateVar(lines: seq<string>, x: string) {
    exists i: nat, p: nat, q: nat :: i < |lines| && GateLine(lines[i], p, q) && x == lines[i][p..q]
  }

  lemma ScanGateVar(lines: seq<string>, idRe: Re, x: string)
    requires x in Scan(lines, idRe)
    ensures IsGateVar(lines, x)
  {
    var i :| 0 <= i < |lines| && GateId(idRe, lines[i]) == Some(x);
    GateIdSound(idRe, lines[i], x);
  }

  lemma {:induction false} JobLoopSound(st: TriggerState, jobs: seq<string>, lines: seq<string>, registry: seq<Platform>, x: string)
    requires x in JobLoop(st, jobs, lines, registry).explicit
    ensures x in st.explicit || IsGateVar(lines, x)
    decreases |jobs|
  {
    if |jobs| > 0 {
      var s1 := JobStep(st, jobs[0], lines, registry);
      JobLoopSound(s1, jobs[1..], lines, registry, x);
      if x in s1.explicit && x !in st.explicit {
        var name := s1.pipelineName;
        if name != "" && !Contains(name, DefaultPipeline) {
          ScanGateVar(lines, ByNameRe(name), x);
        } else {
          var text := DistroText(jobs[0]);
          ScanGateVar(lines, PipelineRe(CudaVersionFrom(jobs[0], true), OrEmpty(FirstIn(Distros(registry), text)),
            OrEmpty(FirstIn(DistroVersions(registry), text))), x);
        }
      }
    }
  }

  /** Every variable `populate_triggers` adds is the variable of a gate line
      of `.gitlab-ci.yml`. */
  lemma PopulateTriggersSound(override: string, lines: seq<string>, registry: seq<Platform>, st: TriggerState, x: string)
    requires x in PopulateTriggers(override, lines, registry, st).explicit
    ensures x in st.explicit || IsGateVar(lines, x)
  {
    if !Contains(override, AllWord) {
      JobLoopSound(st, Jobs(override), lines, registry, x);
    }
  }

  /** The key a job with a version leaves behind reads back as that version
      and the pipeline name in force. */
  lemma JobKeyParses(st: TriggerState, job: string, lines: seq<string>, registry: seq<Platform>)
    requires CudaVersionFrom(job, true) != ""
    requires ValidName(st.pipelineName)
    ensures var r := JobStep(st, job, lines, registry);
            var k := ParseReleaseKey(r.key);
            k.Some? && k.value.version == CudaVersionFrom(job, true) && PipelineOf(k.value) == st.pipelineName
  {
    ReleaseKeyRoundTrip(CudaVersionFrom(job, true), st.pipelineName);
  }
}

=== FILE: utils.dfy ===
/** The helpers of `utils.py`: the distros and architectures a release
    supports, registry credential selection, the newest L4T base image tag,
    and the package names read from the templates. The platform registry,
    the environment and the outputs of external commands are parameters. */
module Utils {
  import opened Wrappers
  import opened Strings
  import opened StringOrder
  import opened Manifest
  import ReleaseKeys

  /** The release key `f"cuda_v{version}"`. */
  function ReleaseKeyOf(version: string): string {
    ReleaseKeys.KeyPrefix + version
  }

  // ---------------------------------------------------------------------
  // supported_distro_list_by_cuda_version

  /** The full names (`ubuntu20.04`, `ubi8`, ...) that occur inside some key. */
  function NamesIn(fullNames: seq<string>, keys: seq<string>): (r: seq<string>)
    ensures forall n :: n in r <==> n in fullNames && exists k :: k in keys && Contains(k, n)
  {
    Filter(fullNames, n => exists k | k in keys :: Contains(k, n))
  }

  /** `supported_distro_list_by_cuda_version(manifest, version)`
      (utils.py:192-202): the registry full names found as a substring of
      some key of the release, sorted and without repeats. A missing
      release key raises, and so does a release that is not a mapping. */
  function SupportedDistroList(manifest: Value, version: string, fullNames: seq<string>): (r: Result<seq<string>>)
    ensures r.Ok? <==> Descend(manifest, [ReleaseKeyOf(version)]).Some? && Descend(manifest, [ReleaseKeyOf(version)]).value.Map?
    ensures r.Ok? ==> StrictlyIncreasing(r.value) && NoDuplicates(r.value)
    ensures r.Ok? ==> forall n :: n in r.value <==>
              n in fullNames && exists k :: k in Keys(Descend(manifest, [ReleaseKeyOf(version)]).value.entries) && Contains(k, n)
  {
    match Descend(manifest, [ReleaseKeyOf(version)])
    case Some(Map(e)) =>
      var r := SortedSet(NamesIn(fullNames, Keys(e)));
      StrictlyIncreasingHasNoDuplicates(r);
      Ok(r)
    case Some(_) => Err("release entry has no attribute 'keys'")
    case None => Err("KeyError: release key")
  }

  // ---------------------------------------------------------------------
  // supported_arch_list

  /** `supported_arch_list(manifest, distro, cuda_version)` (utils.py:205-215):
      the keys of `manifest[cuda_v<version>][distro]` that are architecture
      common names, in manifest order. A missing path raises. */
  function SupportedArchList(manifest: Value, distro: string, cudaVersion: string, archNames: set<string>): (r: Result<seq<string>>)
    ensures r.Ok? <==> Descend(manifest, [ReleaseKeyOf(cudaVersion), distro]).Some? && Descend(manifest, [ReleaseKeyOf(cudaVersion), distro]).value.Map?
    ensures r.Ok? ==>
              var keys := Keys(Descend(manifest, [ReleaseKeyOf(cudaVersion), distro]).value.entries);
              && IsSubsequence(r.value, keys)
              && forall a :: a in r.value <==> a in keys && a in archNames
  {
    match Descend(manifest, [ReleaseKeyOf(cudaVersion), distro])
    case Some(Map(e)) => Ok(Filter(Keys(e), k => k in archNames))
    case Some(_) => Err("distro entry is not a mapping")
    case None => Err("PathAccessError: release or distro")
  }

  /** The shape of the test vector `supported_arch_list(..., "ubi8", "11.6.2")`:
      a distro entry holding the three architectures among other keys
      yields exactly those three, in manifest order. */
  const ArchTestVersion := "11.6.2"
  const ArchTestDistro := "ubi8"
  const Arm64 := "arm64"
  const Ppc64le := "ppc64le"
  const X86_64 := "x86_64"

  lemma SupportedArchListVector(e: seq<(string, Value)>, other: Value, archNames: set<string>)
    requires archNames == {Arm64, Ppc64le, X86_64, "sbsa", "tegra"}
    requires e == [(ExcludeReposKey, other), (Arm64, Empty), (Ppc64le, Empty), (X86_64, Empty)]
    ensures SupportedArchList(Map([(ReleaseKeyOf(ArchTestVersion), Map([(ArchTestDistro, Map(e))]))]),
                              ArchTestDistro, ArchTestVersion, archNames) == Ok([Arm64, Ppc64le, X86_64])
  {
    VectorDescend(e);
    VectorFilter(e, archNames);
  }

  /** The test vector's distro entry is found under its release and distro. */
  lemma VectorDescend(e: seq<(string, Value)>)
    ensures Descend(Map([(ReleaseKeyOf(ArchTestVersion), Map([(ArchTestDistro, Map(e))]))]),
                    [ReleaseKeyOf(ArchTestVersion), ArchTestDistro]) == Some(Map(e))
  {
    var rk := ReleaseKeyOf(ArchTestVersion);
    var inner := [(ArchTestDistro, Map(e))];
    assert Find([(rk, Map(inner))], rk) == Some(Map(inner));
    assert Find(inner, ArchTestDistro) == Some(Map(e));
    assert Descend(Map(inner), [ArchTestDistro]) == Some(Map(e));
    assert [rk, ArchTestDistro][1..] == [ArchTestDistro];
  }

  /** Of the test vector's keys, the three architectures are kept in order. */
  lemma VectorFilter(e: seq<(string, Value)>, archNames: set<string>)
    requires archNames == {Arm64, Ppc64le, X86_64, "sbsa", "tegra"}
    requires |e| == 4 && e[0].0 == ExcludeReposKey && e[1].0 == Arm64 && e[2].0 == Ppc64le && e[3].0 == X86_64
    ensures Filter(Keys(e), k => k in archNames) == [Arm64, Ppc64le, X86_64]
  {
    var keys := Keys(e);
    assert keys == [ExcludeReposKey, Arm64, Ppc64le, X86_64];
    var keep := (k: string) => k in archNames;
    assert ExcludeReposKey !in archNames;
    assert Filter(keys[3..], keep) == [X86_64] by { assert keys[3..][1..] == []; }
    assert Filter(keys[2..], keep) == [Ppc64le, X86_64] by { assert keys[2..][1..] == keys[3..]; }
    assert Filter(keys[1..], keep) == [Arm64, Ppc64le, X86_64] by { assert keys[1..][1..] == keys[2..]; }
  }

  // ---------------------------------------------------------------------
  // auth_registries

  /** The environment: `os.getenv(name)`. */
  type Env = map<string, string>

  function GetEnv(env: Env, name: string): Option<string> {
    if name in env then Some(env[name]) else None
  }

  /** The value used for a credential: the environment variable it names
      when that is set and non-empty, otherwise the name itself. */
  function Credential(env: Env, name: string): (c: string)
    ensures name in env && env[name] != "" ==> c == env[name]
    ensures !(name in env && env[name] != "") ==> c == name
  {
    match GetEnv(env, name)
    case Some(v) => if v != "" then v else name
    case None => name
  }

  datatype Cred = Cred(user: string, pass: string)

  /** `metadata[field]` as a string: a missing field raises; a field that is
      not a string cannot name an environment variable. */
  function Field(metadata: seq<(string, Value)>, field: string): (r: Result<string>)
    ensures r.Ok? <==> Find(metadata, field).Some? && Find(metadata, field).value.Str?
    ensures r.Ok? ==> Find(metadata, field) == Some(Str(r.value))
  {
    var f: Option<Value> := Find(metadata, field);
    match f
    case Some(Str(s)) => Ok(s)
    case Some(_) => Err("TypeError: not a string")
    case None => Err("KeyError: " + field)
  }

  /** `metadata.get("only_if", False) and not os.getenv(metadata["only_if"])`:
      whether a repository is skipped. */
  function OnlyIfUnmet(metadata: seq<(string, Value)>, env: Env): (r: Result<bool>)
    ensures Find(metadata, "only_if").None? ==> r == Ok(false)
    ensures r == Ok(true) <==> exists v :: Find(metadata, "only_if") == Some(Str(v)) && v != "" && !(v in env && env[v] != "")
  {
    var f: Option<Value> := Find(metadata, "only_if");
    match f
    case None => Ok(false)
    case Some(v) =>
      if !Truthy(v) then Ok(false)
      else if !v.Str? then Err("TypeError: str expected")
      else Ok(!(v.s in env && env[v.s] != ""))
  }

  /** One repository of `auth_registries`: skipped, or its registry and
      credentials. */
  function RegistryEntry(metadata: Value, env: Env): (r: Result<Option<(string, Cred)>>)
    ensures r.Ok? && r.value.Some? ==>
              && metadata.Map?
              && OnlyIfUnmet(metadata.entries, env) == Ok(false)
              && Field(metadata.entries, "registry") == Ok(r.value.value.0)
              && exists u, p :: Field(metadata.entries, "user") == Ok(u) && Field(metadata.entries, "pass") == Ok(p)
                                && r.value.value.1 == Cred(Credential(env, u), Credential(env, p))
    ensures r == Ok(None) <==> metadata.Map? && OnlyIfUnmet(metadata.entries, env) == Ok(true)
  {
    if !metadata.Map? then Err("metadata has no attribute 'get'")
    else
      var m := metadata.entries;
      match OnlyIfUnmet(m, env)
      case Err(e) => Err(e)
      case Ok(skip) =>
        if skip then Ok(None)
        else
          match Field(m, "user")
          case Err(e) => Err(e)
          case Ok(u) =>
            match Field(m, "pass")
            case Err(e) => Err(e)
            case Ok(p) =>
              match Field(m, "registry")
              case Err(e) => Err(e)
              case Ok(reg) => Ok(Some((reg, Cred(Credential(env, u), Credential(env, p)))))
  }

  /** The loop of `auth_registries` over the push repositories, adding each
      selected registry to the dictionary `repos`. */
  function AuthLoop(repos: seq<(string, Cred)>, pushRepos: seq<(string, Value)>, env: Env): (r: Result<seq<(string, Cred)>>)
    decreases |pushRepos|
  {
    if |pushRepos| == 0 then Ok(repos)
    else
      match RegistryEntry(pushRepos[0].1, env)
      case Err(e) => Err(e)
      case Ok(None) => AuthLoop(repos, pushRepos[1..], env)
      case Ok(Some(entry)) => AuthLoop(Put(repos, entry.0, entry.1), pushRepos[1..], env)
  }

  /** `auth_registries(push_repos)` up to the logins (utils.py:28-43): the
      credentials per registry; no registry selected ends the program. */
  function AuthRegistries(pushRepos: Value, env: Env): (r: Result<seq<(string, Cred)>>)
    ensures r.Ok? ==> |r.value| > 0 && UniqueKeys(r.value)
  {
    match Items(pushRepos)
    case Err(e) => Err(e)
    case Ok(items) =>
      match AuthLoop([], items, env)
      case Err(e) => Err(e)
      case Ok(repos) =>
        AuthLoopUnique([], items, env);
        if |repos| == 0 then Err("Could not retrieve registry credentials") else Ok(repos)
  }

  lemma {:induction false} AuthLoopUnique(repos: seq<(string, Cred)>, pushRepos: seq<(string, Value)>, env: Env)
    requires UniqueKeys(repos)
    ensures AuthLoop(repos, pushRepos, env).Ok? ==> UniqueKeys(AuthLoop(repos, pushRepos, env).value)
    decreases |pushRepos|
  {
    if |pushRepos| > 0 {
      match RegistryEntry(pushRepos[0].1, env)
      case Err(_) =>
      case Ok(None) => AuthLoopUnique(repos, pushRepos[1..], env);
      case Ok(Some(entry)) => AuthLoopUnique(Put(repos, entry.0, entry.1), pushRepos[1..], env);
    }
  }

  /** The selected entries, in order, when every repository is well formed. */
  function Selected(pushRepos: seq<(string, Value)>, env: Env): seq<(string, Cred)>
    decreases |pushRepos|
  {
    if |pushRepos| == 0 then []
    else
      match RegistryEntry(pushRepos[0].1, env)
      case Ok(Some(entry)) => [entry] + Selected(pushRepos[1..], env)
      case _ => Selected(pushRepos[1..], env)
  }

  /** The credentials of the last selected repository of a registry. */
  function LastFor(sel: seq<(string, Cred)>, registry: string): Option<Cred>
    decreases |sel|
  {
    if |sel| == 0 then None
    else if sel[|sel| - 1].0 == registry then Some(sel[|sel| - 1].1)
    else LastFor(sel[..|sel| - 1], registry)
  }

  /** The last repository selected for a registry wins: every registry
      holds the credentials of its last selected repository, and nothing
      else is present. */
  lemma AuthRegistriesLastWins(pushRepos: Value, env: Env, registry: string)
    requires AuthRegistries(pushRepos, env).Ok?
    ensures Find(AuthRegistries(pushRepos, env).value, registry) == LastFor(Selected(pushRepos.entries, env), registry)
  {
    AuthLoopLast([], pushRepos.entries, env, registry);
    assert LastFor([], registry) == None;
  }

  lemma {:induction false} AuthLoopLast(repos: seq<(string, Cred)>, pushRepos: seq<(string, Value)>, env: Env, registry: string)
    requires AuthLoop(repos, pushRepos, env).Ok?
    ensures LastFor(Selected(pushRepos, env), registry).Some? ==>
              Find(AuthLoop(repos, pushRepos, env).value, registry) == LastFor(Selected(pushRepos, env), registry)
    ensures LastFor(Selected(pushRepos, env), registry).None? ==>
              Find(AuthLoop(repos, pushRepos, env).value, registry) == Find(repos, registry)
    decreases |pushRepos|
  {
    if |pushRepos| > 0 {
      var sel := Selected(pushRepos, env);
      var rest := Selected(pushRepos[1..], env);
      match RegistryEntry(pushRepos[0].1, env)
      case Ok(None) =>
        AuthLoopLast(repos, pushRepos[1..], env, registry);
      case Ok(Some(entry)) =>
        var repos' := Put(repos, entry.0, entry.1);
        AuthLoopLast(repos', pushRepos[1..], env, registry);
        LastForCons(entry, rest, registry);
    }
  }

  lemma {:induction false} LastForCons(x: (string, Cred), sel: seq<(string, Cred)>, registry: string)
    ensures LastFor([x] + sel, registry) == if LastFor(sel, registry).Some? then LastFor(sel, registry)
                                             else if x.0 == registry then Some(x.1) else None
    decreases |sel|
  {
    if |sel| > 0 {
      var s := [x] + sel;
      assert s[..|s| - 1] == [x] + sel[..|sel| - 1];
      LastForCons(x, sel[..|sel| - 1], registry);
    } else {
      assert [x] + sel == [x];
      assert ([x] + sel)[..0] == [];
    }
  }

  // ---------------------------------------------------------------------
  // latest_l4t_base_image

  const L4tBaseImageName := "nvcr.io/nvidian/nvidia-l4t-base"
  const TagsWord := "Tags"

  /** `re.match("^r[\d]*\.", tag)`: `r`, digits, then a dot. */
  predicate IsL4tTag(tag: string) {
    |tag| > 0 && tag[0] == 'r' && 1 + DigitRun(tag[1..]) < |tag| && tag[1 + DigitRun(tag[1..])] == '.'
  }

  /** The tag list of the skopeo reply: the value of the last key that
      contains `Tags`, or nothing. */
  function TagList(reply: seq<(string, seq<string>)>): (tags: seq<string>)
    ensures forall t :: t in tags ==> exists i :: 0 <= i < |reply| && Contains(reply[i].0, TagsWord) && t in reply[i].1
    ensures forall j :: (0 <= j < |reply| && Contains(reply[j].0, TagsWord)
                         && forall i :: j < i < |reply| ==> !Contains(reply[i].0, TagsWord)) ==> tags == reply[j].1
    ensures (forall i :: 0 <= i < |reply| ==> !Contains(reply[i].0, TagsWord)) ==> tags == []
    decreases |reply|
  {
    if |reply| == 0 then []
    else if Contains(reply[|reply| - 1].0, TagsWord) then reply[|reply| - 1].1
    else
      var init := reply[..|reply| - 1];
      var r := TagList(init);
      assert forall i :: 0 <= i < |init| ==> init[i] == reply[i];
      assert forall j :: 0 <= j < |reply| && Contains(reply[j].0, TagsWord) ==> j < |init|;
      r
  }

  /** `latest_l4t_base_image()` once the tag listing is in hand
      (utils.py:177-189): the image name with the greatest tag of the form
      `r<digits>.…`; no such tag is an index error. */
  function LatestL4tBaseImage(reply: seq<(string, seq<string>)>): (r: Result<string>)
    ensures var tags := Filter(TagList(reply), IsL4tTag);
            r.Ok? <==> |tags| > 0
    ensures r.Ok? ==> exists t :: r.value == L4tBaseImageName + ":" + t && IsL4tTag(t) && t in TagList(reply)
                                 && forall u :: u in TagList(reply) && IsL4tTag(u) ==> !Less(t, u)
  {
    var tags := Filter(TagList(reply), IsL4tTag);
    var sorted := SortDescending(tags);
    if |sorted| == 0 then
      Err("IndexError: list index out of range")
    else
      SortedFirstIsGreatest(tags, sorted);
      Ok(L4tBaseImageName + ":" + sorted[0])
  }

  /** The head of `sorted(xs, reverse=True)` is an element of `xs` no element
      exceeds. */
  lemma SortedFirstIsGreatest(xs: seq<string>, sorted: seq<string>)
    requires sorted == SortDescending(xs) && |sorted| > 0
    ensures sorted[0] in xs && forall u :: u in xs ==> !Less(sorted[0], u)
  {
    assert sorted[0] in multiset(sorted);
    forall u | u in xs ensures !Less(sorted[0], u) {
      assert u in multiset(xs);
      assert u in multiset(sorted);
      var j :| 0 <= j < |sorted| && sorted[j] == u;
      if j > 0 {
        assert !Less(sorted[0], sorted[j]);
      } else {
        LessIrreflexive(u);
      }
    }
  }

  // ---------------------------------------------------------------------
  // template_packages

  const VersionMarker := "_VERSION"
  const CudaLibMarker := "CUDA_LIB"
  const CentosWord := "centos"
  const UbiWord := "ubi"

  /** The template directory searched for a distro: `redhat` for CentOS and
      UBI, `ubuntu` for every other distro (utils.py:114-116). */
  function TemplateDir(distro: string): (d: string)
    ensures d == "redhat" <==> Contains(distro, CentosWord) || Contains(distro, UbiWord)
    ensures d == "redhat" || d == "ubuntu"
  {
    if Contains(distro, CentosWord) || Contains(distro, UbiWord) then "redhat" else "ubuntu"
  }

  /** Python's `s[i:j]` for `0 <= i` and a possibly short `s`. */
  function Slice(s: string, i: nat, j: int): (r: string)
    ensures i <= j <= |s| ==> r == s[i..j]
    ensures j <= i || |s| <= i ==> r == ""
  {
    if j <= i || |s| <= i then ""
    else if j <= |s| then s[i..j]
    else s[i..]
  }

  /** `x[3 : -len("_VERSION")].lower()` */
  function PackageName(x: string): string {
    Lower(Slice(x, 3, |x| - |VersionMarker|))
  }

  predicate KeepsPackage(x: string) {
    Contains(x, VersionMarker) && !Contains(x, CudaLibMarker)
  }

  /** The post-processing of `template_packages` (utils.py:137-141) over the
      `NV_<NAME>_VERSION` words found in the templates: the names of the
      kept words, lower-cased, in the order the words came. */
  function TemplatePackages(words: seq<string>): (r: seq<string>)
    ensures |r| <= |words|
    ensures forall i :: 0 <= i < |r| ==> forall k :: 0 <= k < |r[i]| ==> !IsUpper(r[i][k])
    ensures forall x :: x in words && KeepsPackage(x) ==> PackageName(x) in r
    ensures var kept := Filter(words, KeepsPackage);
            |r| == |kept| && forall i :: 0 <= i < |r| ==> r[i] == PackageName(kept[i])
  {
    if |words| == 0 then []
    else
      var rest := TemplatePackages(words[1..]);
      assert forall x :: x in words ==> x == words[0] || x in words[1..];
      var kept := Filter(words[1..], KeepsPackage);
      if KeepsPackage(words[0]) then
        assert Filter(words, KeepsPackage) == [words[0]] + kept;
        [PackageName(words[0])] + rest
      else
        assert Filter(words, KeepsPackage) == kept;
        rest
  }

  /** An environment word `NV_<NAME>_VERSION` yields its name in lower case. */
  lemma PackageNameOfWord(name: string)
    ensures PackageName("NV_" + name + VersionMarker) == Lower(name)
  {
    var x := "NV_" + name + VersionMarker;
    assert |x| == 3 + |name| + 8;
    assert x[3..3 + |name|] == name;
  }
}

=== FILE: wrappers.dfy ===
/** Failure-carrying results shared by every module of the model. A Python
    exception that ends the current command (KeyError, IndexError,
    TypeError, sys.exit) is an `Err` whose text names what went wrong. */
module Wrappers {

  datatype Option<+T> = None | Some(value: T)

  datatype Result<+T> = Ok(value: T) | Err(msg: string) {
    predicate IsFailure() { Err? }

    function PropagateFailure<U>(): Result<U>
      requires Err?
    {
      Err(msg)
    }

    function Extract(): T
      requires Ok?
    {
      value
    }
  }

  /** The present values, in order. */
  function Collect<T(==,!new)>(xs: seq<Option<T>>): (ys: seq<T>)
    ensures |ys| <= |xs|
    ensures forall y :: y in ys <==> exists i :: 0 <= i < |xs| && xs[i] == Some(y)
  {
    if |xs| == 0 then []
    else
      var rest := Collect(xs[1..]);
      assert forall i :: 1 <= i < |xs| ==> xs[i] == xs[1..][i - 1];
      assert forall i :: 0 <= i < |xs[1..]| ==> xs[1..][i] == xs[i + 1];
      match xs[0]
      case Some(x) => [x] + rest
      case None => rest
  }

  /** Collecting keeps the order: a concatenation collects to the
      concatenation of the parts' values. */
  lemma {:induction false} CollectConcat<T(!new)>(xs: seq<Option<T>>, ys: seq<Option<T>>)
    ensures Collect(xs + ys) == Collect(xs) + Collect(ys)
  {
    if |xs| == 0 {
      assert xs + ys == ys;
    } else {
      assert (xs + ys)[0] == xs[0] && (xs + ys)[1..] == xs[1..] + ys;
      CollectConcat(xs[1..], ys);
    }
  }

  /** A single option collects to its value, or to nothing. */
  lemma CollectOne<T(!new)>(x: Option<T>)
    ensures Collect([x]) == if x.Some? then [x.value] else []
  {
    assert [x][1..] == [];
  }

  /** `a` is `b` with some elements left out, the rest kept in order. */
  predicate IsSubsequence<T(==)>(a: seq<T>, b: seq<T>)
    decreases |b|
  {
    if |a| == 0 then true
    else if |b| == 0 then false
    else if a[0] == b[0] then IsSubsequence(a[1..], b[1..])
    else IsSubsequence(a, b[1..])
  }

  /** `[x for x in xs if keep(x)]` */
  function Filter<T(==,!new)>(xs: seq<T>, keep: T -> bool): (ys: seq<T>)
    ensures forall y :: y in ys <==> y in xs && keep(y)
    ensures IsSubsequence(ys, xs)
  {
    if |xs| == 0 then []
    else
      var rest := Filter(xs[1..], keep);
      assert forall y :: y in xs <==> y == xs[0] || y in xs[1..];
      if keep(xs[0]) then
        assert ([xs[0]] + rest)[1..] == rest;
        [xs[0]] + rest
      else
        SubsequenceSkip(rest, xs);
        rest
  }

  /** A subsequence of the tail is a subsequence of the whole. */
  lemma {:induction false} SubsequenceSkip<T>(a: seq<T>, b: seq<T>)
    requires |b| > 0 && IsSubsequence(a, b[1..])
    ensures IsSubsequence(a, b)
    decreases |a| + |b|
  {
    if |a| > 0 && a[0] == b[0] {
      SubsequenceTail(a, b[1..]);
    }
  }

  /** Dropping the first element keeps a subsequence a subsequence. */
  lemma {:induction false} SubsequenceTail<T>(a: seq<T>, c: seq<T>)
    requires |a| > 0 && IsSubsequence(a, c)
    ensures IsSubsequence(a[1..], c)
    decreases |a| + |c|
  {
    if a[0] == c[0] {
      SubsequenceSkip(a[1..], c);
    } else {
      SubsequenceTail(a, c[1..]);
      SubsequenceSkip(a[1..], c);
    }
  }
}
